=== FILE: README.md ===
# plants-map garden editor, modelled in Dafny

plants-map is a browser editor for a botanical garden's map. The garden's
plants, plant-card rectangles, map zones and map sectors live as entries in
a Contentful space. The editor does the following:

- loads those entries into react-query caches;
- draws them as Leaflet and Mapbox-draw markers that unlock and lock on a
  context-click;
- writes every move back with a get, JSON-Patch and publish exchange
  against the Contentful management API, updating the cache optimistically
  and rolling it back on failure;
- tags plants as pinned, planted or dead;
- exports and imports surveyed points.

This project models that core as pure Dafny functions and proves what the
code promises about it. The modules follow the source files:

| module | models |
|---|---|
| `Models`, `Wrappers` | the plant, rectangle, zone, sector and measured-point records; `Option`/`Result` |
| `Lists` | `findIndex`, `splice`, `filter`, `map` and the optimistic "replace by id or append" updater |
| `TagUpdates`, `ExportedIds` | `update-tag-on-plant.ts`, `use-exported-ids.tsx` |
| `JsonPatch`, `Encodings` | JSON values, patch operations with RFC 6902 add/replace semantics, and the field encodings the mutations write |
| `Remote` | the management client as a store of functions: get, patch, publish and create, each of which may reject |
| `QueryCache`, `Optimistic` | the react-query cache entries, and the onMutate/onError/onSettled protocol |
| `PlantPositionMutation`, `RectangleCoordsMutation`, `MapZoneCoordsMutation`, `MapSectorGeoJsonMutation`, `TagMutations`, `CreateSectorMutation` | the eight mutation hooks |
| `Projection` | `entryToPlant`, `entryCollectionToPaginatedResult`, `getTags`, `useTags` |
| `Counts`, `CoordsText`, `MapZoneGen`, `Sorting`, `EntriesSearch`, `TagPicker`, `PointsExport`, `PointsLoader` | the counters, text helpers and side panels |
| `MarkerLock`, `PlantMarker`, `RectangleMarker`, `MapZoneMarker`, `MapSectorMarker` | the markers' lock, buffer and commit state machines and their colours |
| `SimpleDrag`, `EditorMapGl` | the custom Mapbox-draw drag mode and the map that hosts it |
| `PlantAside`, `MainRules` | the plant panel's quick actions, and the click handlers of `main.tsx` |

Some things the program gets from libraries the model cannot see. Each
becomes a function parameter with no assumed behaviour:

- number formatting (`toFixed`, number-to-text), `parseFloat`;
- `Date.prototype.toISOString`, `localeCompare`, `toLowerCase`;
- `generateRectangle`, uuid generation.

A comparator given for `localeCompare` is only required to be a collation:
sign-antisymmetric and transitive. The remote store is likewise a
parameter, whose every call either answers or rejects.

## Model

| member | source | states |
|---|---|---|
| Lists.FindIndex | src/lib/update-tag-on-plant.ts:12 | the first index whose element satisfies the predicate, or -1 exactly when none does |
| Lists.IndexOfId | src/lib/mutations/update-plant-position.mutation.ts:44 | the first index carrying the id, or -1 exactly when no element carries it |
| Lists.IndexOfIdSameKeys | src/lib/update-tag-on-plant.ts:12-16 | the lookup depends only on the ids, so rewriting a plant's tags keeps every plant at its index |
| Lists.ReplaceByIdOrAppend | src/lib/mutations/update-plant-position.mutation.ts:43-53 | an unknown id is appended; a known id has its first element replaced and every other element kept |
| Lists.ReplaceByIdOrAppendFindsNew | src/lib/mutations/update-plant-position.mutation.ts:43-53 | after the optimistic write, looking the id up finds exactly the written element |
| Lists.ReplaceByIdOrAppendIdempotent | src/lib/mutations/update-plant-position.mutation.ts:43-53 | repeating the same optimistic write changes nothing further |
| Lists.RemoveAt | src/lib/use-exported-ids.tsx:15-20 | the list without its element at the index, the rest in order |
| Lists.Filter | src/components/main.tsx:447-453 | an element is kept exactly when it is in the list and satisfies the predicate; the result is no longer than the list |
| Lists.FilterConcat | src/components/points-export.tsx:35-43 | filtering distributes over concatenation |
| Lists.FilterSplitsLength | src/components/Counts.tsx:10-21 | the kept and the dropped parts of a list add up to its length |
| Lists.FilterMonotone | src/components/Counts.tsx:16-17 | a stronger predicate keeps no more elements |
| Lists.Map | src/components/points-loader.tsx:33-37 | one output per input, each the image of its input |
| TagUpdates.IndexOfTag | src/lib/update-tag-on-plant.ts:19-23 | `indexOf`: the first position of the tag, or -1 exactly when it is absent |
| TagUpdates.SplicedOut | src/lib/update-tag-on-plant.ts:25 | what `splice(i, 1)` returns is the one removed element, not the shortened array |
| TagUpdates.UpdateTagOnPlant | src/lib/update-tag-on-plant.ts:11-30 | the list keeps its length and ids, and only the first plant with the id can change |
| TagUpdates.UpsertPlantTag | src/lib/update-tag-on-plant.ts:3-5 | the first plant with the id carries the tag afterwards; its tags are unchanged or gain the tag at the end; other plants are untouched |
| TagUpdates.RemovePlantTag | src/lib/update-tag-on-plant.ts:7-9 | as written: only the first plant with the id can change |
| TagUpdates.UpsertUnknownIdUnchanged | src/lib/update-tag-on-plant.ts:13-16 | an id that no plant carries leaves the list as it was, for both actions |
| TagUpdates.UpsertCases | src/lib/update-tag-on-plant.ts:19-29 | upserting a tag the plant has returns the same list; otherwise the tag is appended to that plant alone |
| TagUpdates.UpsertIdempotent | src/lib/update-tag-on-plant.ts:3-5 | upserting twice equals upserting once |
| TagUpdates.RemoveAbsentTagUnchanged | src/lib/update-tag-on-plant.ts:19-23 | removing a tag the plant lacks returns the list unchanged |
| TagUpdates.RemovePlantTagKeepsOnlyRemovedTag | src/lib/update-tag-on-plant.ts:25 | as written, removing a carried tag leaves the plant with that tag as its only tag |
| TagUpdates.RemovePlantTagCounterexample | src/lib/update-tag-on-plant.ts:25 | a concrete plant for which upsert then remove does not restore the list |
| TagUpdates.RemovePlantTagIntended | src/lib/update-tag-on-plant.ts:7-9 | the corrected remove: the plant's tags lose exactly one occurrence of the tag, as multisets, and nothing else changes |
| TagUpdates.RemoveUndoesUpsert | src/lib/update-tag-on-plant.ts:3-9 | with the corrected remove, removing a freshly upserted tag restores the list exactly |
| ExportedIds.ToggleId | src/lib/use-exported-ids.tsx:12-26 | an absent id is appended; a present id loses its first occurrence, the others keeping their order, so the list holds one copy fewer |
| ExportedIds.Clear | src/lib/use-exported-ids.tsx:28-30 | the list is emptied |
| ExportedIds.ToggleFlipsMembership | src/lib/use-exported-ids.tsx:12-26 | on a list without repeats, toggling flips the id's membership, keeps all others, and keeps the list free of repeats |
| ExportedIds.RemoveAtMembers | src/lib/use-exported-ids.tsx:19-20 | removing one position from a list without repeats drops exactly that value and keeps the list free of repeats |
| ExportedIds.ToggleTwiceAbsent | src/lib/use-exported-ids.tsx:12-26 | toggling an absent id twice restores the list |
| ExportedIds.ToggleTwicePresent | src/lib/use-exported-ids.tsx:12-26 | toggling a present id twice, on a list without repeats, moves it to the end and keeps the same members |
| JsonPatch.PointerText | src/lib/mutations/update-plant-position.mutation.ts:28 | a JSON Pointer is empty exactly when it has no tokens, and otherwise starts with `/` |
| JsonPatch.TagLinkRoundTrip | src/lib/mutations/pin-plant.mutation.ts:14-20 | the tag link the mutations send reads back as the tag's id |
| JsonPatch.ApplyOp | src/lib/mutations/pin-plant.mutation.ts:22-31 | only an add at `/metadata/tags/-` of a tag link changes the tags, and it appends that tag; every other operation keeps them |
| JsonPatch.ApplyOpOtherFields | src/lib/mutations/update-map-zone-coords.mutation.ts:16-30 | an operation on one field leaves every other field as it was |
| JsonPatch.SetFieldOp | src/lib/mutations/update-plant-position.mutation.ts:23-32 | replace at `/fields/f/fr` when the field is truthy, else add `{fr: v}`; it lands exactly when the field is missing or holds a `fr` value, and then reads back `v` |
| JsonPatch.SetFieldKeepsOtherLocales | src/lib/mutations/update-plant-position.mutation.ts:26-30 | when the write lands, the field is an object afterwards whose values in every other locale are exactly those it had before: writing at `/fr` never wipes them |
| JsonPatch.ReplaceLocaleOp | src/lib/mutations/update-map-sector-geojson.mutation.ts:18-27 | the replace lands on exactly the documents whose field already holds a `fr` value, and then reads back `v` |
| JsonPatch.ApplyPatchOne | src/lib/mutations/pin-plant.mutation.ts:22-31 | a one-operation patch is that operation |
| JsonPatch.ApplyPatchTwo | src/lib/mutations/update-map-zone-coords.mutation.ts:16-30 | a two-operation patch applies both in turn, all or nothing |
| Encodings.DecodeAll | src/components/markers/map-sector-marker.tsx:72-75 | decoding a list succeeds with one decoded item per element, or fails exactly when some element fails |
| Encodings.DecodeAllMap | src/components/markers/map-sector-marker.tsx:72-75 | decoding an encoded list gives the list back, given an element round trip |
| Encodings.PositionRoundTrip | src/lib/mutations/update-plant-position.mutation.ts:27-29 | the `{lat, lon}` value sent reads back as the position |
| Encodings.CoordsRoundTrip | src/lib/mutations/update-rectangle-coords.mutation.ts:14-25 | the `[[lat, lon], ...]` value sent reads back as the outline |
| Encodings.OrientationRoundTrip | src/lib/mutations/update-map-zone-coords.mutation.ts:24-28 | the orientation string sent reads back as the orientation |
| Encodings.FeatureRoundTrip | src/lib/mutations/update-map-sector-geojson.mutation.ts:18-27 | the GeoJSON polygon sent reads back, through `geometry.coordinates`, as the same rings |
| Remote.GetPatchPublish | src/lib/mutations/update-plant-position.mutation.ts:11-35 | get, then patch at the fetched version, then publish what the patch returned; the exchange stops at the first rejection or throw, and succeeds exactly when the publish answers |
| Remote.CreatePublish | src/lib/mutations/create-sector.mutation.ts:17-32 | create, then publish the created entry under its own id; it succeeds exactly when both answer |
| Remote.PublishFollowsPatch | src/lib/mutations/update-plant-position.mutation.ts:23-34 | the only entry ever published is the one the patch call returned |
| QueryCache.KeyNamesDistinct | src/lib/queries/plants-with-position.query.ts:7 | the five query keys are distinct strings, so the collections never share a cache entry |
| QueryCache.SetQueryData | src/lib/mutations/update-plant-position.mutation.ts:43 | the entry holds the updater applied to the old list, or to `[]` when there was none, and is fresh |
| QueryCache.PutQueryData | src/lib/mutations/update-plant-position.mutation.ts:58 | the entry holds the given list and is fresh |
| QueryCache.Invalidate | src/lib/mutations/update-plant-position.mutation.ts:61 | the data stays and is marked stale |
| QueryCache.Cancel | src/lib/mutations/update-plant-position.mutation.ts:39 | the data stays and no fetch is in flight |
| Optimistic.OnMutate | src/lib/mutations/update-plant-position.mutation.ts:38-56 | the returned context is the data before the write; the entry holds the optimistic list, with no fetch in flight |
| Optimistic.OnError | src/lib/mutations/update-plant-position.mutation.ts:57-59 | the entry holds the context, or `[]` when there was none |
| Optimistic.OnSettled | src/lib/mutations/update-plant-position.mutation.ts:60-62 | the data stays; the entry is stale exactly when the hook invalidates or it already was |
| Optimistic.OptimisticRun | src/lib/mutations/update-plant-position.mutation.ts:37-63 | after a run the entry holds the optimistic list on success and the snapshot on failure |
| Optimistic.RollbackExact | src/lib/mutations/update-plant-position.mutation.ts:57-59 | a failed run leaves a loaded list exactly as it found it |
| Optimistic.RollbackIgnoresLaterWrites | src/lib/mutations/update-plant-position.mutation.ts:38-59 | rollback restores the snapshot whatever was written to the entry in between |
| Optimistic.OnSuccessRun | src/lib/mutations/pin-plant.mutation.ts:37-60 | the success updater runs only on success; a failure keeps the data and marks it stale only in a hook that invalidates on error |
| PlantPositionMutation.PositionPatchLands | src/lib/mutations/update-plant-position.mutation.ts:23-32 | the patch lands unless the entry holds a truthy `position` with no `fr` value; then the entry reads back the new position and its tags are unchanged |
| PlantPositionMutation.Mutate | src/lib/mutations/update-plant-position.mutation.ts:11-63 | only the plants entry changes; success leaves the plant first under its id, failure restores the snapshot, and it ends stale; a plant with no position throws before any patch |
| RectangleCoordsMutation.CoordsPatchLands | src/lib/mutations/update-rectangle-coords.mutation.ts:14-25 | the patch lands unless the entry holds a truthy `coords` with no `fr` value; then the entry reads back the outline |
| RectangleCoordsMutation.Mutate | src/lib/mutations/update-rectangle-coords.mutation.ts:11-56 | only the rectangles entry changes; success leaves the rectangle first under its id, failure restores the snapshot, and it ends stale |
| MapZoneCoordsMutation.ZonePatchLands | src/lib/mutations/update-map-zone-coords.mutation.ts:16-30 | outline and orientation land together or not at all, and an entry without a `fr` orientation rejects both; then both read back |
| MapZoneCoordsMutation.Mutate | src/lib/mutations/update-map-zone-coords.mutation.ts:11-58 | only the zones entry changes, with the optimistic or rolled-back list; with no onSettled it is never marked stale |
| MapSectorGeoJsonMutation.GeoJsonPatchLands | src/lib/mutations/update-map-sector-geojson.mutation.ts:18-27 | the replace lands exactly when the entry already holds a `fr` GeoJSON, and then reads back the sector's polygon |
| MapSectorGeoJsonMutation.Mutate | src/lib/mutations/update-map-sector-geojson.mutation.ts:14-68 | only the sectors entry changes, with the optimistic or rolled-back list, never marked stale |
| TagMutations.AddTagOnSuccess | src/lib/mutations/pin-plant.mutation.ts:37-57 | the inline onSuccess updater equals `upsertPlantTag` |
| TagMutations.PriorActions | src/lib/mutations/dead-plant.mutation.ts:27-30 | reading `actions.fr` throws exactly when the field is missing or null; an object value is spread as its members |
| TagMutations.PinPatchLands | src/lib/mutations/pin-plant.mutation.ts:22-31 | pinning always lands and appends one `jalonne` tag, even when the entry already carries one |
| TagMutations.PlantPatchLands | src/lib/mutations/plant-plant.mutation.ts:27-45 | planting appends the `planted` tag and sets `actions` to exactly one PLANTED entry at the date |
| TagMutations.DeadPatchLands | src/lib/mutations/dead-plant.mutation.ts:27-46 | declaring dead appends the `dead` tag and adds a DEAD entry at the date to the previous actions |
| TagMutations.DeadWithoutActionsStops | src/lib/mutations/dead-plant.mutation.ts:27-30 | an entry with no `actions` field throws after the get; nothing is patched or published |
| TagMutations.Mutate | src/lib/mutations/dead-plant.mutation.ts:16-75 | only the plants entry changes: success upserts the action's tag, failure keeps the list and marks it stale |
| CreateSectorMutation.SectorRoundTrip | src/lib/contentful/entry-to-map-sector.ts:4-10 | a cached sector's record reads back as the sector |
| CreateSectorMutation.SectorRecordAsWrittenUnreadable | src/lib/mutations/create-sector.mutation.ts:37-41 | as written, the record built from a freshly created sector cannot be read as a sector |
| CreateSectorMutation.NewMapSector | src/lib/mutations/create-sector.mutation.ts:36-47 | the corrected record takes the id, and reads the name and polygon from the published entry's `fr` fields |
| CreateSectorMutation.NewMapSectorRoundTrip | src/lib/mutations/create-sector.mutation.ts:19-27 | the corrected record of a created sector is the uuid-named sector with the drawn polygon |
| CreateSectorMutation.Mutate | src/lib/mutations/create-sector.mutation.ts:17-47 | creates with the `fr` fields and publishes; with the corrected record, a published entry whose fields read back as a sector has that sector appended to the sectors entry, and the drawn polygon under the uuid name when the store echoes the sent fields; a failure, or a published entry that does not read as a sector, leaves the cache as it was |
| Projection.DateIfTruthy | src/lib/contentful/entry-to-plant.ts:20-21 | a date is made exactly from a non-empty string |
| Projection.EntryToPlant | src/lib/contentful/entry-to-plant.ts:4-23 | every field a plant takes from its entry and card: id, code, position and sponsor from the entry; card id, Latin and common names, source links, width and height from the card with `??` defaults; the entry's tags followed by the card's; dates only from non-empty strings; and the documented defaults when the card is missing |
| Projection.TaggedEntryProjectsLikeCache | src/lib/contentful/entry-to-plant.ts:19 | tagging the entry then projecting it gives the projection with the tag added, the same multiset as the cache update; the same list when the card has no tags |
| Projection.CollectionToPaginatedResult | src/lib/contentful/entry-collection-to-paginated-result.ts:4-11 | the paging numbers are copied and each item is converted in place |
| Projection.TagsDictionary | src/lib/contentful/get-tags.ts:9-12 | the dictionary holds exactly the listed ids, each with its last listed name |
| Projection.TagsDictionaryCoversIds | src/lib/contentful/get-tags.ts:9-12 | every listed tag id is in the dictionary |
| Projection.WithMarkedTag | src/lib/use-tags.ts:12-14 | the marked tag is added as "Marqué" and every other name is kept |
| Counts.CountPlants | src/components/Counts.tsx:10-21 | positioned counts the living plants and dead counts the rest; planted is at most positioned; all are 0 without a list |
| Counts.PlantedCountExcludesDead | src/components/Counts.tsx:16-17 | planted counts the plants tagged planted and not tagged dead |
| Counts.PlantedAmongLiving | src/components/Counts.tsx:10-17 | filtering the living and then the planted is one filter on both conditions |
| CoordsText.PiecesPrefix | src/lib/coords-to-json-text.ts:1-3 | the reduce's partial text is the first lines joined, with a trailing separator until the last pair |
| CoordsText.CoordsToJsonText | src/lib/coords-to-json-text.ts:1-3 | the text is `[`, the indented pairs joined by `,` and a newline, then `]` |
| MapZoneGen.Dimensions | src/lib/generate-map-zone.ts:4-12 | landscape is wider than tall, portrait taller than wide, both from the A8 sides 52 and 74 |
| MapZoneGen.GenerateMapZone | src/lib/generate-map-zone.ts:6-14 | the rectangle for an orientation, landscape by default |
| MapZoneGen.FlipSwapsDimensions | src/lib/generate-map-zone.ts:10-11 | flipping the orientation swaps width and height, and flipping twice is the identity |
| Sorting.Insert | src/components/entries-search.tsx:63-70 | insertion adds exactly one element |
| Sorting.InsertKeepsBound | src/components/entries-search.tsx:63-70 | a lower bound of the list and the new element is a lower bound of the result |
| Sorting.InsertSorted | src/components/entries-search.tsx:63-70 | under a collation, inserting into a sorted list keeps it sorted |
| Sorting.ConsSorted | src/components/entries-search.tsx:65-70 | an element no later than anything in a sorted list can be put first |
| Sorting.HeadBoundsTail | src/components/entries-search.tsx:65-70 | the head of a sorted list is no later than any element of its tail |
| Sorting.Reflexive | src/components/entries-search.tsx:69 | a collation compares a key with itself as not after |
| Sorting.SortWith | src/components/entries-search.tsx:63-70 | the sort is a permutation and ordered by the comparator |
| Sorting.SortStep | src/components/entries-search.tsx:65-70 | inserting the head into the sorted tail gives a sorted permutation of the whole list |
| Sorting.FlippedOrdersAlike | src/components/tags-selector.tsx:31 | the comparator `-b.localeCompare(a)` is a collation ordering like `a.localeCompare(b)` |
| EntriesSearch.GroupIndex | src/components/entries-search.tsx:27 | five known content types get groups 0 to 4; any other type gets -1 |
| EntriesSearch.EntriesToGroupedEntries | src/components/entries-search.tsx:29-73 | five titled groups, each holding its type's entries in input order; the plant group is a code-sorted permutation of its entries |
| EntriesSearch.Titled | src/components/entries-search.tsx:30-51 | five groups titled Rectangles, Plants, Plant Cards, Hedges and Zones; the plant group holds the sorted plants and each other group its own options |
| EntriesSearch.CollectGroups | src/components/entries-search.tsx:53-61 | after the loop, each of the five groups holds exactly its type's entries, in input order |
| EntriesSearch.PushKeepsGroups | src/components/entries-search.tsx:53-61 | pushing one more entry onto its group, or skipping it when its type is unknown, keeps every group equal to the filtered prefix |
| EntriesSearch.GroupSizesAddUp | src/components/entries-search.tsx:53-61 | every entry of a known type lands in exactly one group |
| EntriesSearch.ItemToString | src/components/entries-search.tsx:112-127 | the display text per content type; zones and unknown types show nothing |
| EntriesSearch.Utf16Length | src/components/entries-search.tsx:137 | a string's JavaScript `length` lies between its character count and twice that; one character counts two exactly when it lies outside the Basic Multilingual Plane |
| EntriesSearch.OnDebouncedInput | src/components/entries-search.tsx:135-151 | fewer than two UTF-16 units clear the list; otherwise the text is queried: the empty text and one ordinary character clear it, two characters or one astral character are queried |
| TagPicker.Entries | src/components/tags-selector.tsx:24-25 | given the dictionary's keys each once, one option per tag of the dictionary, in key order, each labelled with its name; an option is listed exactly when it is a tag with its own name |
| TagPicker.EntriesOf | src/components/tags-selector.tsx:24-25 | one option per listed key, in order, each labelled with the dictionary's name for it |
| TagPicker.TailOfRepeatFree | src/components/tags-selector.tsx:24 | the tail of a key enumeration without repeats has no repeats and lacks the head |
| TagPicker.EnumerationCoversOnce | src/components/tags-selector.tsx:24 | an enumeration of a dictionary's keys without repeats is exactly as long as the dictionary |
| TagPicker.DictionaryTagOffered | src/components/tags-selector.tsx:23-33 | over the dictionary's options, a tag is offered under its name exactly when it is unselected and matches the typed text |
| TagPicker.TagList | src/components/tags-selector.tsx:23-32 | the offered tags are a permutation of the unselected ones matching the input, ordered by label |
| TagPicker.TagListMembers | src/components/tags-aside.tsx:40-49 | a tag is offered exactly when it is listed, not selected and, with input, contains it case-insensitively; the list is sorted |
| TagPicker.EmptyInputOffersUnselected | src/components/tags-selector.tsx:26-30 | with no input, every unselected tag is offered |
| TagPicker.SelectedTagList | src/components/tags-selector.tsx:34-37 | one pill per selected tag, with its id, hue, and label when the dictionary knows it |
| PointsExport.FindPlant | src/components/points-export.tsx:36 | `find`: the first plant with the id, none when there is none or no list |
| PointsExport.ExportRows | src/components/points-export.tsx:35-43 | at most one row per id |
| PointsExport.ExportRowsConcat | src/components/points-export.tsx:35-43 | the rows of a concatenation are the concatenated rows |
| PointsExport.ExportRowsCount | src/components/points-export.tsx:35-43 | there is one row for each id that finds a plant |
| PointsExport.ExportRowsAllMatched | src/components/points-export.tsx:35-43 | when every id finds a plant, row k is that plant's row |
| PointsExport.ExportClick | src/components/points-export.tsx:29-52 | the first click starts selecting and saves nothing; the second stops and saves the export rows of the selected ids, in selection order, so no rows when there is no plant list |
| PointsExport.NoPlantsNoRows | src/components/points-export.tsx:36-37 | without a plant list no row is exported |
| PointsLoader.OnParsed | src/components/points-loader.tsx:19-42 | points load exactly when there is a file, a first row, and all four columns in it; the points are then exactly the named rows' points, in row order, with no description |
| PointsLoader.LoadedPoints | src/components/points-loader.tsx:33-37 | the loaded points are exactly the named rows' points, in row order; each is named and has no description |
| PointsLoader.NamedRowsKept | src/components/points-loader.tsx:33-37 | every named row's point survives the name filter |
| PointsLoader.NamedPointsInRowOrder | src/components/points-loader.tsx:33-37 | converting every row and dropping the unnamed points equals converting only the named rows, in order |
| PointsLoader.LaterRowsUnchecked | src/components/points-loader.tsx:27-37 | only the first row is checked: a later row with a name and no latitude still becomes a point |
| MarkerLock.Initial | src/components/markers/plant-marker.tsx:22-23 | a marker starts locked with nothing buffered |
| MarkerLock.ContextMenu | src/components/markers/plant-marker.tsx:30-43 | a context-click toggles the lock; locking commits the buffered geometry, if any, and clears it |
| MarkerLock.Buffer | src/components/markers/plant-marker.tsx:51-53 | a drag only buffers the geometry, keeping the lock as it is |
| MarkerLock.RingToCoords | src/components/markers/rectangle-marker.tsx:44-55 | one `[lat, lng]` pair per ring vertex |
| MarkerLock.UnlockDragLockCommits | src/components/markers/plant-marker.tsx:30-53 | unlock, drag, lock commits the dragged geometry once and returns to the start |
| MarkerLock.UnlockLockWithoutDrag | src/components/markers/plant-marker.tsx:30-43 | unlock then lock without a drag commits nothing |
| PlantMarker.Step | src/components/markers/plant-marker.tsx:30-53 | a context-click on a planted plant only locks; otherwise the lock commits the buffered position; a click is forwarded unless dragging |
| PlantMarker.RunEvents | src/components/markers/plant-marker.tsx:30-53 | one effect per event |
| PlantMarker.PlantedStaysLocked | src/components/markers/plant-marker.tsx:31-35 | a planted plant that starts locked stays locked and never reports a position |
| PlantMarker.OutlineColor | src/components/markers/plant-marker.tsx:116-136 | blue when selected, else green when planted, else red with outlines shown for an unpinned plant, else gray; `#000051` is never returned, since its branch needs an unplanted unpinned plant, which the red branch already took |
| PlantMarker.FirstCarriedTag | src/components/markers/plant-marker.tsx:85 | the first selected tag the plant carries, or -1 when it carries none |
| PlantMarker.FillColor | src/components/markers/plant-marker.tsx:80-92 | blue while unlocked; else planted green; else the hue of the first selected tag carried, or gray |
| RectangleMarker.HandlesFor | src/components/markers/rectangle-marker.tsx:62-80 | dragging and rotating are on exactly while unlocked; purple when locked, blue otherwise |
| RectangleMarker.Initial | src/components/markers/rectangle-marker.tsx:16-17 | starts locked, with nothing buffered and rotation off |
| RectangleMarker.Step | src/components/markers/rectangle-marker.tsx:20-59 | a context-click toggles the lock, turns rotation on when it unlocks, and commits on locking; a drag start disables rotation; a drag end buffers and re-enables it; a rotate end buffers |
| RectangleMarker.RotateThenLockCommits | src/components/markers/rectangle-marker.tsx:20-59 | unlock, rotate, lock commits the rotated outline and returns to the start |
| MapZoneMarker.Step | src/components/markers/map-zone.marker.tsx:25-47 | a context-click toggles the lock and commits on locking; a drag or rotate end only buffers |
| MapZoneMarker.HandlesFor | src/components/markers/map-zone.marker.tsx:52-68 | dragging is on exactly while unlocked and rotation never is; transparent when locked |
| MapZoneMarker.LastBufferWins | src/components/markers/map-zone.marker.tsx:40-47 | after a drag and a rotate, locking commits the later outline |
| MapSectorMarker.Step | src/components/markers/map-sector-marker.tsx:24-47 | a context-click unlocks; a click is forwarded only while locked; a double-click locks and reports the outline only if it was unlocked |
| MapSectorMarker.RunEvents | src/components/markers/map-sector-marker.tsx:24-47 | one effect per event |
| MapSectorMarker.OnlyDblClickLocks | src/components/markers/map-sector-marker.tsx:34-47 | without a double-click an unlocked sector stays unlocked and reports nothing |
| MapSectorMarker.Positions | src/components/markers/map-sector-marker.tsx:72-75 | the first ring with each `[lon, lat]` swapped to `[lat, lon]` |
| MapSectorMarker.PositionsSwapBack | src/components/markers/map-sector-marker.tsx:72-75 | swapping the positions back gives the first ring |
| MapSectorMarker.HandlesFor | src/components/markers/map-sector-marker.tsx:52-68 | editing is on exactly while unlocked; olive when locked |
| SimpleDrag.Setup | src/simple-drag.custom-draw-mode.ts:70-85 | nothing is dragged, and the selection is exactly the requested ids that name a feature |
| SimpleDrag.Stop | src/simple-drag.custom-draw-mode.ts:94-103 | dragging ends and map panning comes back, nothing else changes |
| SimpleDrag.Translate | src/simple-drag.custom-draw-mode.ts:201-217 | selected features move by the delta, the others stay put |
| SimpleDrag.ClickAnywhere | src/simple-drag.custom-draw-mode.ts:144-156 | a non-empty selection is dropped with cancel and cleared; double-click zoom returns |
| SimpleDrag.ClickOnFeature | src/simple-drag.custom-draw-mode.ts:158-183 | a right click or tap on a selected feature confirms the selection and deselects that feature; anything else fires nothing |
| SimpleDrag.DragMove | src/simple-drag.custom-draw-mode.ts:201-217 | with a start point the selection moves by the pointer's delta and the start point follows it |
| SimpleDrag.Step | src/simple-drag.custom-draw-mode.ts:105-233 | the mode's event handlers: an update fires on release only after a drag, pressing on the active feature arms the drag, a drag moves only once armed, clicks go to the click-anywhere or click-on-feature rule by target, and no event adds or drops a feature |
| SimpleDrag.DragsTelescope | src/simple-drag.custom-draw-mode.ts:197-217 | a whole drag moves each selected feature by last point minus first, the others not at all |
| SimpleDrag.ReleaseEndsDrag | src/simple-drag.custom-draw-mode.ts:227-233 | release ends the drag, restores panning, and fires one update exactly when something moved |
| SimpleDrag.NoPressNoMove | src/simple-drag.custom-draw-mode.ts:197-199 | without a press on the active feature a drag changes nothing |
| EditorMapGl.OnContextMenu | src/components/editor-map-gl.tsx:23-40 | with no feature or no draw control nothing is called; otherwise a context-click clears, adds the first feature, and enters the drag mode on the added id exactly when that id is truthy |
| EditorMapGl.OnDrop | src/components/editor-map-gl.tsx:59-68 | a drop always schedules clearing; the callback is called exactly on a confirmed drop when one is given, with the first feature, or with nothing when the drop carries none |
| EditorMapGl.ContextClickThenConfirmReportsFeature | src/components/editor-map-gl.tsx:23-68 | context-click, then a right click on the feature, reports that feature once and clears |
| PlantAside.HueIndex | src/components/plant-aside.tsx:130-138 | the hue of the first selected tag with the id, none exactly when none is selected |
| PlantAside.QuickButtons | src/components/plant-aside.tsx:198-250 | Plant shows for unplanted plants, Pin for unplanted and unpinned ones, Dead for planted living ones |
| PlantAside.ButtonsExclusive | src/components/plant-aside.tsx:198-250 | Dead never shows with Pin or Plant, and a planted dead plant shows none |
| PlantAside.FullPlantDate | src/components/plant-aside.tsx:155-161 | no date exactly when the day or the time is empty; otherwise `day + "T" + time` |
| PlantAside.OnQuickActionClicked | src/components/plant-aside.tsx:163-181 | nothing without a plant or when a dated action lacks its date; otherwise set loading, call the handler if given, clear loading |
| PlantAside.LoadingCleared | src/components/plant-aside.tsx:163-181 | every click that starts ends with loading cleared |
| PlantAside.LastSetWins | src/components/plant-aside.tsx:163-181 | the loading flag is the last one set |
| MainRules.SelectedPlant | src/components/main.tsx:145-151 | the loaded plant with the selected id, none exactly when there is none |
| MainRules.PlantClicked | src/components/main.tsx:212-235 | while exporting a click toggles the id; a plain click selects; a shift-click measures to the selected plant when both have positions |
| MainRules.SameDescription | src/components/main.tsx:249-252 | the outline takes at most one position per point |
| MainRules.MeasuredPointClick | src/components/main.tsx:237-275 | ctrl moves the selected plant to the point and copies a pair, or the outline with shift; otherwise the first click selects and a second, different point measures and deselects |
| MainRules.SamePointTwiceMeasuresNothing | src/components/main.tsx:258-274 | clicking one point twice selects it and measures nothing |
| MainRules.SearchPlantClicked | src/components/main.tsx:277-301 | a positioned plant is selected and flown to at zoom 23; an unpositioned one is placed at the selected plant's position or the map centre, if any |
| MainRules.QuickActionClicked | src/components/main.tsx:418-445 | pin always runs; plant and dead run only with a date; other actions do nothing |
| MainRules.QuickActionTags | src/components/main.tsx:418-445 | each action's mutation adds its own tag: `jalonne`, `planted` or `dead` |
| MainRules.FilteredPlants | src/components/main.tsx:447-453 | all plants when dead ones are shown, else exactly the living ones |
| MainRules.FilteredMatchesCount | src/components/main.tsx:447-453 | the plants drawn with dead ones hidden number exactly the positioned count |
| MainRules.OnMapZoneMarkerClicked | src/components/main.tsx:455-472 | a plain click opens the entry; a shift-click flips the orientation and regenerates the rectangle from the first corner |
| MainRules.ZoneShiftClickSwapsSides | src/components/main.tsx:455-472 | the regenerated rectangle has the old rectangle's sides swapped, and flipping back gives the old orientation |

## Left out

- Network, the Contentful clients and react-query internals: the store and the cache are values, with no timing, refetching, retry or concurrency between mutations.
- Remote failures are one `Rejected` value: a version conflict, a deleted entry and a transport error are not told apart.
- Number formatting, `parseFloat`, `Date` parsing and `toISOString`, `localeCompare`, `toLowerCase`, `generateRectangle`, uuid generation: function parameters with no assumed behaviour.
- Floating point: coordinates and sizes are `real`.
- Sorting.SortWith: stability is not stated, because the comparator only has to be a collation and ties are not given an order.
- The measurement graph, CSV writing and parsing, file saving, the clipboard and the map libraries' drawing: only the effects the handlers request are modelled.
- src/lib/use-measurement-graph.ts, src/data/keys.ts and colorFromHueIndex are not part of this model. A hue-coloured fill is kept as its hue index, and tag ids are written out.
- Hedges, static map features, the header and layout components, and the configuration screen: they hold no rules of the core.
- `searchRectangleClicked` and `searchMapZoneClicked` in main.tsx are not modelled; only the plant search and click handlers are.
- CreateSectorMutation.Mutate: caches the corrected record of the finding below. A published entry whose fields do not read as a sector appends nothing here, where the source appends the raw locale-keyed record, which the sector type cannot hold.
- TagMutations.PriorActions: an `actions.fr` value that is not an object spreads as no entries; the spread of strings or arrays into keys is not modelled.
- Encodings: a missing `coords` is sent as `null`; `undefined`, which JSON drops, is not told apart from it.
- MainRules.OnMapZoneMarkerClicked: a shift-click on a zone whose outline is empty yields no effect, where the source would read `coords[0]` as undefined and call `generateRectangle` with it.
- MapSectorMarker.Positions: a polygon with no ring gives none, where the source would throw.
- SimpleDrag: the `active` display flag of `toDisplayFeatures` is not modelled.
- PlantMarker: the label's width and text are not modelled.
- Projection.DateIfTruthy: a date is kept as its text; no calendar arithmetic is done.

## Findings

| source | as written | input that shows it | evidently intended | confidence | as-written member | corrected member |
|---|---|---|---|---|---|---|
| src/lib/update-tag-on-plant.ts:25 | the remove branch assigns the return value of `splice(index, 1)`, the removed tag, as the plant's new tags | a plant tagged `["x", "planted"]`; remove `planted` leaves it tagged `["planted"]` | the plant keeps its other tags and loses `planted` | high; not executed | TagUpdates.RemovePlantTagCounterexample | TagUpdates.RemoveUndoesUpsert |
| src/lib/mutations/create-sector.mutation.ts:37-41 | the cached record copies the published entry's `name` and `geojson` fields, which the management API returns keyed by locale (`{fr: ...}`) | creating a sector named by a uuid caches `name: {fr: uuid}`, which is not a string name, and the same for `geojson` | the cached sector holds the `fr` values, a string name and a GeoJSON feature | medium; not executed | CreateSectorMutation.SectorRecordAsWrittenUnreadable | CreateSectorMutation.NewMapSectorRoundTrip |

=== FILE: coords_text.dfy ===
/** `coordsToJSONtext`: an outline as indented JSON text, one `[lat, lon]`
    pair per line. Number formatting is JavaScript's and is a parameter. */
module CoordsText {
  import opened Models
  import opened Lists

  /** `[c.join(', ')]` for one pair. */
  function PairText(c: LatLng, num: real -> string): string {
    "[" + num(c.lat) + ", " + num(c.lon) + "]"
  }

  /** Reference reading: the lines joined by `sep`. */
  function Join(lines: seq<string>, sep: string): string {
    if |lines| == 0 then ""
    else if |lines| == 1 then lines[0]
    else Join(lines[..|lines| - 1], sep) + sep + lines[|lines| - 1]
  }

  /** The element the reduce adds at index `i` of an array of length `n`. */
  function Piece(c: LatLng, i: nat, n: nat, num: real -> string): string {
    "    " + PairText(c, num) + (if i != n - 1 then ",\n" else "")
  }

  function Indented(coords: seq<LatLng>, num: real -> string): seq<string> {
    Map(coords, c => "    " + PairText(c, num))
  }

  /** Concatenating the pieces for the first `k` pairs gives the first `k`
      indented lines joined by ",\n", with one trailing ",\n" while the
      last pair has not been reached. */
  lemma {:induction false} PiecesPrefix(coords: seq<LatLng>, num: real -> string, acc: string, k: nat)
    requires 0 < k < |coords|
    requires acc == Join(Indented(coords[..k], num), ",\n") + ",\n"
    ensures acc + Piece(coords[k], k, |coords|, num)
      == Join(Indented(coords[..k + 1], num), ",\n") + (if k != |coords| - 1 then ",\n" else "")
  {
    var lines := Indented(coords[..k + 1], num);
    assert lines[..k] == Indented(coords[..k], num);
    assert lines[k] == "    " + PairText(coords[k], num);
  }

  /** The reduce over the pairs, as a loop. */
  method CoordsToJsonText(coords: seq<LatLng>, num: real -> string) returns (text: string)
    ensures text == "[\n" + Join(Indented(coords, num), ",\n") + "\n]"
  {
    var acc := "";
    var i := 0;
    while i < |coords|
      invariant 0 <= i <= |coords|
      invariant i == 0 ==> acc == ""
      invariant 0 < i < |coords| ==> acc == Join(Indented(coords[..i], num), ",\n") + ",\n"
      invariant i == |coords| && i > 0 ==> acc == Join(Indented(coords[..i], num), ",\n")
    {
      var piece := Piece(coords[i], i, |coords|, num);
      if i == 0 {
        assert Indented(coords[..1], num) == ["    " + PairText(coords[0], num)];
      } else {
        PiecesPrefix(coords, num, acc, i);
      }
      acc := acc + piece;
      i := i + 1;
    }
    assert coords[..|coords|] == coords;
    text := "[\n" + acc + "\n]";
  }
}

=== FILE: counts.dfy ===
/** The three figures of the Counts panel. */
module Counts {
  import opened Wrappers
  import opened Models
  import opened Lists

  datatype Tally = Tally(planted: nat, positioned: nat, dead: int)

  predicate IsDead(p: Plant) { HasTag(p, DeadTag) }
  predicate IsPlanted(p: Plant) { HasTag(p, PlantedTag) }

  /** `positioned` counts the plants not tagged dead, `planted` those of
      them tagged planted, and `dead` is what is left of the total. With no
      plant list every figure is 0. */
  function CountPlants(plants: Option<seq<Plant>>): (t: Tally)
    ensures plants.None? ==> t == Tally(0, 0, 0)
    ensures plants.Some? ==>
      var all := plants.value;
      && t.positioned == |Filter(all, (p: Plant) => !IsDead(p))|
      && t.dead == |Filter(all, IsDead)|
      && t.planted <= t.positioned <= |all|
      && t.dead + t.positioned == |all|
      && t.dead >= 0
  {
    match plants
    case None => Tally(0, 0, 0)
    case Some(all) =>
      var notDead := Filter(all, (p: Plant) => !IsDead(p));
      var planted := Filter(notDead, IsPlanted);
      FilterSplitsLength(all, IsDead, (p: Plant) => !IsDead(p));
      Tally(|planted|, |notDead|, |all| - |notDead|)
  }

  /** A plant tagged both planted and dead counts as dead only. */
  lemma PlantedCountExcludesDead(plants: seq<Plant>)
    ensures CountPlants(Some(plants)).planted ==
      |Filter(plants, (p: Plant) => IsPlanted(p) && !IsDead(p))|
  {
    PlantedAmongLiving(plants);
  }

  lemma {:induction false} PlantedAmongLiving(plants: seq<Plant>)
    ensures Filter(Filter(plants, (p: Plant) => !IsDead(p)), IsPlanted)
         == Filter(plants, (p: Plant) => IsPlanted(p) && !IsDead(p))
  {
    if |plants| != 0 {
      PlantedAmongLiving(plants[1..]);
      var notDead := Filter(plants, (p: Plant) => !IsDead(p));
      if IsDead(plants[0]) {
        assert notDead == Filter(plants[1..], (p: Plant) => !IsDead(p));
      } else {
        assert notDead == [plants[0]] + Filter(plants[1..], (p: Plant) => !IsDead(p));
        FilterConcat([plants[0]], Filter(plants[1..], (p: Plant) => !IsDead(p)), IsPlanted);
        assert Filter([plants[0]], IsPlanted) == (if IsPlanted(plants[0]) then [plants[0]] else []) by {
          assert [plants[0]][1..] == [];
        }
      }
    }
  }
}

=== FILE: create_sector_mutation.dfy ===
/** `useCreateSectorMutation`: create a `mapSector` entry from a drawn
    polygon, named with a fresh uuid, publish it, and append the new sector
    to the cached mapSectors list on success. Nothing happens to the cache
    on error. */
module CreateSectorMutation {
  import opened Wrappers
  import opened Models
  import opened JsonPatch
  import opened Encodings
  import opened Remote
  import opened QueryCache

  const SectorContentType := "mapSector"

  /** The created entry's fields, each in the `fr` locale. */
  function SectorFields(geojson: PolygonFeature, uuid: string): map<string, Json> {
    map["geojson" := Localized(FeatureJson(geojson)), "name" := Localized(JStr(uuid))]
  }

  /** The cached record `onSuccess` builds, as written: it copies the
      published entry's `name` and `geojson` fields, which the management
      API returns locale-keyed (`{fr: ...}`). */
  function SectorRecordAsWritten(published: Entry): Json {
    var f := published.doc.fields;
    JObj(map["id" := JStr(published.id)]
      + (if "name" in f then map["name" := f["name"]] else map[])
      + (if "geojson" in f then map["geojson" := f["geojson"]] else map[]))
  }

  /** What the rest of the editor reads from a cached sector: a string
      `name` and a `geojson.geometry.coordinates` polygon. */
  function SectorFromJson(j: Json): Option<MapSector> {
    if j.JObj? && "id" in j.members && j.members["id"].JStr?
      && "name" in j.members && j.members["name"].JStr?
      && "geojson" in j.members && FeatureFromJson(j.members["geojson"]).Some?
    then Some(MapSector(j.members["id"].s, j.members["name"].s, FeatureFromJson(j.members["geojson"]).value, None))
    else None
  }

  /** Cached sectors read back from their record: the record of a sector
      the query loaded is readable. */
  function SectorJson(s: MapSector): Json {
    JObj(map["id" := JStr(s.id), "name" := JStr(s.name), "geojson" := FeatureJson(s.geojson)])
  }

  lemma SectorRoundTrip(s: MapSector)
    requires s.wateredAt.None?
    ensures SectorFromJson(SectorJson(s)) == Some(s)
  {
    FeatureRoundTrip(s.geojson);
  }

  /** The record appended as written is never a readable sector when the
      published entry carries the fields that were created: its `name` is
      `{fr: uuid}`, not a string, and its `geojson` has no `geometry`. */
  lemma SectorRecordAsWrittenUnreadable(published: Entry, geojson: PolygonFeature, uuid: string)
    requires published.doc.fields == SectorFields(geojson, uuid)
    ensures SectorFromJson(SectorRecordAsWritten(published)) == None
  {
    var j := SectorRecordAsWritten(published);
    assert "name" in j.members && j.members["name"] == Localized(JStr(uuid));
  }

  /** The record `onSuccess` evidently means: the `fr` values of the
      published entry's fields. */
  function NewMapSector(published: Entry): (r: Option<MapSector>)
    ensures r.Some? ==> r.value.id == published.id && r.value.wateredAt.None?
    ensures r.Some? ==> FieldValue(published.doc, "name") == Some(JStr(r.value.name))
    ensures r.Some? ==>
      FieldValue(published.doc, "geojson").Some?
      && FeatureFromJson(FieldValue(published.doc, "geojson").value) == Some(r.value.geojson)
  {
    var name := FieldValue(published.doc, "name");
    var g := FieldValue(published.doc, "geojson");
    if name.Some? && name.value.JStr? && g.Some? && FeatureFromJson(g.value).Some?
    then Some(MapSector(published.id, name.value.s, FeatureFromJson(g.value).value, None))
    else None
  }

  /** Creating and then reading back gives the drawn polygon under the
      uuid name. */
  lemma NewMapSectorRoundTrip(published: Entry, geojson: PolygonFeature, uuid: string)
    requires published.doc.fields == SectorFields(geojson, uuid)
    ensures NewMapSector(published) == Some(MapSector(published.id, uuid, geojson, None))
  {
    FeatureRoundTrip(geojson);
  }

  /** One call of `mutate({geojson})` run to its end, with the corrected
      record; `uuid` is the value `v4()` returned. */
  function Mutate(cache: Cache, store: Store, geojson: PolygonFeature, uuid: string): (r: (Cache, Exchange))
    ensures r.0 == cache.(mapSectors := r.0.mapSectors)
    ensures |r.1.calls| >= 1 && r.1.calls[0] == CreateEntry(SectorContentType, SectorFields(geojson, uuid))
    ensures r.1.result.Err? ==> r.0 == cache
    ensures r.1.result.Ok? && r.1.result.value.doc.fields == SectorFields(geojson, uuid) ==>
      r.0.mapSectors.data == Some(cache.mapSectors.data.GetOr([]) + [MapSector(r.1.result.value.id, uuid, geojson, None)])
    ensures r.1.result.Ok? && NewMapSector(r.1.result.value).Some? ==>
      r.0.mapSectors.data == Some(cache.mapSectors.data.GetOr([]) + [NewMapSector(r.1.result.value).value])
    ensures r.1.result.Ok? && NewMapSector(r.1.result.value).None? ==> r.0 == cache
  {
    var x := CreatePublish(store, SectorContentType, SectorFields(geojson, uuid));
    match x.result
    case Err(_) => (cache, x)
    case Ok(published) =>
      assert published.doc.fields == SectorFields(geojson, uuid) ==>
        NewMapSector(published) == Some(MapSector(published.id, uuid, geojson, None)) by {
        if published.doc.fields == SectorFields(geojson, uuid) {
          NewMapSectorRoundTrip(published, geojson, uuid);
        }
      }
      match NewMapSector(published)
      case None => (cache, x)
      case Some(sector) => (cache.(mapSectors := SetQueryData(cache.mapSectors, prev => prev + [sector])), x)
  }
}

=== FILE: editor_map_gl.dfy ===
/** The map-libre editor around the `simple_drag` mode: a context-click on
    a feature loads it alone into the draw layer and enters the mode with
    it selected; the `draw.drop` listener reports a confirmed drop and
    always schedules the layer to be emptied. Features are named by id. */
module EditorMapGl {
  import opened Wrappers
  import opened Lists
  import opened SimpleDrag

  /** The mode the draw control starts in (and the only one it has). */
  const DefaultMode := "simple_drag"

  /** Calls made on the draw control, and on the moved-feature callback. */
  datatype Effect =
    | DeleteAll
    | Add(feature: string)
    | ChangeMode(mode: string, featureIds: seq<string>)
    | FeatureMoved(moved: Option<string>)
    | ScheduleDeleteAll

  /** `onContextMenu`. `added` is what `draw.add` returned, `None` when
      there is no draw control yet: then every optional call on it is
      skipped. An empty string id is falsy. */
  function OnContextMenu(features: seq<string>, added: Option<seq<string>>): (r: seq<Effect>)
    ensures |features| == 0 || added.None? ==> r == []
    ensures |features| > 0 && added.Some? ==> |r| >= 2 && r[0] == DeleteAll && r[1] == Add(features[0])
    ensures (exists ids :: ChangeMode(DefaultMode, ids) in r) <==>
      |features| > 0 && added.Some? && |added.value| > 0 && added.value[0] != ""
    ensures forall k :: 0 <= k < |r| && r[k].ChangeMode? ==>
      added.Some? && |added.value| > 0 && r[k] == ChangeMode(DefaultMode, [added.value[0]])
  {
    if |features| == 0 then []
    else match added
      case None => []
      case Some(ids) =>
        var firstId := if |ids| > 0 then ids[0] else "";
        [DeleteAll, Add(features[0])]
          + (if firstId != "" then [ChangeMode(DefaultMode, [firstId])] else [])
  }

  /** The `draw.drop` listener; `hasCallback` is whether `onFeatureMoved`
      was given. A confirmed drop always calls it, with `e.features[0]`,
      which is undefined (`None`) when the drop carries no feature. */
  function OnDrop(drop: Fired, hasCallback: bool): (r: seq<Effect>)
    requires drop.Drop?
    ensures |r| >= 1 && r[|r| - 1] == ScheduleDeleteAll
    ensures (exists f :: FeatureMoved(f) in r) <==> drop.action == Confirm && hasCallback
    ensures forall k :: 0 <= k < |r| && r[k].FeatureMoved? ==>
      r[k] == FeatureMoved(if |drop.ids| > 0 then Some(drop.ids[0]) else None)
  {
    var first := if |drop.ids| > 0 then Some(drop.ids[0]) else None;
    var reported := if drop.action == Confirm && hasCallback then [FeatureMoved(first)] else [];
    reported + [ScheduleDeleteAll]
  }

  /** End to end: a context-click on a feature the draw layer accepts
      selects exactly that feature; a right click on it then confirms a
      drop of it alone, which the listener reports as moved. */
  lemma ContextClickThenConfirmReportsFeature(f: string, rest: seq<string>, firstId: string, others: seq<string>, ctx: Ctx)
    requires firstId != "" && firstId in ctx.features
    ensures ChangeMode(DefaultMode, [firstId]) in OnContextMenu([f] + rest, Some([firstId] + others))
    ensures var s := Setup(Some([firstId]), ctx);
      var c := Step(s.0, s.1, ClickOrTap(OnFeature(firstId, Mouse(2))));
      && s.1.selected == [firstId]
      && c.fired == [Drop(Confirm, [firstId])]
      && OnDrop(c.fired[0], true) == [FeatureMoved(Some(firstId)), ScheduleDeleteAll]
  {
    var s := Setup(Some([firstId]), ctx);
    assert Filter([firstId], (id: string) => id in ctx.features) == [firstId] + Filter([], (id: string) => id in ctx.features);
    assert s.1.selected == [firstId];
    var c := ClickOnFeature(s.0, s.1, firstId, Mouse(2));
    assert Step(s.0, s.1, ClickOrTap(OnFeature(firstId, Mouse(2)))) == c;
    assert c.fired == [Drop(Confirm, [firstId])];
  }
}

=== FILE: encodings.dfy ===
/** How the domain values are written into CMS fields as JSON, and read
    back: a plant position is `{lat, lon}`, rectangle and zone outlines are
    lists of `[lat, lon]` pairs, an orientation is its name, and a sector
    outline is a GeoJSON `Feature` whose polygon rings hold `[lon, lat]`
    positions. Each encoding has a decoder and a round-trip lemma. */
module Encodings {
  import opened Wrappers
  import opened Models
  import opened Lists
  import opened JsonPatch

  /** Decode every element, or fail if one fails. */
  function DecodeAll<T>(items: seq<Json>, dec: Json -> Option<T>): (r: Option<seq<T>>)
    ensures r.Some? ==> |r.value| == |items| && forall i :: 0 <= i < |items| ==> dec(items[i]) == Some(r.value[i])
    ensures r.None? ==> exists i :: 0 <= i < |items| && dec(items[i]).None?
  {
    if |items| == 0 then Some([])
    else
      match dec(items[0])
      case None => None
      case Some(x) =>
        match DecodeAll(items[1..], dec)
        case None => None
        case Some(rest) => Some([x] + rest)
  }

  /** Decoding an encoded list gives the list back, given that decoding
      undoes encoding on each element. */
  lemma {:induction false} DecodeAllMap<T>(xs: seq<T>, enc: T -> Json, dec: Json -> Option<T>)
    requires forall x :: dec(enc(x)) == Some(x)
    ensures DecodeAll(Map(xs, enc), dec) == Some(xs)
  {
    if |xs| != 0 {
      var ys := Map(xs, enc);
      assert ys[0] == enc(xs[0]);
      assert ys[1..] == Map(xs[1..], enc);
      DecodeAllMap(xs[1..], enc, dec);
      assert dec(ys[0]) == Some(xs[0]);
      assert [xs[0]] + xs[1..] == xs;
    }
  }

  /** Two numbers in a JSON array, in order. */
  function PairOf(j: Json): Option<(real, real)> {
    if j.JArr? && |j.items| == 2 && j.items[0].JNum? && j.items[1].JNum?
    then Some((j.items[0].n, j.items[1].n))
    else None
  }

  /** `{lat, lon}`, the plant `position` field. */
  function PositionJson(p: LatLng): Json {
    JObj(map["lat" := JNum(p.lat), "lon" := JNum(p.lon)])
  }

  function PositionFromJson(j: Json): Option<LatLng> {
    if j.JObj? && "lat" in j.members && "lon" in j.members
      && j.members["lat"].JNum? && j.members["lon"].JNum?
    then Some(LatLng(j.members["lat"].n, j.members["lon"].n))
    else None
  }

  lemma PositionRoundTrip(p: LatLng)
    ensures PositionFromJson(PositionJson(p)) == Some(p)
  {
  }

  /** `[lat, lon]`. */
  function LatLngJson(p: LatLng): Json {
    JArr([JNum(p.lat), JNum(p.lon)])
  }

  function LatLngFromJson(j: Json): Option<LatLng> {
    match PairOf(j)
    case None => None
    case Some(pair) => Some(LatLng(pair.0, pair.1))
  }

  /** An outline, `[[lat, lon], ...]`. */
  function CoordsJson(cs: seq<LatLng>): Json {
    JArr(Map(cs, LatLngJson))
  }

  function CoordsFromJson(j: Json): Option<seq<LatLng>> {
    if j.JArr? then DecodeAll(j.items, LatLngFromJson) else None
  }

  lemma CoordsRoundTrip(cs: seq<LatLng>)
    ensures CoordsFromJson(CoordsJson(cs)) == Some(cs)
  {
    DecodeAllMap(cs, LatLngJson, LatLngFromJson);
  }

  /** An optional outline as the mutations send it; an undefined outline is
      sent as `null`. */
  function OptCoordsJson(cs: Option<seq<LatLng>>): Json {
    match cs
    case None => JNull
    case Some(c) => CoordsJson(c)
  }

  function OrientationJson(o: Orientation): Json {
    match o
    case Landscape => JStr("landscape")
    case Portrait => JStr("portrait")
  }

  function OrientationFromJson(j: Json): Option<Orientation> {
    if j == JStr("landscape") then Some(Landscape)
    else if j == JStr("portrait") then Some(Portrait)
    else None
  }

  lemma OrientationRoundTrip(o: Orientation)
    ensures OrientationFromJson(OrientationJson(o)) == Some(o)
  {
  }

  /** `[lon, lat]`, a GeoJSON position. */
  function GeoPositionJson(p: GeoPosition): Json {
    JArr([JNum(p.lon), JNum(p.lat)])
  }

  function GeoPositionFromJson(j: Json): Option<GeoPosition> {
    match PairOf(j)
    case None => None
    case Some(pair) => Some(GeoPosition(pair.0, pair.1))
  }

  function RingJson(ring: seq<GeoPosition>): Json {
    JArr(Map(ring, GeoPositionJson))
  }

  function RingFromJson(j: Json): Option<seq<GeoPosition>> {
    if j.JArr? then DecodeAll(j.items, GeoPositionFromJson) else None
  }

  /** `{type: 'Feature', properties: {}, geometry: {type: 'Polygon',
      coordinates}}`. */
  function FeatureJson(f: PolygonFeature): Json {
    JObj(map[
      "type" := JStr("Feature"),
      "properties" := JObj(map[]),
      "geometry" := JObj(map["type" := JStr("Polygon"), "coordinates" := JArr(Map(f.rings, RingJson))])])
  }

  /** What the sector marker reads: `geojson.geometry.coordinates`. */
  function FeatureFromJson(j: Json): Option<PolygonFeature> {
    if j.JObj? && "geometry" in j.members && j.members["geometry"].JObj?
      && "coordinates" in j.members["geometry"].members
      && j.members["geometry"].members["coordinates"].JArr?
    then
      match DecodeAll(j.members["geometry"].members["coordinates"].items, RingFromJson)
      case None => None
      case Some(rings) => Some(PolygonFeature(rings))
    else None
  }

  lemma FeatureRoundTrip(f: PolygonFeature)
    ensures FeatureFromJson(FeatureJson(f)) == Some(f)
  {
    forall ring: seq<GeoPosition> ensures RingFromJson(RingJson(ring)) == Some(ring) {
      DecodeAllMap(ring, GeoPositionJson, GeoPositionFromJson);
    }
    DecodeAllMap(f.rings, RingJson, RingFromJson);
  }
}

=== FILE: entries_search.dfy ===
/** The search box: typed text of at least two characters queries the
    delivery API, and the answer is grouped by content type into five
    fixed groups, the plant group sorted by plant code. The content type
    ids are those of src/lib/contentful/content-type.ts, which is not part
    of this model; here they are named cases. */
module EntriesSearch {
  import opened Lists
  import opened Sorting

  datatype ContentType = RectangleType | PlantType | PlantCardType | HedgeType | MapZoneType | OtherType(id: string)

  /** A delivered entry, with the one display field each content type
      uses. */
  datatype SearchEntry = SearchEntry(
    id: string,
    contentType: ContentType,
    code: string,
    fullLatinName: string,
    labelText: string,
    name: string)

  datatype Group = Group(groupTitle: string, options: seq<SearchEntry>)

  const GroupTitles := ["Rectangles", "Plants", "Plant Cards", "Hedges", "Zones"]
  const PlantGroup := 1

  /** `contentTypeToGroupIndex.indexOf(type)`. */
  function GroupIndex(t: ContentType): (r: int)
    ensures -1 <= r < 5
    ensures r == -1 <==> t.OtherType?
  {
    match t
    case RectangleType => 0
    case PlantType => 1
    case PlantCardType => 2
    case HedgeType => 3
    case MapZoneType => 4
    case OtherType(_) => -1
  }

  function PlantCode(e: SearchEntry): string { e.code }

  /** The reference grouping: group `g` holds the entries of its content
      type, in input order. */
  function InGroup(g: int): SearchEntry -> bool {
    (e: SearchEntry) => GroupIndex(e.contentType) == g
  }

  /** `entriesToGroupedEntries`: one pass pushing each entry into its
      group, skipping unknown types, then the plant group sorted by code
      with `cmp` standing for `localeCompare`. */
  method EntriesToGroupedEntries(entries: seq<SearchEntry>, cmp: (string, string) -> int) returns (groups: seq<Group>)
    requires IsCollation(cmp)
    ensures |groups| == 5
    ensures forall g :: 0 <= g < 5 ==> groups[g].groupTitle == GroupTitles[g]
    ensures forall g :: 0 <= g < 5 && g != PlantGroup ==> groups[g].options == Filter(entries, InGroup(g))
    ensures multiset(groups[PlantGroup].options) == multiset(Filter(entries, InGroup(PlantGroup)))
    ensures SortedBy(groups[PlantGroup].options, PlantCode, cmp)
  {
    var options := CollectGroups(entries);
    var sortedPlants := SortWith(options[PlantGroup], PlantCode, cmp);
    groups := Titled(options, sortedPlants);
  }

  /** The five titled groups, the plant group replaced by its sorted
      options. */
  function Titled(options: seq<seq<SearchEntry>>, sortedPlants: seq<SearchEntry>): (groups: seq<Group>)
    requires |options| == 5
    ensures |groups| == 5
    ensures forall g :: 0 <= g < 5 ==> groups[g].groupTitle == GroupTitles[g]
    ensures forall g :: 0 <= g < 5 && g != PlantGroup ==> groups[g].options == options[g]
    ensures groups[PlantGroup].options == sortedPlants
  {
    [Group(GroupTitles[0], options[0]),
     Group(GroupTitles[1], sortedPlants),
     Group(GroupTitles[2], options[2]),
     Group(GroupTitles[3], options[3]),
     Group(GroupTitles[4], options[4])]
  }

  /** The loop of `entriesToGroupedEntries`: each entry pushed, in order,
      onto the group of its content type; unknown types are skipped. */
  method CollectGroups(entries: seq<SearchEntry>) returns (options: seq<seq<SearchEntry>>)
    ensures GroupsOf(entries, options)
  {
    options := [[], [], [], [], []];
    var i := 0;
    while i < |entries|
      invariant 0 <= i <= |entries|
      invariant GroupsOf(entries[..i], options)
    {
      var e := entries[i];
      var g := GroupIndex(e.contentType);
      PushKeepsGroups(entries[..i], e, options);
      assert entries[..i + 1] == entries[..i] + [e];
      if g != -1 {
        options := options[g := options[g] + [e]];
      }
      i := i + 1;
    }
    assert entries[..|entries|] == entries;
  }

  /** `options[g]` holds the entries of `prefix` in group `g`, in order. */
  predicate GroupsOf(prefix: seq<SearchEntry>, options: seq<seq<SearchEntry>>) {
    |options| == 5 && forall g :: 0 <= g < 5 ==> options[g] == Filter(prefix, InGroup(g))
  }

  /** Pushing the next entry into its group, if it has one, keeps every
      group equal to the filtered prefix. */
  lemma PushKeepsGroups(prefix: seq<SearchEntry>, e: SearchEntry, options: seq<seq<SearchEntry>>)
    requires GroupsOf(prefix, options)
    ensures var g := GroupIndex(e.contentType);
      GroupsOf(prefix + [e], if g != -1 then options[g := options[g] + [e]] else options)
  {
    forall h | 0 <= h < 5
      ensures Filter(prefix + [e], InGroup(h)) == Filter(prefix, InGroup(h)) + (if InGroup(h)(e) then [e] else [])
    {
      FilterConcat(prefix, [e], InGroup(h));
      assert [e][1..] == [];
    }
  }

  /** Every entry of a known type lands in exactly one group: the group
      sizes add up to the number of such entries. */
  lemma {:induction false} GroupSizesAddUp(entries: seq<SearchEntry>)
    ensures |Filter(entries, InGroup(0))| + |Filter(entries, InGroup(1))| + |Filter(entries, InGroup(2))|
          + |Filter(entries, InGroup(3))| + |Filter(entries, InGroup(4))|
         == |Filter(entries, (e: SearchEntry) => !e.contentType.OtherType?)|
  {
    if |entries| != 0 {
      GroupSizesAddUp(entries[1..]);
    }
  }

  /** `itemToString`: the text the search box shows for a chosen entry.
      Zones fall to the default case and show nothing. */
  function ItemToString(e: SearchEntry): (r: string)
    ensures e.contentType.MapZoneType? || e.contentType.OtherType? ==> r == ""
    ensures e.contentType.PlantType? ==> r == e.code
    ensures e.contentType.PlantCardType? ==> r == e.fullLatinName
    ensures e.contentType.RectangleType? ==> r == e.labelText
    ensures e.contentType.HedgeType? ==> r == e.name
  {
    match e.contentType
    case PlantType => e.code
    case PlantCardType => e.fullLatinName
    case RectangleType => e.labelText
    case HedgeType => e.name
    case _ => ""
  }

  datatype SearchStep = ClearItems | QueryEntries(text: string)

  /** JavaScript's `length`: UTF-16 code units, two for a character
      outside the Basic Multilingual Plane. */
  function Utf16Length(text: string): (n: nat)
    ensures |text| <= n <= 2 * |text|
    ensures |text| == 1 ==> (n == 2 <==> text[0] as int >= 0x1_0000)
  {
    if |text| == 0 then 0
    else (if text[0] as int >= 0x1_0000 then 2 else 1) + Utf16Length(text[1..])
  }

  /** The effect run for each debounced input value: fewer than two
      UTF-16 units clears the list without querying. So the empty text and
      one ordinary character clear it, two characters are queried, and so
      is a single character outside the Basic Multilingual Plane. */
  function OnDebouncedInput(text: string): (r: SearchStep)
    ensures r.ClearItems? <==> Utf16Length(text) < 2
    ensures r.QueryEntries? ==> r.text == text
    ensures |text| >= 2 ==> r.QueryEntries?
    ensures |text| == 1 ==> (r.QueryEntries? <==> text[0] as int >= 0x1_0000)
    ensures text == "" ==> r.ClearItems?
  {
    if Utf16Length(text) < 2 then ClearItems else QueryEntries(text)
  }
}

=== FILE: exported_ids.dfy ===
/** `useExportedIds`: the ids of the plants picked for the points export.
    Toggling an id removes its first occurrence when present and appends
    it otherwise. */
module ExportedIds {
  import opened Lists

  function ToggleId(ids: seq<string>, id: string): (r: seq<string>)
    ensures id !in ids ==> r == ids + [id]
    ensures id in ids ==> multiset(r) == multiset(ids) - multiset{id}
    ensures id in ids ==>
      exists i :: 0 <= i < |ids| && ids[i] == id && id !in ids[..i] && r == ids[..i] + ids[i + 1..]
  {
    var index := FindIndex(ids, (i: string) => i == id);
    if index == -1 then ids + [id]
    else
      assert ids == ids[..index] + [ids[index]] + ids[index + 1..];
      assert RemoveAt(ids, index) == ids[..index] + ids[index + 1..];
      assert id !in ids[..index];
      RemoveAt(ids, index)
  }

  function Clear(): (r: seq<string>)
    ensures |r| == 0
  {
    []
  }

  /** On a list without repeats, toggling flips the membership of `id`,
      keeps every other id's membership, and keeps the list free of
      repeats. */
  lemma ToggleFlipsMembership(ids: seq<string>, id: string)
    requires NoDuplicates(ids)
    ensures var r := ToggleId(ids, id);
      && NoDuplicates(r)
      && (id in r <==> id !in ids)
      && forall other :: other != id ==> (other in r <==> other in ids)
  {
    var index := FindIndex(ids, (i: string) => i == id);
    if index == -1 {
      var r := ids + [id];
      forall a, b | 0 <= a < b < |r| ensures r[a] != r[b] {
        if b == |ids| { assert r[a] == ids[a]; }
      }
    } else {
      RemoveAtMembers(ids, index);
    }
  }

  /** Dropping the element at `index` from a list without repeats removes
      exactly that value and keeps the list free of repeats. */
  lemma RemoveAtMembers<T>(xs: seq<T>, index: nat)
    requires NoDuplicates(xs) && index < |xs|
    ensures var r := RemoveAt(xs, index);
      && NoDuplicates(r)
      && xs[index] !in r
      && forall x :: x != xs[index] ==> (x in r <==> x in xs)
  {
    var r := RemoveAt(xs, index);
    forall k | 0 <= k < |r| ensures r[k] != xs[index] {
      if k < index { assert r[k] == xs[k]; } else { assert r[k] == xs[k + 1]; }
    }
    forall x | x != xs[index] && x in xs ensures x in r {
      var k :| 0 <= k < |xs| && xs[k] == x;
      if k < index { assert r[k] == x; } else { assert r[k - 1] == x; }
    }
    forall a, b | 0 <= a < b < |r| ensures r[a] != r[b] {
      var a' := if a < index then a else a + 1;
      var b' := if b < index then b else b + 1;
      assert r[a] == xs[a'] && r[b] == xs[b'];
    }
  }

  /** Toggling an absent id twice gives back the same list. */
  lemma ToggleTwiceAbsent(ids: seq<string>, id: string)
    requires id !in ids
    ensures ToggleId(ToggleId(ids, id), id) == ids
  {
    var once := ids + [id];
    var index := FindIndex(once, (i: string) => i == id);
    assert once[|ids|] == id;
    assert index == |ids|;
    assert RemoveAt(once, index) == ids;
  }

  /** Toggling a present id twice moves it to the end: the selection is
      the same set, but its order is not restored. */
  lemma ToggleTwicePresent(ids: seq<string>, id: string)
    requires NoDuplicates(ids) && id in ids
    ensures var index := FindIndex(ids, (i: string) => i == id);
      ToggleId(ToggleId(ids, id), id) == RemoveAt(ids, index) + [id]
  {
    ToggleFlipsMembership(ids, id);
  }
}

=== FILE: json_patch.dfy ===
/** The JSON values the mutations send and the JSON Patch operations they
    build (section 4.1 `add` and section 4.3 `replace` of RFC 6902, with the
    `-` array index of section 4 of RFC 6901). `ApplyPatch` is a reference
    semantics of those two operations on a CMS entry document; it is what a
    successful `entry.patch` call is taken to mean. */
module JsonPatch {
  import opened Wrappers

  datatype Json =
    | JNull
    | JBool(b: bool)
    | JNum(n: real)
    | JStr(s: string)
    | JArr(items: seq<Json>)
    | JObj(members: map<string, Json>)

  datatype OpKind = Add | Replace

  /** A patch operation; the path is kept as its JSON Pointer tokens. */
  datatype PatchOp = PatchOp(op: OpKind, path: seq<string>, value: Json)

  /** The JSON Pointer text of a token list: each token preceded by `/`. */
  function PointerText(tokens: seq<string>): (r: string)
    ensures |tokens| == 0 <==> r == ""
    ensures |tokens| > 0 ==> r[0] == '/'
  {
    if |tokens| == 0 then "" else "/" + tokens[0] + PointerText(tokens[1..])
  }

  /** The default locale the editor writes every field in. */
  const Locale := "fr"

  /** `{fr: v}`, a field value in the entry's only locale. */
  function Localized(v: Json): Json {
    JObj(map[Locale := v])
  }

  /** `{sys: {id, linkType: 'Tag', type: 'Link'}}`, a link to a CMS tag. */
  function TagLink(id: string): Json {
    JObj(map["sys" := JObj(map["id" := JStr(id), "linkType" := JStr("Tag"), "type" := JStr("Link")])])
  }

  /** The tag id a JSON value links to, when it is a Tag link. */
  function TagLinkId(v: Json): Option<string> {
    if v.JObj? && "sys" in v.members && v.members["sys"].JObj?
      && var sys := v.members["sys"].members;
         "id" in sys && sys["id"].JStr? && "linkType" in sys && sys["linkType"] == JStr("Tag")
    then Some(v.members["sys"].members["id"].s)
    else None
  }

  lemma TagLinkRoundTrip(id: string)
    ensures TagLinkId(TagLink(id)) == Some(id)
  {
  }

  /** The part of a CMS entry a patch can touch: its locale-keyed fields and
      the ids of its `metadata.tags` links. */
  datatype Document = Document(fields: map<string, Json>, tags: seq<string>)

  /** The value of field `f` in the `fr` locale, if the document has one. */
  function FieldValue(d: Document, f: string): Option<Json> {
    if f in d.fields && d.fields[f].JObj? && Locale in d.fields[f].members
    then Some(d.fields[f].members[Locale])
    else None
  }

  const TagsAppendPath := ["metadata", "tags", "-"]

  /** One operation. `add` on an object member creates or overwrites it and
      needs the parent to exist; `replace` needs the member itself to exist;
      `add` at `/metadata/tags/-` appends a tag link. Anything else fails. */
  function ApplyOp(d: Document, o: PatchOp): (r: Option<Document>)
    ensures r.Some? && o.path != TagsAppendPath ==> r.value.tags == d.tags
    ensures r.Some? && o.path == TagsAppendPath ==>
      o.op == Add && TagLinkId(o.value).Some? && r.value == d.(tags := d.tags + [TagLinkId(o.value).value])
  {
    if o.path == TagsAppendPath then
      if o.op == Add && TagLinkId(o.value).Some?
      then Some(d.(tags := d.tags + [TagLinkId(o.value).value]))
      else None
    else if |o.path| == 2 && o.path[0] == "fields" then
      var f := o.path[1];
      if o.op == Replace && f !in d.fields then None
      else Some(d.(fields := d.fields[f := o.value]))
    else if |o.path| == 3 && o.path[0] == "fields" then
      var f := o.path[1];
      var loc := o.path[2];
      if f !in d.fields || !d.fields[f].JObj? then None
      else
        var m := d.fields[f].members;
        if o.op == Replace && loc !in m then None
        else Some(d.(fields := d.fields[f := JObj(m[loc := o.value])]))
    else None
  }

  /** A whole patch: operations in order, all or nothing (section 5 of
      RFC 6902). */
  function ApplyPatch(d: Document, ops: seq<PatchOp>): Option<Document>
    decreases |ops|
  {
    if |ops| == 0 then Some(d)
    else
      match ApplyOp(d, ops[0])
      case None => None
      case Some(d') => ApplyPatch(d', ops[1..])
  }

  /** An operation on field `f` leaves every other field as it was. */
  lemma {:induction false} ApplyOpOtherFields(d: Document, o: PatchOp, g: string)
    requires ApplyOp(d, o).Some?
    requires |o.path| >= 2 && o.path[0] == "fields" && o.path[1] != g
    ensures g in d.fields <==> g in ApplyOp(d, o).value.fields
    ensures g in d.fields ==> ApplyOp(d, o).value.fields[g] == d.fields[g]
  {
    assert o.path != TagsAppendPath;
  }

  /** JavaScript truthiness of a JSON value. */
  predicate Truthy(j: Json) {
    match j
    case JNull => false
    case JBool(b) => b
    case JNum(n) => n != 0.0
    case JStr(s) => s != ""
    case _ => true
  }

  /** `!!entry.fields.f`. */
  predicate HasField(d: Document, f: string) {
    f in d.fields && Truthy(d.fields[f])
  }

  /** The write every geometry mutation builds for a field that may be
      missing: `replace /fields/f/fr` with the value when the field is
      there, `add /fields/f` with `{fr: value}` when it is not. It lands
      exactly when the field is missing or already holds a `fr` value, and
      then the field's `fr` value is the one sent. */
  function SetFieldOp(d: Document, f: string, v: Json): (o: PatchOp)
    ensures o.path != TagsAppendPath && |o.path| >= 2 && o.path[0] == "fields" && o.path[1] == f
    ensures ApplyOp(d, o).Some? <==> !HasField(d, f) || FieldValue(d, f).Some?
    ensures ApplyOp(d, o).Some? ==> FieldValue(ApplyOp(d, o).value, f) == Some(v)
    ensures HasField(d, f) ==> o == PatchOp(Replace, ["fields", f, Locale], v)
    ensures !HasField(d, f) ==> o == PatchOp(Add, ["fields", f], Localized(v))
  {
    if HasField(d, f)
    then PatchOp(Replace, ["fields", f, Locale], v)
    else PatchOp(Add, ["fields", f], Localized(v))
  }

  /** Why the write goes to `/fields/f/fr` when the field is there: the
      field's values in other locales survive it, and a locale appears
      afterwards only if it was there before (or is `fr`). */
  lemma SetFieldKeepsOtherLocales(d: Document, f: string, v: Json, loc: string)
    requires loc != Locale
    requires ApplyOp(d, SetFieldOp(d, f, v)).Some?
    ensures var after := ApplyOp(d, SetFieldOp(d, f, v)).value;
      && f in after.fields && after.fields[f].JObj?
      && (loc in after.fields[f].members <==> f in d.fields && d.fields[f].JObj? && loc in d.fields[f].members)
      && (loc in after.fields[f].members ==> after.fields[f].members[loc] == d.fields[f].members[loc])
  {
    if !HasField(d, f) && f in d.fields {
      assert !d.fields[f].JObj?;
    }
  }

  /** `replace /fields/f/fr`: lands exactly when the field already holds a
      `fr` value, which it then overwrites. */
  function ReplaceLocaleOp(f: string, v: Json): (o: PatchOp)
    ensures o.path != TagsAppendPath && |o.path| >= 2 && o.path[0] == "fields" && o.path[1] == f
    ensures forall d :: ApplyOp(d, o).Some? <==> FieldValue(d, f).Some?
    ensures forall d :: ApplyOp(d, o).Some? ==> FieldValue(ApplyOp(d, o).value, f) == Some(v)
  {
    PatchOp(Replace, ["fields", f, Locale], v)
  }

  /** A patch of one operation is that operation. */
  lemma ApplyPatchOne(d: Document, o: PatchOp)
    ensures ApplyPatch(d, [o]) == ApplyOp(d, o)
  {
    assert [o][1..] == [];
    match ApplyOp(d, o)
    case None =>
    case Some(d1) => assert ApplyPatch(d1, []) == Some(d1);
  }

  /** A patch of two operations applies them in turn. */
  lemma ApplyPatchTwo(d: Document, o1: PatchOp, o2: PatchOp)
    ensures ApplyPatch(d, [o1, o2]) ==
      match ApplyOp(d, o1)
      case None => None
      case Some(d1) => ApplyOp(d1, o2)
  {
    assert [o1, o2][1..] == [o2];
    match ApplyOp(d, o1)
    case None =>
    case Some(d1) =>
      assert [o2][1..] == [];
      assert ApplyPatch(d1, [o2]) == ApplyOp(d1, o2) by {
        match ApplyOp(d1, o2)
        case None =>
        case Some(d2) => assert ApplyPatch(d2, []) == Some(d2);
      }
  }
}

=== FILE: lists.dfy ===
/** Array helpers the source spells with `findIndex`, `splice`, `filter` and
    `includes`, written once and shared by the cache updaters, the export
    list and the counters. */
module Lists {

  /** `xs.findIndex(p)`: the first index satisfying `p`, or -1. */
  function FindIndex<T>(xs: seq<T>, p: T -> bool): (r: int)
    ensures -1 <= r < |xs|
    ensures r == -1 <==> forall i :: 0 <= i < |xs| ==> !p(xs[i])
    ensures r != -1 ==> p(xs[r]) && forall i :: 0 <= i < r ==> !p(xs[i])
  {
    if |xs| == 0 then -1
    else if p(xs[0]) then 0
    else
      var k := FindIndex(xs[1..], p);
      assert forall i :: 1 <= i < |xs| ==> xs[i] == xs[1..][i - 1];
      if k == -1 then -1 else k + 1
  }

  /** The first index whose element has key `id`, or -1. */
  function IndexOfId<T>(xs: seq<T>, key: T -> string, id: string): (r: int)
    ensures -1 <= r < |xs|
    ensures r == -1 <==> forall i :: 0 <= i < |xs| ==> key(xs[i]) != id
    ensures r != -1 ==> key(xs[r]) == id && forall i :: 0 <= i < r ==> key(xs[i]) != id
  {
    FindIndex(xs, x => key(x) == id)
  }

  /** `FindIndex` only looks at the keys: two lists with the same keys at
      the same positions give the same index. */
  lemma IndexOfIdSameKeys<T>(xs: seq<T>, ys: seq<T>, key: T -> string, id: string)
    requires |xs| == |ys|
    requires forall i :: 0 <= i < |xs| ==> key(xs[i]) == key(ys[i])
    ensures IndexOfId(xs, key, id) == IndexOfId(ys, key, id)
  {
  }

  /** The optimistic updater of the position and coordinate mutations:
      `findIndex` by id, then `splice(index, 1, x)`, or append when absent. */
  function ReplaceByIdOrAppend<T>(prev: seq<T>, key: T -> string, x: T): (r: seq<T>)
    ensures IndexOfId(prev, key, key(x)) == -1 ==> r == prev + [x]
    ensures IndexOfId(prev, key, key(x)) != -1 ==>
      |r| == |prev|
      && r[IndexOfId(prev, key, key(x))] == x
      && forall j :: 0 <= j < |prev| && j != IndexOfId(prev, key, key(x)) ==> r[j] == prev[j]
  {
    var i := IndexOfId(prev, key, key(x));
    if i == -1 then prev + [x] else prev[i := x]
  }

  /** After the updater, `x` is the first element with its id, and every
      other id keeps its position. */
  lemma {:induction false} ReplaceByIdOrAppendFindsNew<T>(prev: seq<T>, key: T -> string, x: T)
    ensures var r := ReplaceByIdOrAppend(prev, key, x);
      var i := IndexOfId(r, key, key(x));
      0 <= i < |r| && r[i] == x
  {
    var r := ReplaceByIdOrAppend(prev, key, x);
    var i0 := IndexOfId(prev, key, key(x));
    if i0 == -1 {
      assert r[|prev|] == x;
      assert forall j :: 0 <= j < |prev| ==> key(r[j]) != key(x) by {
        forall j | 0 <= j < |prev| ensures key(r[j]) != key(x) {
          assert r[j] == prev[j];
        }
      }
    } else {
      assert forall j :: 0 <= j < i0 ==> key(r[j]) != key(x) by {
        forall j | 0 <= j < i0 ensures key(r[j]) != key(x) {
          assert r[j] == prev[j];
        }
      }
    }
  }

  /** Repeating the same optimistic write changes nothing further. */
  lemma {:induction false} ReplaceByIdOrAppendIdempotent<T>(prev: seq<T>, key: T -> string, x: T)
    ensures ReplaceByIdOrAppend(ReplaceByIdOrAppend(prev, key, x), key, x)
         == ReplaceByIdOrAppend(prev, key, x)
  {
    var r := ReplaceByIdOrAppend(prev, key, x);
    ReplaceByIdOrAppendFindsNew(prev, key, x);
    var i := IndexOfId(r, key, key(x));
    assert r[i := x] == r;
  }

  /** `xs.splice(i, 1)` on a copy: `xs` without its element at `i`. */
  function RemoveAt<T>(xs: seq<T>, i: nat): (r: seq<T>)
    requires i < |xs|
    ensures |r| == |xs| - 1
    ensures forall j :: 0 <= j < i ==> r[j] == xs[j]
    ensures forall j :: i <= j < |r| ==> r[j] == xs[j + 1]
  {
    xs[..i] + xs[i + 1..]
  }

  /** `xs.filter(p)`. */
  function Filter<T(==,!new)>(xs: seq<T>, p: T -> bool): (r: seq<T>)
    ensures |r| <= |xs|
    ensures forall x :: x in r <==> x in xs && p(x)
  {
    if |xs| == 0 then []
    else (if p(xs[0]) then [xs[0]] else []) + Filter(xs[1..], p)
  }

  lemma {:induction false} FilterConcat<T(!new)>(xs: seq<T>, ys: seq<T>, p: T -> bool)
    ensures Filter(xs + ys, p) == Filter(xs, p) + Filter(ys, p)
  {
    if |xs| == 0 {
      assert xs + ys == ys;
    } else {
      assert (xs + ys)[1..] == xs[1..] + ys;
      FilterConcat(xs[1..], ys, p);
    }
  }

  /** Every element is kept or dropped: the kept and the dropped parts of a
      list add up to its length. */
  lemma {:induction false} FilterSplitsLength<T(!new)>(xs: seq<T>, p: T -> bool, notP: T -> bool)
    requires forall x :: notP(x) == !p(x)
    ensures |Filter(xs, p)| + |Filter(xs, notP)| == |xs|
  {
    if |xs| != 0 {
      FilterSplitsLength(xs[1..], p, notP);
    }
  }

  /** Filtering with a stronger predicate keeps no more elements. */
  lemma {:induction false} FilterMonotone<T(!new)>(xs: seq<T>, p: T -> bool, q: T -> bool)
    requires forall x :: p(x) ==> q(x)
    ensures |Filter(xs, p)| <= |Filter(xs, q)|
  {
    if |xs| != 0 {
      FilterMonotone(xs[1..], p, q);
    }
  }

  /** `xs.map(f)`. */
  function Map<A, B>(xs: seq<A>, f: A -> B): (r: seq<B>)
    ensures |r| == |xs|
    ensures forall i :: 0 <= i < |xs| ==> r[i] == f(xs[i])
  {
    if |xs| == 0 then [] else [f(xs[0])] + Map(xs[1..], f)
  }

  /** The list has no repeated element. */
  predicate NoDuplicates<T(==)>(xs: seq<T>) {
    forall i, j :: 0 <= i < j < |xs| ==> xs[i] != xs[j]
  }
}

=== FILE: main_rules.dfy ===
/** The decision rules of the main screen: what a click on a plant, on a
    measured point, on a search result, on a quick action or on a zone
    does. The measurement graph is not part of this model: its `addMeasure`
    calls are recorded as effects. Navigation, clipboard and map moves are
    effects too. */
module MainRules {
  import opened Wrappers
  import opened Models
  import opened Lists
  import ExportedIds
  import Counts
  import MapZoneGen
  import TagMutations

  datatype MainState = MainState(
    plants: Option<seq<Plant>>,
    selectedPlantId: Option<string>,
    isExportSelecting: bool,
    exportedIds: seq<string>,
    selectedMeasuredPoint: Option<MeasuredPoint>,
    measuredPoints: seq<MeasuredPoint>)

  /** One end of a measurement line. */
  datatype MeasureEnd = MeasureEnd(id: string, position: LatLng)

  datatype Effect =
    | AddMeasure(from: MeasureEnd, to: MeasureEnd)
    | UpdatePlantPosition(plant: Plant)
    | CopyPair(point: LatLng)
    | CopyOutline(coords: seq<LatLng>)
    | FlyTo(target: LatLng, zoom: int)
    | UpdateMapZoneCoords(zone: MapZone)
    | OpenEntry(id: string)

  /** `selectedPlant`: the first loaded plant with the selected id. */
  function SelectedPlant(st: MainState): (r: Option<Plant>)
    ensures r.Some? ==> st.plants.Some? && st.selectedPlantId == Some(r.value.id) && r.value in st.plants.value
    ensures r.None? <==>
      st.plants.None? || st.selectedPlantId.None?
      || forall k :: 0 <= k < |st.plants.value| ==> st.plants.value[k].id != st.selectedPlantId.value
  {
    if st.plants.None? || st.selectedPlantId.None? then None
    else
      var k := FindIndex(st.plants.value, (p: Plant) => p.id == st.selectedPlantId.value);
      if k < 0 then None else Some(st.plants.value[k])
  }

  /** `plantClicked`. */
  function PlantClicked(st: MainState, plant: Plant, shift: bool): (r: (MainState, seq<Effect>))
    ensures st.isExportSelecting ==>
      r.0 == st.(exportedIds := ExportedIds.ToggleId(st.exportedIds, plant.id)) && r.1 == []
    ensures !st.isExportSelecting && !shift ==>
      r.0 == st.(selectedPlantId := Some(plant.id)) && r.1 == []
    ensures !st.isExportSelecting && shift ==> r.0 == st
    ensures |r.1| > 0 <==>
      !st.isExportSelecting && shift && SelectedPlant(st).Some?
      && SelectedPlant(st).value.position.Some? && plant.position.Some?
    ensures |r.1| > 0 ==>
      var sel := SelectedPlant(st).value;
      r.1 == [AddMeasure(MeasureEnd(sel.id, sel.position.value), MeasureEnd(plant.id, plant.position.value))]
  {
    if st.isExportSelecting then
      (st.(exportedIds := ExportedIds.ToggleId(st.exportedIds, plant.id)), [])
    else if !shift then
      (st.(selectedPlantId := Some(plant.id)), [])
    else
      match SelectedPlant(st)
      case None => (st, [])
      case Some(sel) =>
        if sel.position.None? || plant.position.None? then (st, [])
        else (st, [AddMeasure(MeasureEnd(sel.id, sel.position.value), MeasureEnd(plant.id, plant.position.value))])
  }

  /** A string is truthy when it is present and non-empty. */
  predicate Truthy(s: Option<string>) { s.Some? && s.value != "" }

  /** The stored positions of the loaded points sharing a description. */
  function SameDescription(points: seq<MeasuredPoint>, description: Option<string>): (r: seq<LatLng>)
    ensures |r| <= |points|
  {
    Map(Filter(points, (mp: MeasuredPoint) => mp.description == description), (mp: MeasuredPoint) => mp.coords)
  }

  /** `measuredPointClick`. With Ctrl, a selected plant is moved onto the
      point, and the clipboard gets the point as `[lon, lat]` or, with
      Shift as well and a described point, the whole outline sharing its
      description. Without Ctrl, the first click selects the point and a
      click on a point with another name measures between them and clears
      the selection. */
  function MeasuredPointClick(st: MainState, mp: MeasuredPoint, ctrl: bool, shift: bool): (r: (MainState, seq<Effect>))
    ensures ctrl ==> r.0 == st && |r.1| >= 1
    ensures ctrl && SelectedPlant(st).Some? ==>
      r.1[0] == UpdatePlantPosition(SelectedPlant(st).value.(position := Some(mp.coords)))
    ensures ctrl ==>
      r.1[|r.1| - 1] == (if shift && Truthy(mp.description) then CopyOutline(SameDescription(st.measuredPoints, mp.description))
        else CopyPair(mp.coords))
    ensures !ctrl && st.selectedMeasuredPoint.None? ==>
      r.0 == st.(selectedMeasuredPoint := Some(mp)) && r.1 == []
    ensures !ctrl && st.selectedMeasuredPoint.Some? && st.selectedMeasuredPoint.value.name == mp.name ==>
      r == (st, [])
    ensures !ctrl && st.selectedMeasuredPoint.Some? && st.selectedMeasuredPoint.value.name != mp.name ==>
      var sel := st.selectedMeasuredPoint.value;
      r.0 == st.(selectedMeasuredPoint := None)
      && r.1 == [AddMeasure(MeasureEnd(sel.name, sel.coords), MeasureEnd(mp.name, mp.coords))]
  {
    if ctrl then
      var moved := match SelectedPlant(st)
        case None => []
        case Some(sel) => [UpdatePlantPosition(sel.(position := Some(mp.coords)))];
      var copy := if shift && Truthy(mp.description)
        then CopyOutline(SameDescription(st.measuredPoints, mp.description))
        else CopyPair(mp.coords);
      (st, moved + [copy])
    else
      match st.selectedMeasuredPoint
      case None => (st.(selectedMeasuredPoint := Some(mp)), [])
      case Some(sel) =>
        if sel.name == mp.name then (st, [])
        else (st.(selectedMeasuredPoint := None),
              [AddMeasure(MeasureEnd(sel.name, sel.coords), MeasureEnd(mp.name, mp.coords))])
  }

  /** Clicking the same point twice selects it and then keeps it
      selected, measuring nothing. */
  lemma SamePointTwiceMeasuresNothing(st: MainState, mp: MeasuredPoint)
    requires st.selectedMeasuredPoint.None?
    ensures var once := MeasuredPointClick(st, mp, false, false);
      var twice := MeasuredPointClick(once.0, mp, false, false);
      twice.1 == [] && twice.0.selectedMeasuredPoint == Some(mp)
  {
  }

  /** `searchPlantClicked`. `center` is the map's centre, `None` when the
      map is not there yet. An unpositioned plant is placed at the selected
      plant's position when a plant is selected (even if that one has no
      position either), else at the centre; with no place to put it the
      click does nothing. The map then flies to the plant. */
  function SearchPlantClicked(st: MainState, plant: Plant, center: Option<LatLng>): (r: (MainState, seq<Effect>))
    ensures plant.position.Some? ==>
      r.0 == st.(selectedPlantId := Some(plant.id))
      && r.1 == (if center.Some? then [FlyTo(plant.position.value, 23)] else [])
    ensures plant.position.None? ==>
      var place := if SelectedPlant(st).Some? then SelectedPlant(st).value.position else center;
      && (place.None? ==> r == (st, []))
      && (place.Some? ==>
            r.0 == st.(selectedPlantId := Some(plant.id))
            && r.1 == [UpdatePlantPosition(plant.(position := place))]
                      + (if center.Some? then [FlyTo(place.value, 23)] else []))
  {
    var placed: Option<(Plant, seq<Effect>)> :=
      if plant.position.Some? then Some((plant, []))
      else
        var place := match SelectedPlant(st)
          case Some(sel) => sel.position
          case None => center;
        if place.None? then None
        else
          var moved := plant.(position := place);
          Some((moved, [UpdatePlantPosition(moved)]));
    match placed
    case None => (st, [])
    case Some(pu) =>
      (st.(selectedPlantId := Some(pu.0.id)),
       pu.1 + (if center.Some? then [FlyTo(pu.0.position.value, 23)] else []))
  }

  /** `quickActionClicked`: which tag hook a quick action runs. `plant`
      and `dead` need a date; any other action runs nothing. Errors are
      swallowed, so the outcome of the hook does not reach the caller. */
  function QuickActionClicked(plantId: string, action: string, date: Option<Date>): (r: Option<TagMutations.TagMutation>)
    ensures action == "pin" ==> r == Some(TagMutations.Pin(plantId))
    ensures action == "plant" ==> r == (if date.Some? then Some(TagMutations.PlantIt(plantId, date.value)) else None)
    ensures action == "dead" ==> r == (if date.Some? then Some(TagMutations.Kill(plantId, date.value)) else None)
    ensures action !in {"pin", "plant", "dead"} ==> r.None?
    ensures r.Some? ==> r.value.plantId == plantId
  {
    if action == "pin" then Some(TagMutations.Pin(plantId))
    else if action == "plant" then
      (if date.Some? then Some(TagMutations.PlantIt(plantId, date.value)) else None)
    else if action == "dead" then
      (if date.Some? then Some(TagMutations.Kill(plantId, date.value)) else None)
    else None
  }

  /** The tag a quick action ends up adding is named after the action. */
  lemma QuickActionTags(plantId: string, action: string, date: Date)
    requires action in {"pin", "plant", "dead"}
    ensures var m := QuickActionClicked(plantId, action, Some(date));
      m.Some? && TagMutations.MutationTag(m.value)
        == (if action == "pin" then PinnedTag else if action == "plant" then PlantedTag else DeadTag)
  {
  }

  /** `filteredPlants`: dead plants are hidden unless asked for. */
  function FilteredPlants(plants: Option<seq<Plant>>, showDeadPlants: bool): (r: Option<seq<Plant>>)
    ensures r.None? <==> plants.None?
    ensures showDeadPlants ==> r == plants
    ensures !showDeadPlants && plants.Some? ==>
      forall p :: p in r.value <==> p in plants.value && !Counts.IsDead(p)
  {
    if showDeadPlants || plants.None? then plants
    else Some(Filter(plants.value, (p: Plant) => !Counts.IsDead(p)))
  }

  /** With dead plants hidden, the map shows exactly as many plants as the
      counter calls positioned. */
  lemma FilteredMatchesCount(plants: seq<Plant>)
    ensures |FilteredPlants(Some(plants), false).value| == Counts.CountPlants(Some(plants)).positioned
  {
  }

  /** `onMapZoneMarkerClicked`: Shift on a placed zone flips its
      orientation and regenerates its outline from its first point; any
      other click opens the entry. A placed zone with an empty outline has
      no first point; the handler then does nothing here. */
  function OnMapZoneMarkerClicked(zone: MapZone, shift: bool,
                                  generateRectangle: (LatLng, real, real) -> seq<LatLng>): (r: seq<Effect>)
    ensures !shift || zone.coords.None? ==> r == [OpenEntry(zone.id)]
    ensures shift && zone.coords.Some? && |zone.coords.value| > 0 ==>
      var flipped := MapZoneGen.Flip(zone.orientation);
      var dims := MapZoneGen.Dimensions(flipped);
      && flipped != zone.orientation
      && r == [UpdateMapZoneCoords(zone.(orientation := flipped,
                 coords := Some(generateRectangle(zone.coords.value[0], dims.1, dims.0))))]
    ensures shift && zone.coords == Some([]) ==> r == []
  {
    if shift && zone.coords.Some? then
      if |zone.coords.value| == 0 then []
      else
        var flipped := MapZoneGen.Flip(zone.orientation);
        [UpdateMapZoneCoords(zone.(orientation := flipped,
           coords := Some(MapZoneGen.GenerateMapZone(zone.coords.value[0], Some(flipped), generateRectangle))))]
    else [OpenEntry(zone.id)]
  }

  /** Shift-clicking a zone whose outline was generated from its first
      point swaps the two sides handed to `generateRectangle`; a second
      shift-click restores the orientation. */
  lemma ZoneShiftClickSwapsSides(zone: MapZone, generateRectangle: (LatLng, real, real) -> seq<LatLng>)
    requires zone.coords.Some? && |zone.coords.value| > 0
    ensures var r := OnMapZoneMarkerClicked(zone, true, generateRectangle);
      var before := MapZoneGen.Dimensions(zone.orientation);
      && r[0].zone.coords == Some(generateRectangle(zone.coords.value[0], before.0, before.1))
      && MapZoneGen.Flip(r[0].zone.orientation) == zone.orientation
  {
    MapZoneGen.FlipSwapsDimensions(zone.orientation);
  }
}

=== FILE: map_sector_geojson_mutation.dfy ===
/** `useUpdateMapSectorGeoJSONMutation`: reshape a sector. One `replace`
    of the `geojson` field's `fr` value, the optimistic protocol on the
    mapSectors list, and no invalidation once settled. */
module MapSectorGeoJsonMutation {
  import opened Wrappers
  import opened Models
  import opened Lists
  import opened JsonPatch
  import opened Encodings
  import opened Remote
  import opened QueryCache
  import opened Optimistic

  function GeoJsonPatch(sector: MapSector): Entry -> Result<seq<PatchOp>, Failure> {
    (entry: Entry) => Ok([ReplaceLocaleOp("geojson", FeatureJson(sector.geojson))])
  }

  /** The replace lands exactly when the entry already holds a `fr`
      GeoJSON value, and then the entry reads back the sector's outline. */
  lemma GeoJsonPatchLands(entry: Entry, sector: MapSector)
    ensures var d := ApplyPatch(entry.doc, GeoJsonPatch(sector)(entry).value);
      && (d.Some? <==> FieldValue(entry.doc, "geojson").Some?)
      && (d.Some? ==> FieldValue(d.value, "geojson").Some?
                      && FeatureFromJson(FieldValue(d.value, "geojson").value) == Some(sector.geojson))
  {
    ApplyPatchOne(entry.doc, ReplaceLocaleOp("geojson", FeatureJson(sector.geojson)));
    FeatureRoundTrip(sector.geojson);
  }

  function Updater(sector: MapSector): seq<MapSector> -> seq<MapSector> {
    prev => ReplaceByIdOrAppend(prev, MapSectorId, sector)
  }

  /** One call of `mutate(sector)` run to its end. */
  function Mutate(cache: Cache, store: Store, sector: MapSector): (r: (Cache, Exchange))
    ensures r.0 == cache.(mapSectors := r.0.mapSectors)
    ensures |r.1.calls| >= 1 && r.1.calls[0] == GetEntry(sector.id)
    ensures r.1.result.Ok? ==>
      r.0.mapSectors.data == Some(ReplaceByIdOrAppend(cache.mapSectors.data.GetOr([]), MapSectorId, sector))
    ensures r.1.result.Ok? ==>
      var list := r.0.mapSectors.data.value;
      var i := IndexOfId(list, MapSectorId, sector.id);
      0 <= i < |list| && list[i] == sector
    ensures r.1.result.Err? ==> r.0.mapSectors.data == Some(cache.mapSectors.data.GetOr([]))
    ensures !r.0.mapSectors.stale && !r.0.mapSectors.fetching
  {
    var x := GetPatchPublish(store, sector.id, GeoJsonPatch(sector));
    ReplaceByIdOrAppendFindsNew(cache.mapSectors.data.GetOr([]), MapSectorId, sector);
    (cache.(mapSectors := OptimisticRun(cache.mapSectors, Updater(sector), x.result.Ok?, false)), x)
  }
}

=== FILE: map_sector_marker.dfy ===
/** A map sector's polygon. A context-click only ever unlocks; a
    double-click while editing locks again and hands over the edited
    outline; a click while editing is swallowed. The displayed positions
    are ring 0 of the GeoJSON polygon with each `[lon, lat]` turned into
    `[lat, lon]`. */
module MapSectorMarker {
  import opened Wrappers
  import opened Models
  import opened Lists

  datatype SectorEvent =
    | ContextMenu
    | Click
    | DblClick(current: PolygonFeature)

  datatype Effect = NoEffect | GeoJsonChange(geojson: PolygonFeature) | ForwardClick

  datatype Stepped = Stepped(locked: bool, effect: Effect)

  /** Editing is on exactly while unlocked (`pm.enabled()`). */
  function Step(locked: bool, ev: SectorEvent): (r: Stepped)
    ensures ev.ContextMenu? ==> !r.locked && r.effect == NoEffect
    ensures ev.Click? ==> r.locked == locked && (r.effect == ForwardClick <==> locked)
    ensures ev.DblClick? && locked ==> r == Stepped(true, NoEffect)
    ensures ev.DblClick? && !locked ==> r == Stepped(true, GeoJsonChange(ev.current))
  {
    match ev
    case ContextMenu => Stepped(false, NoEffect)
    case Click => Stepped(locked, if locked then ForwardClick else NoEffect)
    case DblClick(current) => if locked then Stepped(true, NoEffect) else Stepped(true, GeoJsonChange(current))
  }

  function RunEvents(locked: bool, evs: seq<SectorEvent>): (r: (bool, seq<Effect>))
    ensures |r.1| == |evs|
    decreases |evs|
  {
    if |evs| == 0 then (locked, [])
    else
      var st := Step(locked, evs[0]);
      var rest := RunEvents(st.locked, evs[1..]);
      (rest.0, [st.effect] + rest.1)
  }

  /** Only a double-click locks a sector again: from an unlocked sector,
      events without one leave it unlocked and emit no outline. */
  lemma {:induction false} OnlyDblClickLocks(evs: seq<SectorEvent>)
    requires forall k :: 0 <= k < |evs| ==> !evs[k].DblClick?
    ensures !RunEvents(false, evs).0
    ensures forall k :: 0 <= k < |evs| ==> !RunEvents(false, evs).1[k].GeoJsonChange?
    decreases |evs|
  {
    if |evs| != 0 {
      OnlyDblClickLocks(evs[1..]);
    }
  }

  function Swap(p: GeoPosition): LatLng { LatLng(p.lat, p.lon) }
  function Unswap(c: LatLng): GeoPosition { GeoPosition(c.lon, c.lat) }

  /** `geojson.geometry.coordinates[0].map(c => [c[1], c[0]])`; a polygon
      with no ring has nothing to show (the source would throw). */
  function Positions(f: PolygonFeature): (r: Option<seq<LatLng>>)
    ensures r.None? <==> |f.rings| == 0
    ensures r.Some? ==> |r.value| == |f.rings[0]|
    ensures r.Some? ==> forall k :: 0 <= k < |f.rings[0]| ==> r.value[k] == LatLng(f.rings[0][k].lat, f.rings[0][k].lon)
  {
    if |f.rings| == 0 then None else Some(Map(f.rings[0], Swap))
  }

  /** The axis swap loses nothing: swapping back gives the ring. */
  lemma PositionsSwapBack(f: PolygonFeature)
    requires |f.rings| > 0
    ensures Map(Positions(f).value, Unswap) == f.rings[0]
  {
  }

  datatype Handles = Handles(editing: bool, fill: string)

  function HandlesFor(locked: bool): (h: Handles)
    ensures h.editing == !locked
    ensures h.fill == (if locked then "olive" else "blue")
  {
    if locked then Handles(false, "olive") else Handles(true, "blue")
  }
}

=== FILE: map_zone_coords_mutation.dfy ===
/** `useUpdateMapZoneCoordsMutation`: move, resize or turn a map zone. Two
    operations in one patch, the outline (write-or-add) and the orientation
    (always `replace`); the optimistic protocol on the map-zones-with-coords
    list, with no invalidation once settled. */
module MapZoneCoordsMutation {
  import opened Wrappers
  import opened Models
  import opened Lists
  import opened JsonPatch
  import opened Encodings
  import opened Remote
  import opened QueryCache
  import opened Optimistic

  function ZonePatch(zone: MapZone): Entry -> Result<seq<PatchOp>, Failure> {
    (entry: Entry) => Ok([
      SetFieldOp(entry.doc, "coords", OptCoordsJson(zone.coords)),
      ReplaceLocaleOp("orientation", OrientationJson(zone.orientation))])
  }

  /** The two writes land together or not at all: an entry without a `fr`
      orientation rejects the whole patch, outline included. When they land
      the entry reads back the zone's outline and orientation. */
  lemma ZonePatchLands(entry: Entry, zone: MapZone)
    requires zone.coords.Some?
    ensures var d := ApplyPatch(entry.doc, ZonePatch(zone)(entry).value);
      && (d.Some? <==>
            (!HasField(entry.doc, "coords") || FieldValue(entry.doc, "coords").Some?)
            && FieldValue(entry.doc, "orientation").Some?)
      && (d.Some? ==>
            && FieldValue(d.value, "coords").Some?
            && CoordsFromJson(FieldValue(d.value, "coords").value) == zone.coords
            && FieldValue(d.value, "orientation").Some?
            && OrientationFromJson(FieldValue(d.value, "orientation").value) == Some(zone.orientation))
  {
    var o1 := SetFieldOp(entry.doc, "coords", OptCoordsJson(zone.coords));
    var o2 := ReplaceLocaleOp("orientation", OrientationJson(zone.orientation));
    ApplyPatchTwo(entry.doc, o1, o2);
    CoordsRoundTrip(zone.coords.value);
    OrientationRoundTrip(zone.orientation);
    match ApplyOp(entry.doc, o1)
    case None =>
    case Some(d1) =>
      ApplyOpOtherFields(entry.doc, o1, "orientation");
      assert FieldValue(d1, "orientation") == FieldValue(entry.doc, "orientation");
      match ApplyOp(d1, o2)
      case None =>
      case Some(d2) =>
        ApplyOpOtherFields(d1, o2, "coords");
        assert FieldValue(d2, "coords") == FieldValue(d1, "coords");
  }

  function Updater(zone: MapZone): seq<MapZone> -> seq<MapZone> {
    prev => ReplaceByIdOrAppend(prev, MapZoneId, zone)
  }

  /** One call of `mutate(zone)` run to its end: the entry is never marked
      stale by this hook. */
  function Mutate(cache: Cache, store: Store, zone: MapZone): (r: (Cache, Exchange))
    ensures r.0 == cache.(mapZones := r.0.mapZones)
    ensures |r.1.calls| >= 1 && r.1.calls[0] == GetEntry(zone.id)
    ensures r.1.result.Ok? ==>
      r.0.mapZones.data == Some(ReplaceByIdOrAppend(cache.mapZones.data.GetOr([]), MapZoneId, zone))
    ensures r.1.result.Ok? ==>
      var list := r.0.mapZones.data.value;
      var i := IndexOfId(list, MapZoneId, zone.id);
      0 <= i < |list| && list[i] == zone
    ensures r.1.result.Err? ==> r.0.mapZones.data == Some(cache.mapZones.data.GetOr([]))
    ensures !r.0.mapZones.stale && !r.0.mapZones.fetching
  {
    var x := GetPatchPublish(store, zone.id, ZonePatch(zone));
    ReplaceByIdOrAppendFindsNew(cache.mapZones.data.GetOr([]), MapZoneId, zone);
    (cache.(mapZones := OptimisticRun(cache.mapZones, Updater(zone), x.result.Ok?, false)), x)
  }
}

=== FILE: map_zone_gen.dfy ===
/** `generateMapZone`: a zone is an A8-proportioned rectangle (52 by 74
    metres) drawn from a start point. `generateRectangle` is not part of
    this model and is a parameter. */
module MapZoneGen {
  import opened Wrappers
  import opened Models

  /** `A8 = [52, 74]`. */
  const A8Short: real := 52.0
  const A8Long: real := 74.0

  /** `(width, height)` for an orientation. */
  function Dimensions(o: Orientation): (r: (real, real))
    ensures o.Landscape? ==> r.0 > r.1
    ensures o.Portrait? ==> r.0 < r.1
    ensures {r.0, r.1} == {A8Short, A8Long}
  {
    match o
    case Landscape => (A8Long, A8Short)
    case Portrait => (A8Short, A8Long)
  }

  function Flip(o: Orientation): Orientation {
    match o
    case Landscape => Portrait
    case Portrait => Landscape
  }

  /** `generateRectangle(startPoint, height, width)`; the default
      orientation is landscape. */
  function GenerateMapZone(start: LatLng, o: Option<Orientation>,
                           generateRectangle: (LatLng, real, real) -> seq<LatLng>): (r: seq<LatLng>)
    ensures o.None? ==> r == generateRectangle(start, 52.0, 74.0)
    ensures o == Some(Landscape) ==> r == generateRectangle(start, 52.0, 74.0)
    ensures o == Some(Portrait) ==> r == generateRectangle(start, 74.0, 52.0)
  {
    var d := Dimensions(if o.Some? then o.value else Landscape);
    generateRectangle(start, d.1, d.0)
  }

  /** Flipping the orientation swaps the two dimension arguments. */
  lemma FlipSwapsDimensions(o: Orientation)
    ensures Dimensions(Flip(o)) == (Dimensions(o).1, Dimensions(o).0)
    ensures Flip(Flip(o)) == o
  {
  }
}

=== FILE: map_zone_marker.dfy ===
/** A map zone's polygon: the shared lock-and-buffer cycle; drag end and
    rotate end both buffer ring 0. Only layer dragging follows the lock:
    rotation is never switched on. */
module MapZoneMarker {
  import opened Wrappers
  import opened Models
  import opened MarkerLock

  datatype ZoneEvent =
    | ContextMenu
    | Click(dragging: bool)
    | DragEnd(ring: seq<LeafletLatLng>)
    | RotateEnd(ring: seq<LeafletLatLng>)

  datatype Effect = NoEffect | CoordsChange(coords: seq<LatLng>) | ForwardClick

  datatype Stepped = Stepped(next: LockState<seq<LatLng>>, effect: Effect)

  function Step(s: LockState<seq<LatLng>>, ev: ZoneEvent): (r: Stepped)
    ensures ev.ContextMenu? ==>
      && r.next == MarkerLock.ContextMenu(s).next
      && (r.effect.CoordsChange? <==> !s.locked && s.pending.Some?)
      && (r.effect.CoordsChange? ==> s.pending == Some(r.effect.coords))
    ensures ev.Click? ==> r.next == s && (r.effect == ForwardClick <==> !ev.dragging)
    ensures (ev.DragEnd? || ev.RotateEnd?) ==> r.next == Buffer(s, RingToCoords(ev.ring)) && r.effect == NoEffect
  {
    match ev
    case ContextMenu =>
      var t := MarkerLock.ContextMenu(s);
      Stepped(t.next, if t.committed.Some? then CoordsChange(t.committed.value) else NoEffect)
    case Click(dragging) => Stepped(s, if ForwardsClick(dragging) then ForwardClick else NoEffect)
    case DragEnd(ring) => Stepped(Buffer(s, RingToCoords(ring)), NoEffect)
    case RotateEnd(ring) => Stepped(Buffer(s, RingToCoords(ring)), NoEffect)
  }

  datatype Handles = Handles(layerDrag: bool, rotate: bool, fill: string)

  function HandlesFor(locked: bool): (h: Handles)
    ensures h.layerDrag == !locked && !h.rotate
    ensures h.fill == (if locked then "transparent" else "blue")
  {
    if locked then Handles(false, false, "transparent") else Handles(true, false, "blue")
  }

  /** Of two buffered outlines, the later one is what a lock commits. */
  lemma LastBufferWins(c1: seq<LeafletLatLng>, c2: seq<LeafletLatLng>)
    ensures var s1 := Step(MarkerLock.Initial(), ContextMenu).next;
      var s2 := Step(Step(s1, DragEnd(c1)).next, RotateEnd(c2)).next;
      Step(s2, ContextMenu).effect == CoordsChange(RingToCoords(c2))
  {
  }
}

=== FILE: marker_lock.dfy ===
/** The lock-and-buffer cycle the plant, rectangle and zone markers share:
    a marker starts locked; a context-click while unlocked commits the
    geometry buffered by the last drag (if any); every context-click then
    toggles the lock. A click while the layer is being dragged is
    swallowed. */
module MarkerLock {
  import opened Wrappers
  import opened Models
  import opened Lists

  datatype LockState<G> = LockState(locked: bool, pending: Option<G>)

  function Initial<G>(): (s: LockState<G>)
    ensures s.locked && s.pending.None?
  {
    LockState(true, None)
  }

  /** The outcome of one context-click: the next state, and the geometry
      handed to the change callback, if one was. */
  datatype Toggled<G> = Toggled(next: LockState<G>, committed: Option<G>)

  function ContextMenu<G>(s: LockState<G>): (t: Toggled<G>)
    ensures t.next.locked == !s.locked
    ensures t.committed.Some? <==> !s.locked && s.pending.Some?
    ensures t.committed.Some? ==> t.committed == s.pending && t.next.pending.None?
    ensures t.committed.None? ==> t.next.pending == s.pending
  {
    if !s.locked && s.pending.Some?
    then Toggled(LockState(!s.locked, None), s.pending)
    else Toggled(s.(locked := !s.locked), None)
  }

  /** A drag or rotate end buffers the new geometry. */
  function Buffer<G>(s: LockState<G>, g: G): (r: LockState<G>)
    ensures r.locked == s.locked && r.pending == Some(g)
  {
    s.(pending := Some(g))
  }

  /** `click`: forwarded unless the layer is being dragged. */
  predicate ForwardsClick(dragging: bool) { !dragging }

  /** A Leaflet `LatLng` as the ring holds it. */
  datatype LeafletLatLng = LeafletLatLng(lat: real, lng: real)

  /** `getLatLngs()[0].map(ll => [ll.lat, ll.lng])`. */
  function RingToCoords(ring: seq<LeafletLatLng>): (r: seq<LatLng>)
    ensures |r| == |ring|
    ensures forall k :: 0 <= k < |ring| ==> r[k] == LatLng(ring[k].lat, ring[k].lng)
  {
    Map(ring, (ll: LeafletLatLng) => LatLng(ll.lat, ll.lng))
  }

  /** Two context-clicks around a drag commit what the drag left, once,
      and end locked with nothing buffered. */
  lemma UnlockDragLockCommits<G>(g: G)
    ensures var t1 := ContextMenu(Initial<G>());
      var t2 := ContextMenu(Buffer(t1.next, g));
      && t1.committed.None? && !t1.next.locked
      && t2.committed == Some(g) && t2.next == Initial<G>()
  {
  }

  /** Without a drag in between, unlocking and locking again commits
      nothing. */
  lemma UnlockLockWithoutDrag<G>()
    ensures var t1 := ContextMenu(Initial<G>());
      var t2 := ContextMenu(t1.next);
      t1.committed.None? && t2.committed.None? && t2.next == Initial<G>()
  {
  }
}

=== FILE: models.dfy ===
/** The domain records shared by the map editor (src/models and the fields
    the projection functions fill in). Coordinates are `real`s: the model
    never does arithmetic on them beyond the vector differences of a drag. */
module Models {
  import opened Wrappers

  /** A `[lat, lon]` tuple as stored on plants, rectangles and zones. */
  datatype LatLng = LatLng(lat: real, lon: real)

  /** A JavaScript `Date`, identified by the text it was built from. */
  datatype Date = Date(text: string)

  datatype Plant = Plant(
    id: string,
    plantCardId: string,
    code: string,
    fullLatinName: string,
    commonName: string,
    sponsor: string,
    width: real,
    height: real,
    position: Option<LatLng>,
    sourceLinks: seq<string>,
    tags: seq<string>,
    plantedAt: Option<Date>,
    declaredDeadAt: Option<Date>)

  datatype Rectangle = Rectangle(
    id: string,
    labelText: string,  // the `label` field (a Dafny keyword)
    code: string,
    width: real,
    length: real,
    coords: Option<seq<LatLng>>)

  datatype Orientation = Landscape | Portrait

  datatype MapZone = MapZone(
    id: string,
    name: string,
    orientation: Orientation,
    coords: Option<seq<LatLng>>)

  datatype Hedge = Hedge(id: string, name: string, coords: seq<LatLng>)

  /** A GeoJSON position: longitude first, as the GeoJSON format orders it. */
  datatype GeoPosition = GeoPosition(lon: real, lat: real)

  /** A GeoJSON `Feature<Polygon>`: its geometry's linear rings. */
  datatype PolygonFeature = PolygonFeature(rings: seq<seq<GeoPosition>>)

  datatype MapSector = MapSector(
    id: string,
    name: string,
    geojson: PolygonFeature,
    wateredAt: Option<Date>)

  datatype MeasuredPoint = MeasuredPoint(
    name: string,
    coords: LatLng,
    height: real,
    description: Option<string>)

  /** A tag chosen in the tag picker together with its colour slot. */
  datatype SelectedTag = SelectedTag(id: string, hueIndex: int)

  /** Tag ids the editor gives a meaning to. */
  const PlantedTag := "planted"
  const DeadTag := "dead"
  const PinnedTag := "jalonne"

  /** `plant.tags.includes(tag)`. */
  predicate HasTag(p: Plant, tag: string) {
    tag in p.tags
  }

  function RectangleId(r: Rectangle): string { r.id }
  function PlantId(p: Plant): string { p.id }
  function MapZoneId(z: MapZone): string { z.id }
  function MapSectorId(s: MapSector): string { s.id }
}

=== FILE: optimistic.dfy ===
/** The callback protocol the mutation hooks install around a remote write.
    The optimistic hooks (plant position, rectangle, map-zone and sector
    geometry) snapshot, write, and roll back on error, some of them also
    invalidating once settled; the tag hooks (pin, plant, dead) only write
    on success and invalidate on error. Each callback is a transition on
    one cache entry, and the remote call is reduced to its outcome. */
module Optimistic {
  import opened Wrappers
  import opened QueryCache

  /** What `onMutate` leaves behind: the written entry, and the rollback
      context it returns. */
  datatype Begun<T> = Begun(query: Query<T>, context: Option<seq<T>>)

  /** `onMutate`: cancel in-flight fetches, read the snapshot, write the
      optimistic value, return the snapshot. */
  function OnMutate<T>(q: Query<T>, updater: seq<T> -> seq<T>): (b: Begun<T>)
    ensures b.context == q.data
    ensures b.query.data == Some(updater(q.data.GetOr([])))
    ensures !b.query.fetching && !b.query.stale
  {
    var cancelled := Cancel(q);
    var snapshot := cancelled.data;
    Begun(SetQueryData(cancelled, updater), snapshot)
  }

  /** `onError`: put back the snapshot, or `[]` when there was none. */
  function OnError<T>(q: Query<T>, context: Option<seq<T>>): (r: Query<T>)
    ensures r.data == Some(context.GetOr([]))
  {
    PutQueryData(q, context.GetOr([]))
  }

  /** `onSettled`, for the hooks that install one. */
  function OnSettled<T>(q: Query<T>, hasSettle: bool): (r: Query<T>)
    ensures r.data == q.data
    ensures r.stale == (hasSettle || q.stale)
  {
    if hasSettle then Invalidate(q) else q
  }

  /** One optimistic mutation run to its end: onMutate, the remote outcome,
      onError on failure, then onSettled when the hook has one. */
  function OptimisticRun<T>(q: Query<T>, updater: seq<T> -> seq<T>, succeeded: bool, hasSettle: bool): (r: Query<T>)
    ensures succeeded ==> r.data == Some(updater(q.data.GetOr([])))
    ensures !succeeded ==> r.data == Some(q.data.GetOr([]))
    ensures r.stale == hasSettle
    ensures !r.fetching
  {
    var begun := OnMutate(q, updater);
    var afterOutcome := if succeeded then begun.query else OnError(begun.query, begun.context);
    OnSettled(afterOutcome, hasSettle)
  }

  /** Rollback is exact: a failed run leaves the cached list it started
      from, not a merge with the optimistic value. */
  lemma RollbackExact<T>(q: Query<T>, updater: seq<T> -> seq<T>, hasSettle: bool)
    requires q.data.Some?
    ensures OptimisticRun(q, updater, false, hasSettle).data == q.data
  {
  }

  /** The rollback target is the snapshot, whatever the entry holds when
      the error arrives: an optimistic write made in between is lost. */
  lemma RollbackIgnoresLaterWrites<T>(q: Query<T>, updater: seq<T> -> seq<T>, laterValue: seq<T>)
    ensures var b := OnMutate(q, updater);
      OnError(PutQueryData(b.query, laterValue), b.context).data == Some(q.data.GetOr([]))
  {
  }

  /** The tag hooks: the success updater runs only on success, and an
      error only marks the entry stale. */
  function OnSuccessRun<T>(q: Query<T>, updater: seq<T> -> seq<T>, succeeded: bool, invalidateOnError: bool): (r: Query<T>)
    ensures succeeded ==> r.data == Some(updater(q.data.GetOr([]))) && !r.stale
    ensures !succeeded ==> r.data == q.data && r.stale == (invalidateOnError || q.stale)
    ensures r.fetching == q.fetching
  {
    if succeeded then SetQueryData(q, updater)
    else if invalidateOnError then Invalidate(q)
    else q
  }
}

=== FILE: plant_aside.dfy ===
/** The plant side panel: which quick actions it offers, how a click on one
    is guarded, the loading flag around the call, the date-time it sends,
    and the hue a selected tag is drawn with. */
module PlantAside {
  import opened Wrappers
  import opened Models
  import opened Lists

  /** `getHueIndex`: the hue of the first selection with that tag id, or
      nothing when the tag is not selected. */
  function HueIndex(selected: seq<SelectedTag>, tagId: string): (r: Option<int>)
    ensures r.None? <==> forall k :: 0 <= k < |selected| ==> selected[k].id != tagId
    ensures r.Some? ==>
      exists k :: 0 <= k < |selected| && selected[k].id == tagId && selected[k].hueIndex == r.value
        && forall j :: 0 <= j < k ==> selected[j].id != tagId
  {
    var k := FindIndex(selected, (t: SelectedTag) => t.id == tagId);
    if k < 0 then None else Some(selected[k].hueIndex)
  }

  /** `hasTag`: false while no plant is shown. */
  predicate Shows(plant: Option<Plant>, tag: string) {
    plant.Some? && HasTag(plant.value, tag)
  }

  /** Which quick-action buttons are on screen. */
  datatype Buttons = Buttons(pin: bool, plant: bool, dead: bool)

  /** The not-planted block holds Plant, and Pin unless already pinned;
      the planted-and-living block holds Dead. */
  function QuickButtons(plant: Option<Plant>): (b: Buttons)
    ensures b.plant <==> !Shows(plant, PlantedTag)
    ensures b.pin <==> !Shows(plant, PlantedTag) && !Shows(plant, PinnedTag)
    ensures b.dead <==> Shows(plant, PlantedTag) && !Shows(plant, DeadTag)
  {
    var planted := Shows(plant, PlantedTag);
    Buttons(!planted && !Shows(plant, PinnedTag), !planted, planted && !Shows(plant, DeadTag))
  }

  /** The two blocks exclude each other, and a planted plant that is dead
      is offered nothing. */
  lemma ButtonsExclusive(plant: Option<Plant>)
    ensures var b := QuickButtons(plant);
      && !(b.dead && (b.pin || b.plant))
      && (Shows(plant, PlantedTag) && Shows(plant, DeadTag) ==> b == Buttons(false, false, false))
  {
  }

  /** `fullPlantDate`: the date and time fields joined with `T`, when both
      are non-empty. */
  function FullPlantDate(date: string, time: string): (r: Option<Date>)
    ensures r.None? <==> date == "" || time == ""
    ensures r.Some? ==> r.value.text == date + "T" + time
  {
    if date == "" || time == "" then None else Some(Date(date + "T" + time))
  }

  /** Actions that need the date. */
  predicate NeedsDate(action: string) { action == "plant" || action == "dead" }

  /** What a click does, in order: the loading flag is set to the action,
      the handler (if any) is awaited, and the flag is cleared. */
  datatype Step = SetLoading(flag: Option<string>) | Invoke(plantId: string, action: string, date: Option<Date>)

  /** `onQuickActionClicked(action)()`. `hasHandler` is whether
      `onQuickAction` was given; whether the handler throws does not
      matter, as the error is caught and the flag cleared either way. */
  function OnQuickActionClicked(plant: Option<Plant>, action: string, full: Option<Date>, hasHandler: bool): (r: seq<Step>)
    ensures r == [] <==> plant.None? || (NeedsDate(action) && full.None?)
    ensures r != [] ==>
      && r[0] == SetLoading(Some(action))
      && r[|r| - 1] == SetLoading(None)
      && (exists k :: 0 <= k < |r| && r[k].Invoke?) == hasHandler
    ensures forall k :: 0 <= k < |r| && r[k].Invoke? ==>
      plant.Some? && r[k] == Invoke(plant.value.id, action, full)
  {
    if plant.None? then []
    else if NeedsDate(action) && full.None? then []
    else
      var r := [SetLoading(Some(action))]
        + (if hasHandler then [Invoke(plant.value.id, action, full)] else [])
        + [SetLoading(None)];
      assert hasHandler ==> r[1].Invoke?;
      r
  }

  /** The flag the steps leave behind. */
  function LoadingAfter(loading: Option<string>, steps: seq<Step>): Option<string>
    decreases |steps|
  {
    if |steps| == 0 then loading
    else LoadingAfter(if steps[0].SetLoading? then steps[0].flag else loading, steps[1..])
  }

  /** The loading flag never outlives a click. */
  lemma {:induction false} LoadingCleared(plant: Option<Plant>, action: string, full: Option<Date>, hasHandler: bool, loading: Option<string>)
    ensures var steps := OnQuickActionClicked(plant, action, full, hasHandler);
      steps != [] ==> LoadingAfter(loading, steps) == None
  {
    var steps := OnQuickActionClicked(plant, action, full, hasHandler);
    if steps != [] {
      LastSetWins(loading, steps);
    }
  }

  lemma {:induction false} LastSetWins(loading: Option<string>, steps: seq<Step>)
    requires |steps| > 0 && steps[|steps| - 1].SetLoading?
    ensures LoadingAfter(loading, steps) == steps[|steps| - 1].flag
    decreases |steps|
  {
    if |steps| > 1 {
      LastSetWins(if steps[0].SetLoading? then steps[0].flag else loading, steps[1..]);
      assert steps[1..][|steps[1..]| - 1] == steps[|steps| - 1];
    }
  }
}

=== FILE: plant_marker.dfy ===
/** A plant's circle on the map. Planted plants are fixed: a context-click
    on one forces the lock and commits nothing. The outline and fill
    colours follow the selection, the planted and pinned tags, and the
    selected tag filters. `colorFromHueIndex` is not part of this model: a
    hue-coloured fill is kept as its hue index. */
module PlantMarker {
  import opened Wrappers
  import opened Models
  import opened Lists
  import opened MarkerLock

  datatype PlantEvent =
    | ContextMenu
    | Click(dragging: bool)
    | DragEnd(at: LatLng)

  datatype Effect = NoEffect | PositionChange(position: LatLng) | ForwardClick

  datatype Stepped = Stepped(next: LockState<LatLng>, effect: Effect)

  /** One marker event for a plant whose planted status is `planted`. */
  function Step(s: LockState<LatLng>, planted: bool, ev: PlantEvent): (r: Stepped)
    ensures planted && ev.ContextMenu? ==> r.next == s.(locked := true) && r.effect == NoEffect
    ensures !planted && ev.ContextMenu? ==>
      var t := MarkerLock.ContextMenu(s);
      r.next == t.next && (r.effect.PositionChange? <==> t.committed.Some?)
    ensures r.effect.PositionChange? ==> ev.ContextMenu? && !planted && !s.locked && s.pending == Some(r.effect.position)
    ensures ev.Click? ==> r.next == s && (r.effect == ForwardClick <==> !ev.dragging)
    ensures ev.DragEnd? ==> r.next == Buffer(s, ev.at) && r.effect == NoEffect
  {
    match ev
    case ContextMenu =>
      if planted then Stepped(s.(locked := true), NoEffect)
      else
        var t := MarkerLock.ContextMenu(s);
        Stepped(t.next, if t.committed.Some? then PositionChange(t.committed.value) else NoEffect)
    case Click(dragging) => Stepped(s, if ForwardsClick(dragging) then ForwardClick else NoEffect)
    case DragEnd(at) => Stepped(Buffer(s, at), NoEffect)
  }

  /** Events in order; the effects they had, in order. */
  datatype Run = Run(last: LockState<LatLng>, effects: seq<Effect>)

  function RunEvents(s: LockState<LatLng>, planted: bool, evs: seq<PlantEvent>): (r: Run)
    ensures |r.effects| == |evs|
    decreases |evs|
  {
    if |evs| == 0 then Run(s, [])
    else
      var st := Step(s, planted, evs[0]);
      var rest := RunEvents(st.next, planted, evs[1..]);
      Run(rest.last, [st.effect] + rest.effects)
  }

  /** A planted plant that starts locked stays locked whatever happens,
      and never reports a new position. */
  lemma {:induction false} PlantedStaysLocked(s: LockState<LatLng>, evs: seq<PlantEvent>)
    requires s.locked
    ensures RunEvents(s, true, evs).last.locked
    ensures forall k :: 0 <= k < |evs| ==> !RunEvents(s, true, evs).effects[k].PositionChange?
    decreases |evs|
  {
    if |evs| != 0 {
      var st := Step(s, true, evs[0]);
      PlantedStaysLocked(st.next, evs[1..]);
    }
  }

  /** Paint: a CSS colour, or the colour of a tag filter's hue. */
  datatype Paint = Css(name: string) | Hue(hueIndex: int)

  const PlantedGreen := "#33691e"

  /** The outline: selected, then planted, then (with outlines shown)
      neither planted nor pinned. */
  function OutlineColor(selected: bool, showOutlines: bool, planted: bool, pinned: bool): (c: string)
    ensures selected ==> c == "blue"
    ensures !selected && planted ==> c == PlantedGreen
    ensures !selected && !planted && showOutlines && !pinned ==> c == "#a30000"
    ensures !selected && !planted && (pinned || !showOutlines) ==> c == "gray"
    ensures c != "#000051"
  {
    if selected then "blue"
    else if planted then PlantedGreen
    else if showOutlines && !planted && !pinned then "#a30000"
    else if showOutlines && !pinned then "#000051"
    else "gray"
  }

  /** The index of `selectedTags.find(t => plant.tags.includes(t.id))`,
      or -1. */
  function FirstCarriedTag(selectedTags: seq<SelectedTag>, tags: seq<string>): (r: int)
    ensures -1 <= r < |selectedTags|
    ensures r == -1 <==> forall k :: 0 <= k < |selectedTags| ==> selectedTags[k].id !in tags
    ensures r != -1 ==> selectedTags[r].id in tags && forall j :: 0 <= j < r ==> selectedTags[j].id !in tags
  {
    FindIndex(selectedTags, (t: SelectedTag) => t.id in tags)
  }

  /** The fill: blue while unlocked; else planted green; else the hue of
      the first selected tag the plant carries; else gray. */
  function FillColor(locked: bool, plant: Plant, selectedTags: seq<SelectedTag>): (c: Paint)
    ensures !locked ==> c == Css("blue")
    ensures locked && HasTag(plant, PlantedTag) ==> c == Css(PlantedGreen)
    ensures locked && !HasTag(plant, PlantedTag) ==>
      var i := FirstCarriedTag(selectedTags, plant.tags);
      c == if i == -1 then Css("gray") else Hue(selectedTags[i].hueIndex)
  {
    if !locked then Css("blue")
    else if HasTag(plant, PlantedTag) then Css(PlantedGreen)
    else
      var i := FirstCarriedTag(selectedTags, plant.tags);
      if i == -1 then Css("gray") else Hue(selectedTags[i].hueIndex)
  }
}

=== FILE: plant_position_mutation.dfy ===
/** `useUpdatePlantMutation`: move a plant. The remote side fetches the
    entry, writes its `position` field and publishes; the cache side is the
    optimistic protocol on the plants-with-position list, invalidated once
    settled. */
module PlantPositionMutation {
  import opened Wrappers
  import opened Models
  import opened Lists
  import opened JsonPatch
  import opened Encodings
  import opened Remote
  import opened QueryCache
  import opened Optimistic

  /** The patch built from the fetched entry; a plant without a position
      makes the mutation function throw, after the fetch. */
  function PositionPatch(plant: Plant): Entry -> Result<seq<PatchOp>, Failure> {
    (entry: Entry) =>
      match plant.position
      case None => Err(PositionUndefined)
      case Some(p) => Ok([SetFieldOp(entry.doc, "position", PositionJson(p))])
  }

  /** The patch lands unless the entry holds a truthy `position` with no
      `fr` value, and then the entry reads back the new position. */
  lemma PositionPatchLands(entry: Entry, plant: Plant)
    requires plant.position.Some?
    ensures var d := ApplyPatch(entry.doc, PositionPatch(plant)(entry).value);
      && (d.Some? <==> !HasField(entry.doc, "position") || FieldValue(entry.doc, "position").Some?)
      && (d.Some? ==> FieldValue(d.value, "position").Some?
                      && PositionFromJson(FieldValue(d.value, "position").value) == plant.position)
      && (d.Some? ==> d.value.tags == entry.doc.tags)
  {
    var o := SetFieldOp(entry.doc, "position", PositionJson(plant.position.value));
    ApplyPatchOne(entry.doc, o);
    PositionRoundTrip(plant.position.value);
  }

  /** The optimistic updater: the new plant replaces the cached one with
      its id, or is appended. */
  function Updater(plant: Plant): seq<Plant> -> seq<Plant> {
    prev => ReplaceByIdOrAppend(prev, PlantId, plant)
  }

  /** One call of `mutate(plant)` run to its end. */
  function Mutate(cache: Cache, store: Store, plant: Plant): (r: (Cache, Exchange))
    ensures r.0 == cache.(plants := r.0.plants)
    ensures |r.1.calls| >= 1 && r.1.calls[0] == GetEntry(plant.id)
    ensures r.1.result.Ok? ==>
      r.0.plants.data == Some(ReplaceByIdOrAppend(cache.plants.data.GetOr([]), PlantId, plant))
    ensures r.1.result.Ok? ==>
      var list := r.0.plants.data.value;
      var i := IndexOfId(list, PlantId, plant.id);
      0 <= i < |list| && list[i] == plant
    ensures r.1.result.Err? ==> r.0.plants.data == Some(cache.plants.data.GetOr([]))
    ensures r.0.plants.stale && !r.0.plants.fetching
    ensures plant.position.None? ==> r.1.result.Err? && r.1.calls == [GetEntry(plant.id)]
  {
    var x := GetPatchPublish(store, plant.id, PositionPatch(plant));
    ReplaceByIdOrAppendFindsNew(cache.plants.data.GetOr([]), PlantId, plant);
    (cache.(plants := OptimisticRun(cache.plants, Updater(plant), x.result.Ok?, true)), x)
  }
}

=== FILE: points_export.dfy ===
/** The CSV export button: a first click enters selection mode; a click
    while selecting builds one Emlid row per selected id that names a
    plant, saves them and leaves selection mode. `toFixed8` is
    `n.toFixed(8)`; saving the file is left out. */
module PointsExport {
  import opened Wrappers
  import opened Models
  import opened Lists

  datatype EmlidRow = EmlidRow(name: string, longitude: string, latitude: string, elevation: string)

  function RowOf(p: Plant, toFixed8: real -> string): EmlidRow {
    EmlidRow(
      p.code,
      if p.position.Some? then toFixed8(p.position.value.lon) else "",
      if p.position.Some? then toFixed8(p.position.value.lat) else "",
      "0.0")
  }

  /** `plants?.find(p => p.id === id)`. */
  function FindPlant(plants: Option<seq<Plant>>, id: string): (r: Option<Plant>)
    ensures plants.None? ==> r.None?
    ensures plants.Some? ==>
      var i := IndexOfId(plants.value, PlantId, id);
      (r.None? <==> i == -1) && (r.Some? ==> r.value == plants.value[i])
  {
    match plants
    case None => None
    case Some(ps) =>
      var i := IndexOfId(ps, PlantId, id);
      if i == -1 then None else Some(ps[i])
  }

  /** The rows one selected id contributes: its plant's row, or none. */
  function RowFor(plants: Option<seq<Plant>>, id: string, toFixed8: real -> string): seq<EmlidRow> {
    if FindPlant(plants, id).Some? then [RowOf(FindPlant(plants, id).value, toFixed8)] else []
  }

  /** `ids.map(find).filter(truthy).map(toRow)`. */
  function ExportRows(ids: seq<string>, plants: Option<seq<Plant>>, toFixed8: real -> string): (r: seq<EmlidRow>)
    ensures |r| <= |ids|
  {
    if |ids| == 0 then [] else RowFor(plants, ids[0], toFixed8) + ExportRows(ids[1..], plants, toFixed8)
  }

  /** Rows follow the selection order: exporting two selections one after
      the other gives the rows of both, in that order. */
  lemma {:induction false} ExportRowsConcat(a: seq<string>, b: seq<string>, plants: Option<seq<Plant>>, toFixed8: real -> string)
    ensures ExportRows(a + b, plants, toFixed8) == ExportRows(a, plants, toFixed8) + ExportRows(b, plants, toFixed8)
  {
    if |a| == 0 {
      assert a + b == b;
    } else {
      assert (a + b)[0] == a[0];
      assert (a + b)[1..] == a[1..] + b;
      ExportRowsConcat(a[1..], b, plants, toFixed8);
    }
  }

  /** The number of rows is the number of selected ids that name a
      plant. */
  lemma {:induction false} ExportRowsCount(ids: seq<string>, plants: Option<seq<Plant>>, toFixed8: real -> string)
    ensures |ExportRows(ids, plants, toFixed8)| == |Filter(ids, (id: string) => FindPlant(plants, id).Some?)|
  {
    if |ids| != 0 {
      ExportRowsCount(ids[1..], plants, toFixed8);
    }
  }

  /** When every selected id names a plant, row `k` is the row of the
      first plant with the `k`-th id. */
  lemma {:induction false} ExportRowsAllMatched(ids: seq<string>, plants: Option<seq<Plant>>, toFixed8: real -> string)
    requires forall k :: 0 <= k < |ids| ==> FindPlant(plants, ids[k]).Some?
    ensures |ExportRows(ids, plants, toFixed8)| == |ids|
    ensures forall k :: 0 <= k < |ids| ==>
      ExportRows(ids, plants, toFixed8)[k] == RowOf(FindPlant(plants, ids[k]).value, toFixed8)
  {
    if |ids| != 0 {
      assert forall k :: 0 <= k < |ids[1..]| ==> FindPlant(plants, ids[1..][k]).Some? by {
        forall k | 0 <= k < |ids[1..]| ensures FindPlant(plants, ids[1..][k]).Some? {
          assert ids[1..][k] == ids[k + 1];
        }
      }
      ExportRowsAllMatched(ids[1..], plants, toFixed8);
      var r := ExportRows(ids, plants, toFixed8);
      forall k | 0 <= k < |ids| ensures r[k] == RowOf(FindPlant(plants, ids[k]).value, toFixed8) {
        if k > 0 { assert ids[k] == ids[1..][k - 1]; }
      }
    }
  }

  datatype ExportOutcome = ExportOutcome(selecting: bool, saved: Option<seq<EmlidRow>>)

  /** `exportClick`. The selection itself is not cleared. */
  function ExportClick(selecting: bool, exportedIds: seq<string>, plants: Option<seq<Plant>>, toFixed8: real -> string): (r: ExportOutcome)
    ensures !selecting ==> r == ExportOutcome(true, None)
    ensures selecting ==> !r.selecting && r.saved.Some?
    ensures selecting && plants.None? ==> r.saved == Some([])
    ensures selecting ==> r.saved == Some(ExportRows(exportedIds, plants, toFixed8))
  {
    if !selecting then ExportOutcome(true, None)
    else
      NoPlantsNoRows(exportedIds, toFixed8);
      ExportOutcome(false, Some(ExportRows(exportedIds, plants, toFixed8)))
  }

  lemma {:induction false} NoPlantsNoRows(ids: seq<string>, toFixed8: real -> string)
    ensures ExportRows(ids, None, toFixed8) == []
  {
    if |ids| != 0 {
      NoPlantsNoRows(ids[1..], toFixed8);
    }
  }
}

=== FILE: points_loader.dfy ===
/** The CSV import button: after parsing with a header row, the first row
    must carry a Name, a Latitude, a Longitude and an Ellipsoidal height;
    then every row becomes a measured point and rows without a name are
    dropped. `parseFloat` is a parameter. A missing cell reads as "". */
module PointsLoader {
  import opened Wrappers
  import opened Models
  import opened Lists

  type CsvRow = map<string, string>

  function Cell(row: CsvRow, column: string): string {
    if column in row then row[column] else ""
  }

  const RequiredColumns := ["Name", "Latitude", "Longitude", "Ellipsoidal height"]

  function ToPoint(row: CsvRow, parseFloat: string -> real): MeasuredPoint {
    MeasuredPoint(
      Cell(row, "Name"),
      LatLng(parseFloat(Cell(row, "Latitude")), parseFloat(Cell(row, "Longitude"))),
      parseFloat(Cell(row, "Ellipsoidal height")),
      None)
  }

  /** The `complete` callback. `None` means the points are left as they
      were: no file, an empty parse (reading the first row throws), or a
      first row missing a required column. */
  function OnParsed(files: bool, rows: seq<CsvRow>, parseFloat: string -> real): (r: Option<seq<MeasuredPoint>>)
    ensures r.Some? <==>
      files && |rows| > 0 && forall c :: c in RequiredColumns ==> Cell(rows[0], c) != ""
    ensures r.Some? ==> forall pt :: pt in r.value ==> pt.name != "" && pt.description.None?
    ensures r.Some? ==> forall k :: 0 <= k < |rows| && Named(rows[k]) ==> ToPoint(rows[k], parseFloat) in r.value
    ensures r.Some? ==> r.value == Map(Filter(rows, Named), (row: CsvRow) => ToPoint(row, parseFloat))
  {
    if !files || |rows| == 0 then None
    else
      var first := rows[0];
      if Cell(first, "Name") == "" || Cell(first, "Latitude") == "" || Cell(first, "Longitude") == ""
         || Cell(first, "Ellipsoidal height") == ""
      then None
      else Some(LoadedPoints(rows, parseFloat))
  }

  /** `r.data.map(...).filter(n => !!n.name)`: every row converted, then
      the unnamed points dropped. */
  function LoadedPoints(rows: seq<CsvRow>, parseFloat: string -> real): (pts: seq<MeasuredPoint>)
    ensures forall pt :: pt in pts ==> pt.name != "" && pt.description.None?
    ensures forall k :: 0 <= k < |rows| && Named(rows[k]) ==> ToPoint(rows[k], parseFloat) in pts
    ensures pts == Map(Filter(rows, Named), (row: CsvRow) => ToPoint(row, parseFloat))
  {
    NamedPointsInRowOrder(rows, parseFloat);
    NamedRowsKept(rows, parseFloat);
    Filter(Map(rows, (row: CsvRow) => ToPoint(row, parseFloat)), (p: MeasuredPoint) => p.name != "")
  }

  /** A row with a non-empty Name cell. */
  predicate Named(row: CsvRow) { Cell(row, "Name") != "" }

  /** Every named row's point survives the filter. */
  lemma NamedRowsKept(rows: seq<CsvRow>, parseFloat: string -> real)
    ensures forall k :: 0 <= k < |rows| && Named(rows[k]) ==>
      ToPoint(rows[k], parseFloat) in Filter(Map(rows, (row: CsvRow) => ToPoint(row, parseFloat)), (p: MeasuredPoint) => p.name != "")
  {
    var points := Map(rows, (row: CsvRow) => ToPoint(row, parseFloat));
    forall k | 0 <= k < |rows| && Named(rows[k])
      ensures ToPoint(rows[k], parseFloat) in Filter(points, (p: MeasuredPoint) => p.name != "")
    {
      assert points[k] == ToPoint(rows[k], parseFloat);
    }
  }

  /** Converting every row and then dropping the unnamed points gives the
      named rows' points, in row order. */
  lemma {:induction false} NamedPointsInRowOrder(rows: seq<CsvRow>, parseFloat: string -> real)
    ensures Filter(Map(rows, (row: CsvRow) => ToPoint(row, parseFloat)), (p: MeasuredPoint) => p.name != "")
         == Map(Filter(rows, Named), (row: CsvRow) => ToPoint(row, parseFloat))
  {
    if |rows| > 0 {
      var points := Map(rows, (row: CsvRow) => ToPoint(row, parseFloat));
      assert points[1..] == Map(rows[1..], (row: CsvRow) => ToPoint(row, parseFloat));
      NamedPointsInRowOrder(rows[1..], parseFloat);
      var rest := Filter(rows[1..], Named);
      if Named(rows[0]) {
        assert Filter(rows, Named) == [rows[0]] + rest;
        assert Map([rows[0]] + rest, (row: CsvRow) => ToPoint(row, parseFloat))
            == [ToPoint(rows[0], parseFloat)] + Map(rest, (row: CsvRow) => ToPoint(row, parseFloat));
      } else {
        assert Filter(rows, Named) == rest;
      }
    }
  }

  /** Only the first row is checked: a later row missing its coordinates
      still becomes a point, with whatever `parseFloat("")` gives. */
  lemma LaterRowsUnchecked(rows: seq<CsvRow>, parseFloat: string -> real, k: nat)
    requires OnParsed(true, rows, parseFloat).Some?
    requires 0 < k < |rows| && Cell(rows[k], "Name") != "" && Cell(rows[k], "Latitude") == ""
    ensures MeasuredPoint(Cell(rows[k], "Name"), LatLng(parseFloat(""), parseFloat(Cell(rows[k], "Longitude"))),
                          parseFloat(Cell(rows[k], "Ellipsoidal height")), None)
            in OnParsed(true, rows, parseFloat).value
  {
  }
}

=== FILE: projection.dfy ===
/** The delivery-side projections: a delivered plant entry becomes a
    `Plant`, a delivered collection keeps its paging numbers while its
    items are projected, and the tag collection becomes an id-to-name
    dictionary. */
module Projection {
  import opened Wrappers
  import opened Models
  import opened Lists

  /** The linked plant card, resolved, as far as `entryToPlant` reads it;
      each optional field may be missing. */
  datatype CommonInfo = CommonInfo(
    id: string,
    fullLatinName: Option<string>,
    width: Option<real>,
    commonName: Option<string>,
    height: Option<real>,
    sourceLinks: Option<seq<string>>,
    tags: seq<string>)

  /** A delivered plant entry: its own tag ids, the card link (absent when
      unresolvable), and its fields; `position` is `{lat, lon}`. */
  datatype PlantEntry = PlantEntry(
    id: string,
    tags: seq<string>,
    commonInfo: Option<CommonInfo>,
    code: string,
    sponsor: Option<string>,
    position: Option<LatLng>,
    plantedAt: Option<string>,
    declaredDeadAt: Option<string>)

  /** `x ? new Date(x) : undefined` on an optional string: a missing or
      empty string gives no date. */
  function DateIfTruthy(s: Option<string>): (r: Option<Date>)
    ensures r.Some? <==> s.Some? && s.value != ""
    ensures r.Some? ==> r.value == Date(s.value)
  {
    if s.Some? && s.value != "" then Some(Date(s.value)) else None
  }

  /** `entryToPlant`. Card fields fall back with `??` (so a width of 0 is
      kept), dates with truthiness (so an empty date is dropped), and the
      plant's own tags come before its card's. */
  function EntryToPlant(e: PlantEntry): (r: Plant)
    ensures r.id == e.id && r.code == e.code && r.position == e.position
    ensures e.commonInfo.None? ==>
      && r.plantCardId == e.id + "-undefined-card-id"
      && r.fullLatinName == "" && r.commonName == ""
      && r.width == 1.0 && r.height == 1.0
      && r.sourceLinks == [] && r.tags == e.tags
    ensures e.commonInfo.Some? ==>
      && r.plantCardId == e.commonInfo.value.id
      && r.fullLatinName == e.commonInfo.value.fullLatinName.GetOr("")
      && r.commonName == e.commonInfo.value.commonName.GetOr("")
      && r.sourceLinks == e.commonInfo.value.sourceLinks.GetOr([])
      && r.tags == e.tags + e.commonInfo.value.tags
      && r.width == e.commonInfo.value.width.GetOr(1.0)
      && r.height == e.commonInfo.value.height.GetOr(1.0)
    ensures r.sponsor == e.sponsor.GetOr("")
    ensures r.plantedAt == DateIfTruthy(e.plantedAt) && r.declaredDeadAt == DateIfTruthy(e.declaredDeadAt)
  {
    var info := e.commonInfo;
    Plant(
      e.id,
      if info.Some? then info.value.id else e.id + "-undefined-card-id",
      e.code,
      if info.Some? then info.value.fullLatinName.GetOr("") else "",
      if info.Some? then info.value.commonName.GetOr("") else "",
      e.sponsor.GetOr(""),
      if info.Some? then info.value.width.GetOr(1.0) else 1.0,
      if info.Some? then info.value.height.GetOr(1.0) else 1.0,
      e.position,
      if info.Some? then info.value.sourceLinks.GetOr([]) else [],
      e.tags + (if info.Some? then info.value.tags else []),
      DateIfTruthy(e.plantedAt),
      DateIfTruthy(e.declaredDeadAt))
  }

  /** A tag added to the entry (as the tag mutations do remotely) shows up
      in the projected plant exactly once more, as the cache updaters add
      it; only its position may differ, since the entry's own tags come
      before the card's. */
  lemma TaggedEntryProjectsLikeCache(e: PlantEntry, tag: string)
    ensures multiset(EntryToPlant(e.(tags := e.tags + [tag])).tags) == multiset(EntryToPlant(e).tags + [tag])
    ensures e.commonInfo.None? || e.commonInfo.value.tags == [] ==>
      EntryToPlant(e.(tags := e.tags + [tag])).tags == EntryToPlant(e).tags + [tag]
  {
    if e.commonInfo.Some? {
      var c := e.commonInfo.value.tags;
      assert e.tags + [tag] + c == (e.tags + [tag]) + c;
      assert multiset(e.tags + [tag] + c) == multiset(e.tags) + multiset([tag]) + multiset(c);
      assert multiset(e.tags + c + [tag]) == multiset(e.tags) + multiset(c) + multiset([tag]);
      if c == [] {
        assert e.tags + [tag] + c == e.tags + [tag];
        assert e.tags + c == e.tags;
      }
    } else {
      assert e.tags + [tag] + [] == e.tags + [tag];
      assert e.tags + [] == e.tags;
    }
  }

  /** A delivered collection and its paging numbers. */
  datatype Collection<E> = Collection(total: nat, skip: nat, limit: nat, items: seq<E>)

  datatype PaginatedResult<T> = PaginatedResult(total: nat, skip: nat, limit: nat, items: seq<T>)

  /** `entryCollectionToPaginatedResult`: the paging numbers are copied,
      and each item is the projection of the entry at the same place. */
  function CollectionToPaginatedResult<E, T>(c: Collection<E>, toItem: E -> T): (r: PaginatedResult<T>)
    ensures r.total == c.total && r.skip == c.skip && r.limit == c.limit
    ensures |r.items| == |c.items|
    ensures forall i :: 0 <= i < |c.items| ==> r.items[i] == toItem(c.items[i])
  {
    PaginatedResult(c.total, c.skip, c.limit, Map(c.items, toItem))
  }

  /** A delivered tag: `sys.id` and `name`. */
  datatype TagEntry = TagEntry(id: string, name: string)

  /** Reference reading of a tag list: the name of the last tag with this
      id, scanning from the end. */
  function LastNameOf(items: seq<TagEntry>, id: string): Option<string> {
    if |items| == 0 then None
    else if items[|items| - 1].id == id then Some(items[|items| - 1].name)
    else LastNameOf(items[..|items| - 1], id)
  }

  /** `getTags`: the reduce writes `acc[id] = name` in list order, so an
      id listed twice keeps its later name. */
  function TagsDictionary(items: seq<TagEntry>): (r: map<string, string>)
    ensures forall id :: id in r <==> LastNameOf(items, id).Some?
    ensures forall id :: id in r ==> r[id] == LastNameOf(items, id).value
  {
    if |items| == 0 then map[]
    else
      var last := items[|items| - 1];
      TagsDictionary(items[..|items| - 1])[last.id := last.name]
  }

  /** Every delivered tag id is a key of the dictionary. */
  lemma {:induction false} TagsDictionaryCoversIds(items: seq<TagEntry>, i: nat)
    requires i < |items|
    ensures items[i].id in TagsDictionary(items)
  {
    if i < |items| - 1 {
      TagsDictionaryCoversIds(items[..|items| - 1], i);
    }
  }

  /** `useTags`: the marked-tag id is always shown as "Marqué", whatever
      the delivered name; other names are as delivered. The marked id
      comes from src/data/keys.ts, which is not part of this model. */
  function WithMarkedTag(tags: map<string, string>, markedTagId: string): (r: map<string, string>)
    ensures markedTagId in r && r[markedTagId] == "Marqué"
    ensures r.Keys == tags.Keys + {markedTagId}
    ensures forall id :: id in tags && id != markedTagId ==> r[id] == tags[id]
  {
    tags[markedTagId := "Marqué"]
  }
}

=== FILE: query_cache.dfy ===
/** The react-query cache as the mutations see it: one cached list per query
    key, written with `setQueryData`, marked stale by `invalidateQueries`,
    and with any in-flight fetch dropped by `cancelQueries`. Refetching and
    its timing are outside the model; "stale" is only a mark. */
module QueryCache {
  import opened Wrappers
  import opened Models

  datatype QueryKey = PlantsWithPosition | RectanglesWithCoords | MapZonesWithCoords | Hedges | MapSectors

  /** The key strings exported by the query hooks in src/lib/queries. */
  function KeyName(k: QueryKey): string {
    match k
    case PlantsWithPosition => "plants-with-position"
    case RectanglesWithCoords => "rectangles-with-coords"
    case MapZonesWithCoords => "map-zones-with-coords"
    case Hedges => "hedges"
    case MapSectors => "mapSectors"
  }

  /** Distinct collections never share a cache entry. */
  lemma KeyNamesDistinct(k1: QueryKey, k2: QueryKey)
    requires k1 != k2
    ensures KeyName(k1) != KeyName(k2)
  {
  }

  /** One cache entry: the list, if any was ever stored; whether it has been
      invalidated since; whether a fetch for it is still in flight. */
  datatype Query<T> = Query(data: Option<seq<T>>, stale: bool, fetching: bool)

  /** `setQueryData(key, (old = []) => updater(old))`. */
  function SetQueryData<T>(q: Query<T>, updater: seq<T> -> seq<T>): (r: Query<T>)
    ensures r.data == Some(updater(q.data.GetOr([])))
    ensures !r.stale && r.fetching == q.fetching
  {
    q.(data := Some(updater(q.data.GetOr([]))), stale := false)
  }

  /** `setQueryData(key, value)`. */
  function PutQueryData<T>(q: Query<T>, value: seq<T>): (r: Query<T>)
    ensures r.data == Some(value) && !r.stale && r.fetching == q.fetching
  {
    q.(data := Some(value), stale := false)
  }

  /** `invalidateQueries(key)`: the data stays, marked stale. */
  function Invalidate<T>(q: Query<T>): (r: Query<T>)
    ensures r.data == q.data && r.stale && r.fetching == q.fetching
  {
    q.(stale := true)
  }

  /** `cancelQueries(key)`: an in-flight fetch will not write its result. */
  function Cancel<T>(q: Query<T>): (r: Query<T>)
    ensures r.data == q.data && r.stale == q.stale && !r.fetching
  {
    q.(fetching := false)
  }

  datatype Cache = Cache(
    plants: Query<Plant>,
    rectangles: Query<Rectangle>,
    mapZones: Query<MapZone>,
    hedges: Query<Hedge>,
    mapSectors: Query<MapSector>)
}

=== FILE: rectangle_coords_mutation.dfy ===
/** `useUpdateRectangleCoordsMutation`: reshape a rectangle. The same
    fetch, write-or-add, publish sequence as a plant move, on the `coords`
    field, with the optimistic protocol on the rectangles-with-coords list
    and an invalidation once settled. */
module RectangleCoordsMutation {
  import opened Wrappers
  import opened Models
  import opened Lists
  import opened JsonPatch
  import opened Encodings
  import opened Remote
  import opened QueryCache
  import opened Optimistic

  function CoordsPatch(rect: Rectangle): Entry -> Result<seq<PatchOp>, Failure> {
    (entry: Entry) => Ok([SetFieldOp(entry.doc, "coords", OptCoordsJson(rect.coords))])
  }

  /** The patch lands unless the entry holds a truthy `coords` with no
      `fr` value, and then the entry reads back the rectangle's outline. */
  lemma CoordsPatchLands(entry: Entry, rect: Rectangle)
    requires rect.coords.Some?
    ensures var d := ApplyPatch(entry.doc, CoordsPatch(rect)(entry).value);
      && (d.Some? <==> !HasField(entry.doc, "coords") || FieldValue(entry.doc, "coords").Some?)
      && (d.Some? ==> FieldValue(d.value, "coords").Some?
                      && CoordsFromJson(FieldValue(d.value, "coords").value) == rect.coords)
  {
    ApplyPatchOne(entry.doc, SetFieldOp(entry.doc, "coords", OptCoordsJson(rect.coords)));
    CoordsRoundTrip(rect.coords.value);
  }

  function Updater(rect: Rectangle): seq<Rectangle> -> seq<Rectangle> {
    prev => ReplaceByIdOrAppend(prev, RectangleId, rect)
  }

  /** One call of `mutate(rectangle)` run to its end. */
  function Mutate(cache: Cache, store: Store, rect: Rectangle): (r: (Cache, Exchange))
    ensures r.0 == cache.(rectangles := r.0.rectangles)
    ensures |r.1.calls| >= 1 && r.1.calls[0] == GetEntry(rect.id)
    ensures r.1.result.Ok? ==>
      r.0.rectangles.data == Some(ReplaceByIdOrAppend(cache.rectangles.data.GetOr([]), RectangleId, rect))
    ensures r.1.result.Ok? ==>
      var list := r.0.rectangles.data.value;
      var i := IndexOfId(list, RectangleId, rect.id);
      0 <= i < |list| && list[i] == rect
    ensures r.1.result.Err? ==> r.0.rectangles.data == Some(cache.rectangles.data.GetOr([]))
    ensures r.0.rectangles.stale && !r.0.rectangles.fetching
  {
    var x := GetPatchPublish(store, rect.id, CoordsPatch(rect));
    ReplaceByIdOrAppendFindsNew(cache.rectangles.data.GetOr([]), RectangleId, rect);
    (cache.(rectangles := OptimisticRun(cache.rectangles, Updater(rect), x.result.Ok?, true)), x)
  }
}

=== FILE: rectangle_marker.dfy ===
/** A rectangle's polygon: the shared lock-and-buffer cycle, with rotation
    switched off for the duration of a drag, and the editing handles and
    fill that follow the lock. */
module RectangleMarker {
  import opened Wrappers
  import opened Models
  import opened MarkerLock

  /** The lock cycle plus whether the rotate handle is on. */
  datatype RectState = RectState(lock: LockState<seq<LatLng>>, rotate: bool)

  datatype RectEvent =
    | ContextMenu
    | Click(dragging: bool)
    | DragStart
    | DragEnd(ring: seq<LeafletLatLng>)
    | RotateEnd(ring: seq<LeafletLatLng>)

  datatype Effect = NoEffect | CoordsChange(coords: seq<LatLng>) | ForwardClick

  datatype Stepped = Stepped(next: RectState, effect: Effect)

  /** What the lock effect applies: layer drag and rotation follow the
      lock, and so does the fill. */
  datatype Handles = Handles(layerDrag: bool, rotate: bool, fill: string)

  function HandlesFor(locked: bool): (h: Handles)
    ensures h.layerDrag == !locked && h.rotate == !locked
    ensures h.fill == (if locked then "purple" else "blue")
  {
    if locked then Handles(false, false, "purple") else Handles(true, true, "blue")
  }

  function Initial(): (s: RectState)
    ensures s.lock == MarkerLock.Initial<seq<LatLng>>() && !s.rotate
  {
    RectState(MarkerLock.Initial(), HandlesFor(true).rotate)
  }

  function Step(s: RectState, ev: RectEvent): (r: Stepped)
    ensures ev.ContextMenu? ==>
      var t := MarkerLock.ContextMenu(s.lock);
      && r.next.lock == t.next
      && r.next.rotate == !t.next.locked
      && (r.effect.CoordsChange? <==> !s.lock.locked && s.lock.pending.Some?)
      && (r.effect.CoordsChange? ==> s.lock.pending == Some(r.effect.coords))
    ensures ev.Click? ==> r.next == s && (r.effect == ForwardClick <==> !ev.dragging)
    ensures ev.DragStart? ==> r.next == s.(rotate := false) && r.effect == NoEffect
    ensures ev.DragEnd? ==> r.next == RectState(Buffer(s.lock, RingToCoords(ev.ring)), true) && r.effect == NoEffect
    ensures ev.RotateEnd? ==> r.next == s.(lock := Buffer(s.lock, RingToCoords(ev.ring))) && r.effect == NoEffect
  {
    match ev
    case ContextMenu =>
      var t := MarkerLock.ContextMenu(s.lock);
      Stepped(RectState(t.next, HandlesFor(t.next.locked).rotate),
              if t.committed.Some? then CoordsChange(t.committed.value) else NoEffect)
    case Click(dragging) => Stepped(s, if ForwardsClick(dragging) then ForwardClick else NoEffect)
    case DragStart => Stepped(s.(rotate := false), NoEffect)
    case DragEnd(ring) => Stepped(RectState(Buffer(s.lock, RingToCoords(ring)), true), NoEffect)
    case RotateEnd(ring) => Stepped(s.(lock := Buffer(s.lock, RingToCoords(ring))), NoEffect)
  }

  /** Unlock, rotate, lock: the rotated outline is committed, and the
      marker ends locked with rotation off. */
  lemma RotateThenLockCommits(ring: seq<LeafletLatLng>)
    ensures var s1 := Step(Initial(), ContextMenu).next;
      var s2 := Step(s1, RotateEnd(ring)).next;
      var last := Step(s2, ContextMenu);
      && s1.rotate && !s1.lock.locked
      && last.effect == CoordsChange(RingToCoords(ring))
      && last.next == Initial()
  {
  }
}

=== FILE: remote.dfy ===
/** The CMS management client as the mutations use it: an opaque store whose
    calls either answer or reject. The mutation functions return the calls
    they made, in order, together with the promise's outcome. */
module Remote {
  import opened Wrappers
  import opened JsonPatch

  /** An entry as the management API returns it: `sys.id`, `sys.version`,
      and the patchable document. */
  datatype Entry = Entry(id: string, version: nat, doc: Document)

  datatype Call =
    | GetEntry(entryId: string)
    | PatchEntry(entryId: string, version: nat, ops: seq<PatchOp>)
    | PublishEntry(entryId: string, entry: Entry)
    | CreateEntry(contentTypeId: string, fields: map<string, Json>)

  /** Each call answers `Some` or rejects with `None` (entry deleted,
      version conflict, transport failure: the model does not tell them
      apart). */
  datatype Store = Store(
    get: string -> Option<Entry>,
    patch: (string, nat, seq<PatchOp>) -> Option<Entry>,
    publish: (string, Entry) -> Option<Entry>,
    create: (string, map<string, Json>) -> Option<Entry>)

  /** Why a mutation's promise rejected: a remote call rejected, or the
      mutation function threw on its own input. */
  datatype Failure = Rejected | PositionUndefined | ActionsUndefined

  datatype Exchange = Exchange(calls: seq<Call>, result: Result<Entry, Failure>)

  /** get, build the patch from the fetched entry, patch at the fetched
      version, publish what the patch returned. `build` may throw. */
  function GetPatchPublish(store: Store, id: string, build: Entry -> Result<seq<PatchOp>, Failure>): (x: Exchange)
    ensures 1 <= |x.calls| <= 3 && x.calls[0] == GetEntry(id)
    ensures |x.calls| >= 2 ==>
      && store.get(id).Some?
      && build(store.get(id).value).Ok?
      && x.calls[1] == PatchEntry(id, store.get(id).value.version, build(store.get(id).value).value)
    ensures |x.calls| == 3 ==>
      var e := store.get(id).value;
      && store.patch(id, e.version, build(e).value).Some?
      && x.calls[2] == PublishEntry(id, store.patch(id, e.version, build(e).value).value)
    ensures x.result.Ok? <==> |x.calls| == 3 && store.publish(id, x.calls[2].entry).Some?
    ensures x.result.Ok? ==> x.result.value == store.publish(id, x.calls[2].entry).value
    ensures store.get(id).Some? && build(store.get(id).value).Err? ==>
      x == Exchange([GetEntry(id)], Err(build(store.get(id).value).error))
  {
    match store.get(id)
    case None => Exchange([GetEntry(id)], Err(Rejected))
    case Some(entry) =>
      match build(entry)
      case Err(e) => Exchange([GetEntry(id)], Err(e))
      case Ok(ops) =>
        var first := [GetEntry(id), PatchEntry(id, entry.version, ops)];
        match store.patch(id, entry.version, ops)
        case None => Exchange(first, Err(Rejected))
        case Some(updated) =>
          var calls := first + [PublishEntry(id, updated)];
          match store.publish(id, updated)
          case None => Exchange(calls, Err(Rejected))
          case Some(published) => Exchange(calls, Ok(published))
  }

  /** create, then publish the created entry under its own `sys.id`. */
  function CreatePublish(store: Store, contentTypeId: string, fields: map<string, Json>): (x: Exchange)
    ensures 1 <= |x.calls| <= 2 && x.calls[0] == CreateEntry(contentTypeId, fields)
    ensures |x.calls| == 2 <==> store.create(contentTypeId, fields).Some?
    ensures |x.calls| == 2 ==>
      var created := store.create(contentTypeId, fields).value;
      x.calls[1] == PublishEntry(created.id, created)
    ensures x.result.Ok? <==> |x.calls| == 2 && store.publish(x.calls[1].entryId, x.calls[1].entry).Some?
  {
    match store.create(contentTypeId, fields)
    case None => Exchange([CreateEntry(contentTypeId, fields)], Err(Rejected))
    case Some(created) =>
      var calls := [CreateEntry(contentTypeId, fields), PublishEntry(created.id, created)];
      match store.publish(created.id, created)
      case None => Exchange(calls, Err(Rejected))
      case Some(published) => Exchange(calls, Ok(published))
  }

  /** No call ever publishes an entry other than the one the patch call
      answered, and publishing only follows a successful patch. */
  lemma PublishFollowsPatch(store: Store, id: string, build: Entry -> Result<seq<PatchOp>, Failure>, k: nat)
    requires var x := GetPatchPublish(store, id, build); k < |x.calls| && x.calls[k].PublishEntry?
    ensures var x := GetPatchPublish(store, id, build);
      && k == 2
      && x.calls[1].PatchEntry?
      && store.patch(id, x.calls[1].version, x.calls[1].ops) == Some(x.calls[k].entry)
  {
  }
}

=== FILE: simple_drag.dfy ===
/** The `simple_drag` draw mode of the map-libre editor: a small state
    record (`canDragMove`, `dragMoving`, `dragMoveLocation`) driven by
    pointer events, over a draw context holding the features, the
    selection and the map's pan / double-click-zoom switches. Features are
    reduced to the translation applied to them so far; `moveFeatures` adds
    a vector to it. */
module SimpleDrag {
  import opened Wrappers
  import opened Lists

  /** A longitude/latitude pair, used both as a location and as a delta. */
  datatype Vec = Vec(lng: real, lat: real)

  function Plus(a: Vec, b: Vec): Vec { Vec(a.lng + b.lng, a.lat + b.lat) }
  function Minus(a: Vec, b: Vec): Vec { Vec(a.lng - b.lng, a.lat - b.lat) }

  datatype DragState = DragState(
    dragMoveLocation: Option<Vec>,
    dragMoving: bool,
    canDragMove: bool,
    initiallySelected: seq<string>)

  /** What the mode sees of the draw library and the map. */
  datatype Ctx = Ctx(
    features: map<string, Vec>,
    selected: seq<string>,
    dragPan: bool,
    doubleClickZoom: bool)

  datatype DropAction = Cancel | Confirm

  /** Events fired on the map: `draw.update` with the moved features, and
      `draw.drop`. Features are named by id. */
  datatype Fired = Update(ids: seq<string>) | Drop(action: DropAction, ids: seq<string>)

  /** `onSetup`: nothing is being dragged, and of the requested ids only
      those naming an existing feature get selected. */
  function Setup(featureIds: Option<seq<string>>, ctx: Ctx): (r: (DragState, Ctx))
    ensures r.0.dragMoveLocation.None? && !r.0.dragMoving && !r.0.canDragMove
    ensures r.0.initiallySelected == featureIds.GetOr([])
    ensures r.1 == ctx.(selected := r.1.selected)
    ensures forall id :: id in r.1.selected <==> id in featureIds.GetOr([]) && id in ctx.features
  {
    var ids := featureIds.GetOr([]);
    (DragState(None, false, false, ids), ctx.(selected := Filter(ids, (id: string) => id in ctx.features)))
  }

  /** `stopExtendedInteractions`. */
  function Stop(st: DragState, ctx: Ctx): (r: (DragState, Ctx))
    ensures !r.0.canDragMove && !r.0.dragMoving && r.1.dragPan
    ensures r.0.dragMoveLocation == st.dragMoveLocation && r.0.initiallySelected == st.initiallySelected
    ensures r.1 == ctx.(dragPan := true)
  {
    (st.(canDragMove := false, dragMoving := false), ctx.(dragPan := true))
  }

  /** `fireUpdate`: the selected features, as they stand. */
  function UpdateOf(ctx: Ctx): Fired { Update(ctx.selected) }

  /** `moveFeatures(getSelected(), delta)`. */
  function Translate(features: map<string, Vec>, sel: seq<string>, delta: Vec): (r: map<string, Vec>)
    ensures r.Keys == features.Keys
    ensures forall id :: id in features && id in sel ==> r[id] == Plus(features[id], delta)
    ensures forall id :: id in features && id !in sel ==> r[id] == features[id]
  {
    map id | id in features :: if id in sel then Plus(features[id], delta) else features[id]
  }

  /** How the pointer went down: a mouse button, or a touch. */
  datatype Pointer = Mouse(button: int) | Touch

  /** `e.originalEvent instanceof MouseEvent ? button === 2 : true`: a
      touch counts as a right click. */
  predicate IsRightClick(p: Pointer) { p.Touch? || p.button == 2 }

  /** What a click or tap landed on. `OnOther` is a draw target that is not
      a feature (a vertex, say), on which the mode does nothing. */
  datatype Target = NoTarget | OnFeature(id: string, pointer: Pointer) | OnOther

  datatype Event =
    | MouseMove(overFeature: bool)
    | MouseOut
    | ClickOrTap(target: Target)
    | MouseDownOrTouchStart(onActiveFeature: bool, at: Vec)
    | DragTo(at: Vec)
    | MouseUpOrTouchEnd
    | StopMode

  datatype Stepped = Stepped(st: DragState, ctx: Ctx, fired: seq<Fired>)

  /** `clickAnywhere`: a non-empty selection is dropped with `cancel` and
      cleared; double-click zoom comes back on. */
  function ClickAnywhere(st: DragState, ctx: Ctx): (r: Stepped)
    ensures |ctx.selected| > 0 ==> r.fired == [Drop(Cancel, ctx.selected)]
    ensures |ctx.selected| == 0 ==> r.fired == []
    ensures r.ctx.selected == [] && r.ctx.doubleClickZoom && r.ctx.dragPan
    ensures !r.st.canDragMove && !r.st.dragMoving
  {
    var fired := if |ctx.selected| > 0 then [Drop(Cancel, ctx.selected)] else [];
    var s := Stop(st, ctx.(selected := [], doubleClickZoom := true));
    Stepped(s.0, s.1, fired)
  }

  /** `clickOnFeature`: a right click on a selected feature confirms the
      drop of the whole selection and deselects that feature; double-click
      zoom is off afterwards unless that feature was the only one
      selected. */
  function ClickOnFeature(st: DragState, ctx: Ctx, id: string, pointer: Pointer): (r: Stepped)
    ensures !r.st.canDragMove && !r.st.dragMoving && r.ctx.dragPan
    ensures r.ctx.features == ctx.features
    ensures id in ctx.selected && IsRightClick(pointer) ==>
      && r.fired == [Drop(Confirm, ctx.selected)]
      && id !in r.ctx.selected
      && (forall x :: x in r.ctx.selected <==> x in ctx.selected && x != id)
      && r.ctx.doubleClickZoom == (|ctx.selected| == 1)
    ensures !(id in ctx.selected && IsRightClick(pointer)) ==>
      r.fired == [] && r.ctx.selected == ctx.selected && !r.ctx.doubleClickZoom
  {
    var s := Stop(st, ctx.(doubleClickZoom := false));
    if id in ctx.selected && IsRightClick(pointer) then
      var rest := Filter(ctx.selected, (x: string) => x != id);
      Stepped(s.0, s.1.(selected := rest, doubleClickZoom := |ctx.selected| == 1),
              [Drop(Confirm, ctx.selected)])
    else
      Stepped(s.0, s.1, [])
  }

  /** `dragMove`: with a recorded location, the selection moves by the
      difference and the location advances. */
  function DragMove(st: DragState, ctx: Ctx, at: Vec): (r: Stepped)
    ensures r.st.dragMoving && r.st.canDragMove == st.canDragMove && r.fired == []
    ensures st.dragMoveLocation.None? ==> r.ctx == ctx && r.st.dragMoveLocation.None?
    ensures st.dragMoveLocation.Some? ==>
      && r.st.dragMoveLocation == Some(at)
      && r.ctx == ctx.(features := Translate(ctx.features, ctx.selected, Minus(at, st.dragMoveLocation.value)))
  {
    var moving := st.(dragMoving := true);
    match st.dragMoveLocation
    case None => Stepped(moving, ctx, [])
    case Some(from) =>
      Stepped(moving.(dragMoveLocation := Some(at)),
              ctx.(features := Translate(ctx.features, ctx.selected, Minus(at, from))), [])
  }

  function Step(st: DragState, ctx: Ctx, ev: Event): (r: Stepped)
    ensures ev.MouseMove? ==>
      && r.fired == (if ev.overFeature && st.dragMoving then [UpdateOf(ctx)] else [])
      && (r.st, r.ctx) == Stop(st, ctx)
    ensures ev.MouseOut? ==>
      r.st == st && r.ctx == ctx && r.fired == (if st.dragMoving then [UpdateOf(ctx)] else [])
    ensures ev.MouseDownOrTouchStart? && ev.onActiveFeature ==>
      && r.st.canDragMove && !r.st.dragMoving && r.st.dragMoveLocation == Some(ev.at)
      && r.ctx == ctx.(dragPan := false) && r.fired == []
    ensures ev.MouseDownOrTouchStart? && !ev.onActiveFeature ==> r == Stepped(st, ctx, [])
    ensures ev.DragTo? && !st.canDragMove ==> r == Stepped(st, ctx, [])
    ensures ev.DragTo? && st.canDragMove ==> r == DragMove(st, ctx, ev.at)
    ensures ev.MouseUpOrTouchEnd? ==>
      && r.fired == (if st.dragMoving then [UpdateOf(ctx)] else [])
      && (r.st, r.ctx) == Stop(st, ctx)
    ensures ev.StopMode? ==> r == Stepped(st, ctx.(doubleClickZoom := true), [])
    ensures ev.ClickOrTap? && ev.target.NoTarget? ==> r == ClickAnywhere(st, ctx)
    ensures ev.ClickOrTap? && ev.target.OnFeature? ==> r == ClickOnFeature(st, ctx, ev.target.id, ev.target.pointer)
    ensures ev.ClickOrTap? && ev.target.OnOther? ==> r == Stepped(st, ctx, [])
    ensures r.ctx.features.Keys == ctx.features.Keys
  {
    match ev
    case MouseMove(overFeature) =>
      var s := Stop(st, ctx);
      Stepped(s.0, s.1, if overFeature && st.dragMoving then [UpdateOf(ctx)] else [])
    case MouseOut =>
      Stepped(st, ctx, if st.dragMoving then [UpdateOf(ctx)] else [])
    case ClickOrTap(target) =>
      (match target
       case NoTarget => ClickAnywhere(st, ctx)
       case OnFeature(id, pointer) => ClickOnFeature(st, ctx, id, pointer)
       case OnOther => Stepped(st, ctx, []))
    case MouseDownOrTouchStart(onActive, at) =>
      if onActive then
        var s := Stop(st, ctx);
        Stepped(s.0.(canDragMove := true, dragMoveLocation := Some(at)), s.1.(dragPan := false), [])
      else Stepped(st, ctx, [])
    case DragTo(at) =>
      if st.canDragMove then DragMove(st, ctx, at) else Stepped(st, ctx, [])
    case MouseUpOrTouchEnd =>
      var s := Stop(st, ctx);
      Stepped(s.0, s.1, if st.dragMoving then [UpdateOf(ctx)] else [])
    case StopMode =>
      Stepped(st, ctx.(doubleClickZoom := true), [])
  }

  /** A run of drag events. */
  function Drags(st: DragState, ctx: Ctx, points: seq<Vec>): (r: Stepped)
    decreases |points|
  {
    if |points| == 0 then Stepped(st, ctx, [])
    else
      var s := Step(st, ctx, DragTo(points[0]));
      var rest := Drags(s.st, s.ctx, points[1..]);
      Stepped(rest.st, rest.ctx, s.fired + rest.fired)
  }

  /** The per-event deltas telescope: after a press at `a` and any
      non-empty run of drags, each selected feature has moved by exactly
      the last location minus `a`, and nothing else has moved. */
  lemma {:induction false} DragsTelescope(st: DragState, ctx: Ctx, a: Vec, points: seq<Vec>)
    requires st.canDragMove && st.dragMoveLocation == Some(a)
    requires |points| > 0
    ensures var r := Drags(st, ctx, points);
      var last := points[|points| - 1];
      && r.fired == []
      && r.st.dragMoving && r.st.canDragMove && r.st.dragMoveLocation == Some(last)
      && r.ctx.selected == ctx.selected
      && r.ctx.features.Keys == ctx.features.Keys
      && (forall id :: id in ctx.features && id in ctx.selected ==>
            r.ctx.features[id] == Plus(ctx.features[id], Minus(last, a)))
      && (forall id :: id in ctx.features && id !in ctx.selected ==>
            r.ctx.features[id] == ctx.features[id])
    decreases |points|
  {
    var s := Step(st, ctx, DragTo(points[0]));
    assert s == DragMove(st, ctx, points[0]);
    if |points| > 1 {
      DragsTelescope(s.st, s.ctx, points[0], points[1..]);
      assert points[1..][|points[1..]| - 1] == points[|points| - 1];
    }
  }

  /** A release always ends the drag: neither flag survives it, whatever
      came before. */
  lemma ReleaseEndsDrag(st: DragState, ctx: Ctx)
    ensures var r := Step(st, ctx, MouseUpOrTouchEnd);
      !r.st.canDragMove && !r.st.dragMoving && r.ctx.dragPan
      && (|r.fired| == 1 <==> st.dragMoving)
  {
  }

  /** Without a press on an active feature nothing can be dragged: drags
      from a fresh setup move nothing and fire nothing. */
  lemma {:induction false} NoPressNoMove(st: DragState, ctx: Ctx, points: seq<Vec>)
    requires !st.canDragMove
    ensures Drags(st, ctx, points) == Stepped(st, ctx, [])
    decreases |points|
  {
    if |points| > 0 {
      NoPressNoMove(st, ctx, points[1..]);
    }
  }
}

=== FILE: sorting.dfy ===
/** `Array.prototype.sort` with a comparator, on a list of records compared
    by a string key. The comparator stands for `localeCompare` and is only
    assumed to order consistently; the sort is an insertion sort, which is
    one of the stable orders the language allows. */
module Sorting {
  /** The comparator's sign flips with its arguments, and "not after" is
      transitive. */
  ghost predicate IsCollation(cmp: (string, string) -> int) {
    && (forall a, b :: cmp(a, b) < 0 <==> cmp(b, a) > 0)
    && (forall a, b, c :: cmp(a, b) <= 0 && cmp(b, c) <= 0 ==> cmp(a, c) <= 0)
  }

  predicate SortedBy<T>(xs: seq<T>, key: T -> string, cmp: (string, string) -> int) {
    forall i, j :: 0 <= i < j < |xs| ==> cmp(key(xs[i]), key(xs[j])) <= 0
  }

  /** Insert before the first element `x` is not after. */
  function Insert<T>(x: T, ys: seq<T>, key: T -> string, cmp: (string, string) -> int): (r: seq<T>)
    ensures multiset(r) == multiset(ys) + multiset{x}
    ensures |r| == |ys| + 1
  {
    if |ys| == 0 then [x]
    else if cmp(key(x), key(ys[0])) <= 0 then [x] + ys
    else
      assert ys == [ys[0]] + ys[1..];
      [ys[0]] + Insert(x, ys[1..], key, cmp)
  }

  /** Nothing in `ys` comes before `lo`. */
  predicate NoneBefore<T>(ys: seq<T>, lo: string, key: T -> string, cmp: (string, string) -> int) {
    forall i :: 0 <= i < |ys| ==> cmp(lo, key(ys[i])) <= 0
  }

  lemma {:induction false} InsertKeepsBound<T>(x: T, ys: seq<T>, lo: string, key: T -> string, cmp: (string, string) -> int)
    requires NoneBefore(ys, lo, key, cmp) && cmp(lo, key(x)) <= 0
    ensures NoneBefore(Insert(x, ys, key, cmp), lo, key, cmp)
  {
    if |ys| != 0 && cmp(key(x), key(ys[0])) > 0 {
      InsertKeepsBound(x, ys[1..], lo, key, cmp);
      var r := Insert(x, ys, key, cmp);
      forall i | 0 < i < |r| ensures cmp(lo, key(r[i])) <= 0 {
        assert r[i] == Insert(x, ys[1..], key, cmp)[i - 1];
      }
    }
  }

  /** An element no later than anything in a sorted list can go first. */
  lemma ConsSorted<T>(y: T, rest: seq<T>, key: T -> string, cmp: (string, string) -> int)
    requires SortedBy(rest, key, cmp) && NoneBefore(rest, key(y), key, cmp)
    ensures SortedBy([y] + rest, key, cmp)
  {
    var r := [y] + rest;
    forall i, j | 0 <= i < j < |r| ensures cmp(key(r[i]), key(r[j])) <= 0 {
      assert r[j] == rest[j - 1];
      if i > 0 { assert r[i] == rest[i - 1]; }
    }
  }

  /** The head of a sorted list bounds its tail. */
  lemma HeadBoundsTail<T>(ys: seq<T>, key: T -> string, cmp: (string, string) -> int)
    requires |ys| > 0 && SortedBy(ys, key, cmp)
    ensures NoneBefore(ys[1..], key(ys[0]), key, cmp)
  {
    forall i | 0 <= i < |ys[1..]| ensures cmp(key(ys[0]), key(ys[1..][i])) <= 0 {
      assert ys[1..][i] == ys[i + 1];
    }
  }

  lemma {:induction false} InsertSorted<T>(x: T, ys: seq<T>, key: T -> string, cmp: (string, string) -> int)
    requires IsCollation(cmp)
    requires SortedBy(ys, key, cmp)
    ensures SortedBy(Insert(x, ys, key, cmp), key, cmp)
  {
    if |ys| == 0 {
    } else if cmp(key(x), key(ys[0])) <= 0 {
      forall j | 0 <= j < |ys| ensures cmp(key(x), key(ys[j])) <= 0 {
        if j > 0 { assert cmp(key(ys[0]), key(ys[j])) <= 0; }
      }
      ConsSorted(x, ys, key, cmp);
    } else {
      assert SortedBy(ys[1..], key, cmp);
      InsertSorted(x, ys[1..], key, cmp);
      assert cmp(key(ys[0]), key(x)) < 0;
      HeadBoundsTail(ys, key, cmp);
      InsertKeepsBound(x, ys[1..], key(ys[0]), key, cmp);
      ConsSorted(ys[0], Insert(x, ys[1..], key, cmp), key, cmp);
    }
  }

  /** A collation puts every string level with itself. */
  lemma Reflexive(cmp: (string, string) -> int, a: string)
    requires IsCollation(cmp)
    ensures cmp(a, a) <= 0
  {
    assert cmp(a, a) < 0 <==> cmp(a, a) > 0;
  }

  /** The sorted list: a permutation of the input, ordered by the key. */
  function SortWith<T>(xs: seq<T>, key: T -> string, cmp: (string, string) -> int): (r: seq<T>)
    requires IsCollation(cmp)
    ensures multiset(r) == multiset(xs)
    ensures |r| == |xs|
    ensures SortedBy(r, key, cmp)
  {
    if |xs| == 0 then []
    else
      var rest := SortWith(xs[1..], key, cmp);
      SortStep(xs, rest, key, cmp);
      Insert(xs[0], rest, key, cmp)
  }

  /** Inserting the head into the sorted tail sorts the whole list. */
  lemma SortStep<T>(xs: seq<T>, rest: seq<T>, key: T -> string, cmp: (string, string) -> int)
    requires IsCollation(cmp) && |xs| > 0
    requires multiset(rest) == multiset(xs[1..]) && SortedBy(rest, key, cmp)
    ensures multiset(Insert(xs[0], rest, key, cmp)) == multiset(xs)
    ensures SortedBy(Insert(xs[0], rest, key, cmp), key, cmp)
  {
    InsertSorted(xs[0], rest, key, cmp);
    assert xs == [xs[0]] + xs[1..];
  }

  /** `(a, b) => -cmp(b, a)`: the comparator the tag lists pass. */
  function Flipped(cmp: (string, string) -> int): (string, string) -> int {
    (a: string, b: string) => -cmp(b, a)
  }

  /** Under a collation the flipped comparator orders the same way. */
  lemma FlippedOrdersAlike(cmp: (string, string) -> int)
    requires IsCollation(cmp)
    ensures IsCollation(Flipped(cmp))
    ensures forall a, b :: Flipped(cmp)(a, b) <= 0 <==> cmp(a, b) <= 0
  {
  }
}

=== FILE: tag_mutations.dfy ===
/** The three tag mutations: `usePinPlantMutation` (tag `jalonne`),
    `usePlantPlantMutation` (tag `planted` plus a `PLANTED` action) and
    `useDeadPlantMutation` (tag `dead` plus a `DEAD` action). They are not
    optimistic: the cached plant gains its tag only once the publish
    succeeded, and an error only invalidates the plants list. */
module TagMutations {
  import opened Wrappers
  import opened Models
  import opened Lists
  import opened JsonPatch
  import opened Remote
  import opened QueryCache
  import opened Optimistic
  import opened TagUpdates

  /** The `onSuccess` list updater the three hooks share, as each writes it
      inline: find the plant, leave the list alone when it is missing or
      already tagged, otherwise append the tag. It is `upsertPlantTag`. */
  function AddTagOnSuccess(prev: seq<Plant>, plantId: string, tag: string): (r: seq<Plant>)
    ensures r == UpsertPlantTag(prev, plantId, tag)
  {
    var i := FindIndex(prev, (p: Plant) => p.id == plantId);
    if i == -1 then prev
    else
      var oldPlant := prev[i];
      if tag in oldPlant.tags then prev
      else prev[i := oldPlant.(tags := oldPlant.tags + [tag])]
  }

  /** `{[iso]: 'PLANTED'}`-style action maps, keyed by the action date's
      ISO text. */
  function ActionEntry(iso: string, action: string): map<string, Json> {
    map[iso := JStr(action)]
  }

  function PinPatch(): Entry -> Result<seq<PatchOp>, Failure> {
    (entry: Entry) => Ok([PatchOp(Add, TagsAppendPath, TagLink(PinnedTag))])
  }

  /** `plantPlant`: the planted tag, and an `actions` field holding only the
      planting. */
  function PlantPatch(iso: string): Entry -> Result<seq<PatchOp>, Failure> {
    (entry: Entry) => Ok([
      PatchOp(Add, TagsAppendPath, TagLink(PlantedTag)),
      PatchOp(Add, ["fields", "actions"], Localized(JObj(ActionEntry(iso, "PLANTED"))))])
  }

  /** `entry.fields.actions.fr` as the spread reads it: reading `.fr` of a
      missing or null field throws; any `fr` value that is not an object
      spreads as no entries. */
  function PriorActions(d: Document): (r: Result<map<string, Json>, Failure>)
    ensures r.Err? <==> "actions" !in d.fields || d.fields["actions"] == JNull
    ensures r.Ok? && FieldValue(d, "actions").Some? && FieldValue(d, "actions").value.JObj? ==>
      r.value == FieldValue(d, "actions").value.members
  {
    if "actions" !in d.fields || d.fields["actions"] == JNull then Err(ActionsUndefined)
    else
      match FieldValue(d, "actions")
      case Some(JObj(m)) => Ok(m)
      case _ => Ok(map[])
  }

  /** `deadPlant`: the dead tag, and the previous actions with the death
      added. */
  function DeadPatch(iso: string): Entry -> Result<seq<PatchOp>, Failure> {
    (entry: Entry) =>
      match PriorActions(entry.doc)
      case Err(e) => Err(e)
      case Ok(prior) => Ok([
        PatchOp(Add, TagsAppendPath, TagLink(DeadTag)),
        PatchOp(Add, ["fields", "actions"], Localized(JObj(prior[iso := JStr("DEAD")])))])
  }

  /** Pinning always lands and appends exactly one `jalonne` tag link,
      whether or not the entry already carries one. */
  lemma PinPatchLands(entry: Entry)
    ensures ApplyPatch(entry.doc, PinPatch()(entry).value) == Some(entry.doc.(tags := entry.doc.tags + [PinnedTag]))
  {
    ApplyPatchOne(entry.doc, PatchOp(Add, TagsAppendPath, TagLink(PinnedTag)));
    TagLinkRoundTrip(PinnedTag);
  }

  /** Planting always lands, appends the `planted` tag, and overwrites the
      whole `actions` field with the one planting action: earlier actions
      are dropped. */
  lemma PlantPatchLands(entry: Entry, iso: string)
    ensures var d := ApplyPatch(entry.doc, PlantPatch(iso)(entry).value);
      && d.Some?
      && d.value.tags == entry.doc.tags + [PlantedTag]
      && FieldValue(d.value, "actions") == Some(JObj(map[iso := JStr("PLANTED")]))
  {
    var o1 := PatchOp(Add, TagsAppendPath, TagLink(PlantedTag));
    var o2 := PatchOp(Add, ["fields", "actions"], Localized(JObj(ActionEntry(iso, "PLANTED"))));
    TagLinkRoundTrip(PlantedTag);
    ApplyPatchTwo(entry.doc, o1, o2);
  }

  /** Killing a plant lands whenever the entry has an `actions` field,
      appends the `dead` tag, and keeps every earlier action except one
      recorded at the very same instant. */
  lemma DeadPatchLands(entry: Entry, iso: string)
    requires PriorActions(entry.doc).Ok?
    ensures var d := ApplyPatch(entry.doc, DeadPatch(iso)(entry).value);
      var prior := PriorActions(entry.doc).value;
      && d.Some?
      && d.value.tags == entry.doc.tags + [DeadTag]
      && FieldValue(d.value, "actions") == Some(JObj(prior[iso := JStr("DEAD")]))
  {
    var prior := PriorActions(entry.doc).value;
    var o1 := PatchOp(Add, TagsAppendPath, TagLink(DeadTag));
    var o2 := PatchOp(Add, ["fields", "actions"], Localized(JObj(prior[iso := JStr("DEAD")])));
    TagLinkRoundTrip(DeadTag);
    ApplyPatchTwo(entry.doc, o1, o2);
  }

  /** An entry without actions makes `deadPlant` throw after the fetch: no
      patch and no publish are sent. */
  lemma DeadWithoutActionsStops(store: Store, plantId: string, iso: string)
    requires store.get(plantId).Some?
    requires "actions" !in store.get(plantId).value.doc.fields
    ensures GetPatchPublish(store, plantId, DeadPatch(iso)) == Exchange([GetEntry(plantId)], Err(ActionsUndefined))
  {
  }

  /** Which of the three hooks, with its variables. */
  datatype TagMutation =
    | Pin(plantId: string)
    | PlantIt(plantId: string, date: Date)
    | Kill(plantId: string, date: Date)

  function MutationTag(m: TagMutation): string {
    match m
    case Pin(_) => PinnedTag
    case PlantIt(_, _) => PlantedTag
    case Kill(_, _) => DeadTag
  }

  function MutationPatch(m: TagMutation, toIso: Date -> string): Entry -> Result<seq<PatchOp>, Failure> {
    match m
    case Pin(_) => PinPatch()
    case PlantIt(_, date) => PlantPatch(toIso(date))
    case Kill(_, date) => DeadPatch(toIso(date))
  }

  /** One call of `mutate(...)` on a tag hook run to its end; `toIso` is
      `Date.prototype.toISOString`. */
  function Mutate(cache: Cache, store: Store, m: TagMutation, toIso: Date -> string): (r: (Cache, Exchange))
    ensures r.0 == cache.(plants := r.0.plants)
    ensures |r.1.calls| >= 1 && r.1.calls[0] == GetEntry(m.plantId)
    ensures r.1.result.Ok? ==>
      r.0.plants.data == Some(UpsertPlantTag(cache.plants.data.GetOr([]), m.plantId, MutationTag(m)))
      && !r.0.plants.stale
    ensures r.1.result.Err? ==> r.0.plants.data == cache.plants.data && r.0.plants.stale
  {
    var x := GetPatchPublish(store, m.plantId, MutationPatch(m, toIso));
    var updater := (prev: seq<Plant>) => AddTagOnSuccess(prev, m.plantId, MutationTag(m));
    (cache.(plants := OnSuccessRun(cache.plants, updater, x.result.Ok?, true)), x)
  }
}

=== FILE: tag_picker.dfy ===
/** The tag picker shared by the tag selector and the tags aside: the
    options offered (unselected tags matching the typed text, sorted by
    label) and the selected pills (in selection order, with their hue).
    `lower` is `toLowerCase` and `cmp` is `localeCompare`. */
module TagPicker {
  import opened Wrappers
  import opened Models
  import opened Lists
  import opened Sorting

  datatype TagOption = TagOption(id: string, labelText: string)

  datatype SelectedPill = SelectedPill(id: string, labelText: Option<string>, hueIndex: int)

  function OptionLabel(t: TagOption): string { t.labelText }

  /** `haystack.includes(needle)`. */
  predicate Includes(haystack: string, needle: string) {
    exists i :: 0 <= i <= |haystack| && needle <= haystack[i..]
  }

  predicate IsSelected(selected: seq<SelectedTag>, id: string) {
    exists k :: 0 <= k < |selected| && selected[k].id == id
  }

  /** The filter: unselected, and, when something is typed, containing it
      whatever the case. */
  predicate Offered(t: TagOption, selected: seq<SelectedTag>, input: string, lower: string -> string) {
    !IsSelected(selected, t.id) && (input != "" ==> Includes(lower(t.labelText), lower(input)))
  }

  /** `Object.entries(tags).map(...)`; `keys` is the enumeration order of
      the tag dictionary: each of its keys once. */
  function Entries(tags: map<string, string>, keys: seq<string>): (r: seq<TagOption>)
    requires forall id :: id in tags <==> id in keys
    requires NoDuplicates(keys)
    ensures |r| == |keys| == |tags|
    ensures forall k :: 0 <= k < |keys| ==> r[k] == TagOption(keys[k], tags[keys[k]])
    ensures forall t: TagOption :: t in r <==> t.id in tags && t.labelText == tags[t.id]
  {
    EnumerationCoversOnce(tags, keys);
    var r := EntriesOf(tags, keys);
    assert forall t: TagOption :: t.id in tags && t.labelText == tags[t.id] ==> t in r by {
      forall t: TagOption | t.id in tags && t.labelText == tags[t.id] ensures t in r {
        var k :| 0 <= k < |keys| && keys[k] == t.id;
        assert r[k] == t;
      }
    }
    r
  }

  /** The options of `keys` in order; every key must be in the dictionary. */
  function EntriesOf(tags: map<string, string>, keys: seq<string>): (r: seq<TagOption>)
    requires forall k :: 0 <= k < |keys| ==> keys[k] in tags
    ensures |r| == |keys|
    ensures forall k :: 0 <= k < |keys| ==> r[k] == TagOption(keys[k], tags[keys[k]])
  {
    if |keys| == 0 then [] else [TagOption(keys[0], tags[keys[0]])] + EntriesOf(tags, keys[1..])
  }

  /** Dropping the head of a list without repeats leaves a list without
      repeats that no longer holds the head. */
  lemma TailOfRepeatFree(keys: seq<string>)
    requires |keys| > 0 && NoDuplicates(keys)
    ensures NoDuplicates(keys[1..]) && keys[0] !in keys[1..]
  {
    forall i, j | 0 <= i < j < |keys[1..]| ensures keys[1..][i] != keys[1..][j] {
      assert keys[1..][i] == keys[i + 1] && keys[1..][j] == keys[j + 1];
    }
    forall j | 0 <= j < |keys[1..]| ensures keys[1..][j] != keys[0] {
      assert keys[1..][j] == keys[j + 1];
    }
  }

  /** A repeat-free enumeration of a dictionary's keys is as long as the
      dictionary. */
  lemma {:induction false} EnumerationCoversOnce(tags: map<string, string>, keys: seq<string>)
    requires forall id :: id in tags <==> id in keys
    requires NoDuplicates(keys)
    ensures |keys| == |tags|
    decreases |keys|
  {
    if |keys| == 0 {
      assert tags.Keys == {};
    } else {
      var rest := map id | id in tags && id != keys[0] :: tags[id];
      assert rest.Keys == tags.Keys - {keys[0]};
      forall id
        ensures id in rest <==> id in keys[1..]
      {
        if id in keys[1..] {
          var j :| 0 <= j < |keys[1..]| && keys[1..][j] == id;
          assert keys[j + 1] == id;
        }
        if id in keys && id != keys[0] {
          var j :| 0 <= j < |keys| && keys[j] == id;
          assert keys[1..][j - 1] == id;
        }
      }
      TailOfRepeatFree(keys);
      EnumerationCoversOnce(rest, keys[1..]);
      assert |tags.Keys| == |rest.Keys| + 1;
    }
  }

  /** `tagList`. */
  function TagList(options: seq<TagOption>, selected: seq<SelectedTag>, input: string,
                   lower: string -> string, cmp: (string, string) -> int): (r: seq<TagOption>)
    requires IsCollation(cmp)
    ensures multiset(r) == multiset(Filter(options, (t: TagOption) => Offered(t, selected, input, lower)))
    ensures SortedBy(r, OptionLabel, Flipped(cmp))
  {
    FlippedOrdersAlike(cmp);
    SortWith(Filter(options, (t: TagOption) => Offered(t, selected, input, lower)), OptionLabel, Flipped(cmp))
  }

  /** An option is offered exactly when it is a tag, not selected, and
      (with text typed) its lower-cased label contains the lower-cased
      text; the list is in ascending label order. */
  lemma TagListMembers(options: seq<TagOption>, selected: seq<SelectedTag>, input: string,
                       lower: string -> string, cmp: (string, string) -> int, t: TagOption)
    requires IsCollation(cmp)
    ensures t in TagList(options, selected, input, lower, cmp) <==>
      t in options && !IsSelected(selected, t.id) && (input != "" ==> Includes(lower(t.labelText), lower(input)))
    ensures SortedBy(TagList(options, selected, input, lower, cmp), OptionLabel, cmp)
  {
    var r := TagList(options, selected, input, lower, cmp);
    var kept := Filter(options, (x: TagOption) => Offered(x, selected, input, lower));
    assert t in r <==> t in multiset(r);
    assert t in kept <==> t in multiset(kept);
    if t in kept {
      var k :| 0 <= k < |kept| && kept[k] == t;
    }
    if t in options && Offered(t, selected, input, lower) {
      var k :| 0 <= k < |options| && options[k] == t;
    }
    FlippedOrdersAlike(cmp);
  }

  /** Over the dictionary's own options, a tag of the dictionary is
      offered, under its name, exactly when it is not selected and matches
      the typed text; nothing else is offered. */
  lemma DictionaryTagOffered(tags: map<string, string>, keys: seq<string>, selected: seq<SelectedTag>,
                             input: string, lower: string -> string, cmp: (string, string) -> int, t: TagOption)
    requires forall id :: id in tags <==> id in keys
    requires NoDuplicates(keys)
    requires IsCollation(cmp)
    ensures t in TagList(Entries(tags, keys), selected, input, lower, cmp) <==>
      t.id in tags && t.labelText == tags[t.id] && !IsSelected(selected, t.id)
      && (input != "" ==> Includes(lower(t.labelText), lower(input)))
  {
    TagListMembers(Entries(tags, keys), selected, input, lower, cmp, t);
  }

  /** With nothing typed, every unselected tag is offered. */
  lemma EmptyInputOffersUnselected(options: seq<TagOption>, selected: seq<SelectedTag>,
                                   lower: string -> string, cmp: (string, string) -> int, t: TagOption)
    requires IsCollation(cmp)
    requires t in options && !IsSelected(selected, t.id)
    ensures t in TagList(options, selected, "", lower, cmp)
  {
    TagListMembers(options, selected, "", lower, cmp, t);
  }

  /** `selectedTagList`: one pill per selection, in order, with its hue
      and the label the dictionary holds for it (if any). */
  function SelectedTagList(tags: map<string, string>, selected: seq<SelectedTag>): (r: seq<SelectedPill>)
    ensures |r| == |selected|
    ensures forall k :: 0 <= k < |selected| ==>
      && r[k].id == selected[k].id
      && r[k].hueIndex == selected[k].hueIndex
      && (r[k].labelText.Some? <==> selected[k].id in tags)
      && (selected[k].id in tags ==> r[k].labelText == Some(tags[selected[k].id]))
  {
    Map(selected, (st: SelectedTag) =>
      SelectedPill(st.id, if st.id in tags then Some(tags[st.id]) else None, st.hueIndex))
  }
}

=== FILE: tag_updates.dfy ===
/** The list updaters of src/lib/update-tag-on-plant.ts: add a tag to, or
    remove a tag from, the first plant with a given id, leaving the rest of
    the cached plant list untouched. */
module TagUpdates {
  import opened Models
  import opened Lists

  datatype TagAction = Upsert | Remove

  /** `tags.indexOf(tag)`. */
  function IndexOfTag(tags: seq<string>, tag: string): (r: int)
    ensures -1 <= r < |tags|
    ensures r == -1 <==> tag !in tags
    ensures r != -1 ==> tags[r] == tag && tag !in tags[..r]
  {
    FindIndex(tags, t => t == tag)
  }

  /** The array `xs.splice(start, 1)` RETURNS: the one removed element. */
  function SplicedOut<T>(xs: seq<T>, start: nat): (r: seq<T>)
    requires start < |xs|
    ensures r == [xs[start]]
  {
    xs[start..start + 1]
  }

  /** `updateTagOnPlant` as written: the remove branch keeps the array that
      `splice` returns, i.e. the removed tag, as the plant's new tags. */
  function UpdateTagOnPlant(plants: seq<Plant>, plantId: string, tag: string, action: TagAction): (r: seq<Plant>)
    ensures |r| == |plants|
    ensures forall j :: 0 <= j < |r| ==> r[j].id == plants[j].id
    ensures forall j :: 0 <= j < |r| && j != IndexOfId(plants, PlantId, plantId) ==> r[j] == plants[j]
  {
    var i := IndexOfId(plants, PlantId, plantId);
    if i == -1 then plants
    else
      var plant := plants[i];
      var shouldUpdate := (action == Upsert && tag !in plant.tags) || (action == Remove && tag in plant.tags);
      if !shouldUpdate then plants
      else
        var newTags :=
          if action == Upsert then plant.tags + [tag]
          else SplicedOut(plant.tags, IndexOfTag(plant.tags, tag));
        plants[i := plant.(tags := newTags)]
  }

  /** `upsertPlantTag`: the first plant with `plantId` ends up carrying `tag`,
      nothing else in the list changes, and no other field of that plant
      changes. */
  function UpsertPlantTag(plants: seq<Plant>, plantId: string, tag: string): (r: seq<Plant>)
    ensures |r| == |plants|
    ensures forall j :: 0 <= j < |r| ==> r[j].id == plants[j].id
    ensures forall j :: 0 <= j < |r| && j != IndexOfId(plants, PlantId, plantId) ==> r[j] == plants[j]
    ensures IndexOfId(plants, PlantId, plantId) != -1 ==>
      var i := IndexOfId(plants, PlantId, plantId);
      && tag in r[i].tags
      && r[i] == plants[i].(tags := r[i].tags)
      && (r[i].tags == plants[i].tags || r[i].tags == plants[i].tags + [tag])
  {
    UpdateTagOnPlant(plants, plantId, tag, Upsert)
  }

  /** `removePlantTag`, as written. */
  function RemovePlantTag(plants: seq<Plant>, plantId: string, tag: string): (r: seq<Plant>)
    ensures |r| == |plants|
    ensures forall j :: 0 <= j < |r| && j != IndexOfId(plants, PlantId, plantId) ==> r[j] == plants[j]
  {
    UpdateTagOnPlant(plants, plantId, tag, Remove)
  }

  /** An id no plant carries leaves the list as it was. */
  lemma UpsertUnknownIdUnchanged(plants: seq<Plant>, plantId: string, tag: string)
    requires forall j :: 0 <= j < |plants| ==> plants[j].id != plantId
    ensures UpsertPlantTag(plants, plantId, tag) == plants
    ensures RemovePlantTag(plants, plantId, tag) == plants
  {
  }

  /** Upserting a tag the plant already has returns the list unchanged;
      upserting an absent tag appends it after the plant's old tags. */
  lemma UpsertCases(plants: seq<Plant>, plantId: string, tag: string)
    requires IndexOfId(plants, PlantId, plantId) != -1
    ensures var i := IndexOfId(plants, PlantId, plantId);
      if tag in plants[i].tags then UpsertPlantTag(plants, plantId, tag) == plants
      else UpsertPlantTag(plants, plantId, tag) == plants[i := plants[i].(tags := plants[i].tags + [tag])]
  {
  }

  /** Upsert is idempotent. */
  lemma {:induction false} UpsertIdempotent(plants: seq<Plant>, plantId: string, tag: string)
    ensures UpsertPlantTag(UpsertPlantTag(plants, plantId, tag), plantId, tag)
         == UpsertPlantTag(plants, plantId, tag)
  {
    var r := UpsertPlantTag(plants, plantId, tag);
    IndexOfIdSameKeys(plants, r, PlantId, plantId);
  }

  /** Removing a tag the plant lacks returns the list unchanged. */
  lemma RemoveAbsentTagUnchanged(plants: seq<Plant>, plantId: string, tag: string)
    requires IndexOfId(plants, PlantId, plantId) != -1
    requires tag !in plants[IndexOfId(plants, PlantId, plantId)].tags
    ensures RemovePlantTag(plants, plantId, tag) == plants
  {
  }

  /** As written, removing a tag the plant carries replaces ALL of its tags
      by the single removed tag. */
  lemma RemovePlantTagKeepsOnlyRemovedTag(plants: seq<Plant>, plantId: string, tag: string)
    requires IndexOfId(plants, PlantId, plantId) != -1
    requires tag in plants[IndexOfId(plants, PlantId, plantId)].tags
    ensures var i := IndexOfId(plants, PlantId, plantId);
      RemovePlantTag(plants, plantId, tag)[i].tags == [tag]
  {
  }

  /** A concrete list on which the written remove is wrong: removing
      "planted" from a plant tagged ["x", "planted"] leaves ["planted"],
      so the remove does not undo the upsert. */
  lemma RemovePlantTagCounterexample()
    ensures var p := Plant("a", "c", "A1", "", "", "", 1.0, 1.0, Wrappers.None, [], ["x"], Wrappers.None, Wrappers.None);
      && UpsertPlantTag([p], "a", "planted")[0].tags == ["x", "planted"]
      && RemovePlantTag(UpsertPlantTag([p], "a", "planted"), "a", "planted")[0].tags == ["planted"]
      && RemovePlantTag(UpsertPlantTag([p], "a", "planted"), "a", "planted") != [p]
  {
    var p := Plant("a", "c", "A1", "", "", "", 1.0, 1.0, Wrappers.None, [], ["x"], Wrappers.None, Wrappers.None);
    var up := UpsertPlantTag([p], "a", "planted");
    assert up[0].tags == ["x", "planted"];
    assert IndexOfTag(up[0].tags, "planted") == 1;
    var rm := RemovePlantTag(up, "a", "planted");
    assert rm[0].tags == ["planted"];
    assert rm[0] != p;
  }

  /** The evidently intended remove: drop the first occurrence of `tag`
      (`splice` used for its effect, not its return value). */
  function RemovePlantTagIntended(plants: seq<Plant>, plantId: string, tag: string): (r: seq<Plant>)
    ensures |r| == |plants|
    ensures forall j :: 0 <= j < |r| ==> r[j].id == plants[j].id
    ensures forall j :: 0 <= j < |r| && j != IndexOfId(plants, PlantId, plantId) ==> r[j] == plants[j]
    ensures IndexOfId(plants, PlantId, plantId) != -1 ==>
      var i := IndexOfId(plants, PlantId, plantId);
      && r[i] == plants[i].(tags := r[i].tags)
      && multiset(r[i].tags) == multiset(plants[i].tags) - multiset{tag}
  {
    var i := IndexOfId(plants, PlantId, plantId);
    if i == -1 then plants
    else
      var plant := plants[i];
      var k := IndexOfTag(plant.tags, tag);
      if k == -1 then plants
      else
        assert plant.tags == plant.tags[..k] + [tag] + plant.tags[k + 1..];
        plants[i := plant.(tags := RemoveAt(plant.tags, k))]
  }

  /** With the intended remove, removing a freshly upserted tag restores the
      list exactly. */
  lemma {:induction false} RemoveUndoesUpsert(plants: seq<Plant>, plantId: string, tag: string)
    requires IndexOfId(plants, PlantId, plantId) != -1
    requires tag !in plants[IndexOfId(plants, PlantId, plantId)].tags
    ensures RemovePlantTagIntended(UpsertPlantTag(plants, plantId, tag), plantId, tag) == plants
  {
    var i := IndexOfId(plants, PlantId, plantId);
    var up := UpsertPlantTag(plants, plantId, tag);
    IndexOfIdSameKeys(plants, up, PlantId, plantId);
    var tags := plants[i].tags;
    assert up[i].tags == tags + [tag];
    assert IndexOfTag(tags + [tag], tag) == |tags| by {
      assert forall j :: 0 <= j < |tags| ==> (tags + [tag])[j] != tag;
    }
    assert RemoveAt(tags + [tag], |tags|) == tags;
    assert up[i := up[i].(tags := tags)] == plants;
  }
}

=== FILE: wrappers.dfy ===
/** Failure-compatible wrappers used throughout the model: `Option` stands for
    a TypeScript value that may be `undefined`, `Result` for a promise that
    either resolves or rejects. */
module Wrappers {

  datatype Option<+T> = None | Some(value: T) {

    /** The `??` operator: the wrapped value, or `default` when undefined. */
    function GetOr(default: T): T {
      match this
      case Some(v) => v
      case None => default
    }
  }

  datatype Result<+T, +E> = Ok(value: T) | Err(error: E)
}
